=== FILE: README.md ===
# recipe_flow in Dafny

A model of the core of recipe_flow, a browser editor for recipes drawn as graphs.
Ingredients, steps and outputs are nodes; an edge carries what one node feeds into
the next, optionally with its own amount (`useAmount`). The model covers:

- **Graph ordering, validation and narration** (`utils/graphUtils.js`):
  - `topologicalSort`, Kahn's algorithm with a FIFO queue seeded in input order;
  - `validateGraph` and its ordered list of error messages;
  - `simulateExecute`, the one forward pass that narrates a recipe, with its Oxford-comma helper `joinReadable`.
- **Units** (`utils/unitConversion.js`):
  - the unit table and its alias index;
  - unit normalisation;
  - the `<number><letters>` quantity scanner;
  - conversion between units of one type;
  - the amount label.
- **Saving and loading** (`utils/recipeIO.js`):
  - export, a per-node projection;
  - import: lenient parsing, the missing-key check, id, position and edge defaults, the rejection of unknown node types, and the edge filter.
- **Interactive traversal** (`src/interactive/traverse.js`):
  - the start node;
  - the next node;
  - the breadth-first search for a reachable ingredient or step.
- **The cooking session store** (`store/useRecipeStore.js`): a class whose one `interactive` record each action replaces.
- **The editor's list rules** (`components/InnerApp.jsx`): accepting a connection, deleting the selection, and saving the property panel.

Modules, one per file:

- `Wrappers`: `Option` and `Result`.
- `Text`: the JavaScript string operations the core uses.
- `Recipe`: nodes, edges and the `find`/`filter` helpers they share.
- `GraphOrder`: `topologicalSort`.
- `GraphValidate`: `validateGraph`.
- `Narrator`: `simulateExecute`.
- `Units`: the unit table, normalisation and conversion.
- `QuantityScan`: `parseQuantityAndUnit`.
- `RecipeIO`: export and import.
- `Traverse`: the interactive traversal.
- `SessionStore`: the session store.
- `Editor`: the editor's list rules.

The loops of the source are methods with loop invariants:

- the in-degree count, the queue drain and the edge relaxation of `topologicalSort`;
- the three passes of `validateGraph`;
- the narration loop;
- the alias `reduce`;
- the regex `exec` loop;
- the breadth-first search.

Each method is proved equal to a specification function, or to the property the source promises, and the lemmas state that function's properties.

## Model

| member | source | states |
|---|---|---|
| Recipe.FindNode | components/InnerApp.jsx:52 | `find` by id: present exactly when some node has the id, and then it is the first node carrying it |
| Recipe.FindUnique | components/InnerApp.jsx:52 | with unique ids, finding a node's id gives that node back |
| Recipe.Incoming | utils/graphUtils.js:52 | the edges into a node are exactly the edges whose target is its id |
| Recipe.Outgoing | src/interactive/traverse.js:9 | the edges out of a node are exactly the edges whose source is its id |
| Recipe.IncomingAppend | utils/graphUtils.js:52 | the filter works edge by edge: the edges into a node of a concatenation are those of each part, in order |
| Recipe.OutgoingAppend | src/interactive/traverse.js:9 | likewise for the edges out of a node |
| Text.Trim | utils/unitConversion.js:23 | `trim` leaves no white space at either end, and the result is a slice of the input with only white space before and after it |
| Text.TrimNoWhitespaceEnds | utils/unitConversion.js:23 | text without white space at its ends is left as it is |
| Text.TrimIgnoresPadding | utils/unitConversion.js:23 | white space added around a text does not change its trim |
| Text.TrimIdempotent | utils/unitConversion.js:23 | trimming twice is trimming once |
| Text.ToLower | utils/unitConversion.js:23 | lower-casing maps each character on its own and keeps the length |
| Text.ToLowerTrim | utils/unitConversion.js:23 | lower-casing commutes with trimming, since it keeps white space and non-white space apart |
| Text.RemoveAll | utils/unitConversion.js:23 | `replace(/\./g, "")` leaves no period and removes exactly the periods: the other characters keep their counts, and period-free text is unchanged |
| Text.RemoveAllAppend | utils/unitConversion.js:23 | removal works character by character, so it keeps the order of what remains |
| Text.CodeUnits | utils/unitConversion.js:37 | a string's length in UTF-16 code units lies between its character count and twice that count |
| Text.CodeUnitsAppend | utils/unitConversion.js:37 | code-unit lengths add up over a concatenation |
| Text.CharAt | utils/unitConversion.js:37 | a code-unit position selects the first character boundary at or after it, and none past the end |
| Text.CharAtOfCodeUnits | utils/unitConversion.js:37 | the code-unit offset of a character boundary selects that boundary back |
| Text.OrElse | utils/graphUtils.js:64 | `a \|\| b` is `a` when it is a non-empty string, else `b` |
| GraphOrder.CountIncoming | utils/graphUtils.js:4-5 | the counting loop builds the in-degree map of the specification |
| GraphOrder.InitialCountsValue | utils/graphUtils.js:4-5 | the in-degree map holds every node id with its number of incoming edges |
| GraphOrder.RelaxOutgoing | utils/graphUtils.js:11-15 | the inner loop decrements each target and enqueues the nodes that reach zero, as `Relax` specifies |
| GraphOrder.RelaxMeasure | utils/graphUtils.js:11-15 | relaxing only appends to the queue, and each enqueued node leaves the set of positive in-degrees |
| GraphOrder.TopologicalSort | utils/graphUtils.js:3-22 | the method's loops compute exactly the functional Kahn specification |
| GraphOrder.Sources | utils/graphUtils.js:6 | the seed holds exactly the nodes whose in-degree is zero |
| GraphOrder.SourcesAreInDegreeZero | utils/graphUtils.js:6 | the seed is the in-input-order list of nodes without incoming edges |
| GraphOrder.UnorderedIds | utils/graphUtils.js:18 | `remaining` holds exactly the node ids missing from the order |
| GraphOrder.Kahn | utils/graphUtils.js:3-22 | specified by `GraphOrder.KahnFacts`, `GraphOrder.KahnPermutation`, `GraphOrder.KahnRemaining`, `GraphOrder.KahnRemainingBehindCycles` and `GraphOrder.KahnDetectsCycles` |
| GraphOrder.KahnFacts | utils/graphUtils.js:8-16 | the order has unique ids, only graph nodes, sources before targets, and the seed as a prefix; every unordered node still has a pending input |
| GraphOrder.KahnSize | utils/graphUtils.js:17 | the order is never longer than the node list, and a full-length order holds every id |
| GraphOrder.KahnRespectsEdges | utils/graphUtils.js:8-16 | in the order, every edge's source comes at an earlier position than its target, and no node appears twice |
| GraphOrder.KahnTieBreak | utils/graphUtils.js:6-9 | the nodes without inputs open the order, in their input order (FIFO queue) |
| GraphOrder.KahnPermutation | utils/graphUtils.js:17-21 | without a cycle report the order is a permutation of the nodes and `remaining` is empty |
| GraphOrder.KahnRemaining | utils/graphUtils.js:17-19 | a cycle is reported exactly when the order is short; `remaining` is then non-empty and holds exactly the ids not in the order |
| GraphOrder.StuckNodesHaveCycle | utils/graphUtils.js:17-19 | a node left unordered, when every unordered node has a pending input, lies on a cycle or downstream of one: some walk leads from a node of a cycle to it |
| GraphOrder.BehindCycleUnordered | utils/graphUtils.js:8-16 | conversely, no node on or downstream of a cycle can be placed in an order that respects the edges |
| GraphOrder.KahnRemainingBehindCycles | utils/graphUtils.js:17-19 | with unique ids, `remaining` holds exactly the ids that lie on a cycle or downstream of one |
| GraphOrder.OrderedGraphIsAcyclic | utils/graphUtils.js:8-16 | an order that respects every edge and holds every endpoint rules out any cycle |
| GraphOrder.RankedIsAcyclic | utils/graphUtils.js:8-16 | a graph whose edges all climb in some ranking of the ids has no cycle |
| GraphOrder.KahnDetectsCycles | utils/graphUtils.js:17-19 | with unique ids, the sort reports a cycle exactly when the graph has a closed walk |
| GraphValidate.Complaint | utils/graphUtils.js:26-43 | a pass records at most one message per node, and one exactly when the node has the pass's kind and breaks its rule |
| GraphValidate.ComplaintShape | utils/graphUtils.js:27-29 | each pass's test: outputs and steps without inputs, ingredients with inputs |
| GraphValidate.OutputPass | utils/graphUtils.js:26-31 | the first loop appends the complaints about outputs without inputs, in node order |
| GraphValidate.IngredientPass | utils/graphUtils.js:32-37 | the second loop appends the complaints about ingredients with inputs, in node order |
| GraphValidate.StepPass | utils/graphUtils.js:38-43 | the third loop appends the complaints about steps without inputs, in node order |
| GraphValidate.ValidateGraph | utils/graphUtils.js:24-47 | the method returns the three passes' messages followed by the cycle message of the sort's result |
| GraphValidate.GraphErrors | utils/graphUtils.js:24-47 | specified by `GraphValidate.ErrorsGrouped`, `GraphValidate.NoErrorsIff` and `GraphValidate.CycleMessageIffCycle` |
| GraphValidate.KindErrorsMembers | utils/graphUtils.js:26-43 | a pass reports every node of its kind that breaks the rule, and nothing else |
| GraphValidate.KindErrorsEmpty | utils/graphUtils.js:26-43 | a pass is silent exactly when no node of its kind breaks the rule |
| GraphValidate.ErrorsGrouped | utils/graphUtils.js:24-46 | the messages come grouped: outputs, then ingredients, then steps, then the cycle message |
| GraphValidate.CycleMessage | utils/graphUtils.js:44-45 | at most one cycle message, present exactly when the sort reports a cycle |
| GraphValidate.CycleMessageIffCycle | utils/graphUtils.js:44-45 | with unique ids, a cycle message appears exactly when the graph has a cycle |
| GraphValidate.NoErrorsIff | utils/graphUtils.js:24-46 | validation is clean exactly when no node breaks its kind's rule and no cycle is reported |
| GraphValidate.CleanWhenAcyclic | utils/graphUtils.js:24-46 | a graph that breaks no rule and ranks its edges upwards validates cleanly |
| GraphValidate.ChainIsValid | utils/testUtils.js:10-18 | the ingredient, step and output chain validates with no errors |
| GraphValidate.IngredientWithInputIsReported | utils/testUtils.js:22-28 | an ingredient with an incoming edge always draws a "cannot have inputs" message |
| GraphValidate.OutputWithoutInputIsReported | utils/testUtils.js:29-33 | an output without inputs always draws a "no inputs" message |
| GraphValidate.CycleIsReported | utils/testUtils.js:34-43 | any cycle, among nodes with unique ids, draws a "Cycle detected" message |
| GraphValidate.TwoStepsFormCycle | utils/testUtils.js:34-43 | two steps feeding each other form a cycle |
| Narrator.JoinReadable | utils/graphUtils.js:55-60 | specified by `Narrator.JoinReadableIsListing` |
| Narrator.JoinReadableIsListing | utils/graphUtils.js:55-60 | `joinReadable` writes "", "a", "a and b", or "x1, …, and xn" for three or more items |
| Narrator.SerialIsJoin | utils/graphUtils.js:59 | the listing of three or more items is the items but the last joined by ", ", then ", and " and the last |
| Narrator.JoinFront | utils/graphUtils.js:59 | `join` peels off its first element |
| Narrator.EdgeAmountWins | utils/graphUtils.js:71 | a step phrase takes the edge's amount when it has one, else the source ingredient's |
| Narrator.Simulation | utils/graphUtils.js:49-86 | specified by `Narrator.SimulationFailsOnCycle`, `Narrator.OneLinePerNode` and `Narrator.EveryNodeNarrated` |
| Narrator.SimulateExecute | utils/graphUtils.js:49-86 | the method's loop produces exactly the specified narration, or the cycle error |
| Narrator.SimulationFailsOnCycle | utils/graphUtils.js:50-51 | the simulation throws exactly when the sort reports a cycle, and with unique ids exactly when the graph has one |
| Narrator.VisitAddsLine | utils/graphUtils.js:61-83 | visiting an ingredient, step or output appends one line opening with its kind's marker, keeping the earlier lines |
| Narrator.OneLinePerNode | utils/graphUtils.js:61-84 | the log holds one line per narrated node, in visiting order, each opening with its kind's marker |
| Narrator.NarratedPermutation | utils/graphUtils.js:61-84 | permuting the nodes permutes the narrated ones the same way |
| Narrator.EveryNodeNarrated | utils/graphUtils.js:61-85 | on an acyclic graph with unique ids, every ingredient, step and output gets exactly one line |
| Units.BuildAliasLookup | utils/unitConversion.js:14-19 | the `reduce` builds an index that holds a word exactly when a row spells it, mapped to that row |
| Units.IndexRows | utils/unitConversion.js:14-19 | the outer loop over the rows builds the specified index |
| Units.IndexAliases | utils/unitConversion.js:15-17 | the inner loop records every alias of one row, lower-cased |
| Units.IndexAgrees | utils/unitConversion.js:14-19 | the index holds a word exactly when some row spells it, and maps it to the last such row |
| Units.OwnerIsKey | utils/unitConversion.js:14-19 | the index only ever names a key of the table |
| Units.TableWellFormed | utils/unitConversion.js:1-12 | each key is among its own aliases, every alias is a lower-case word, no alias is in two rows, every key has a definition |
| Units.SpellingsDisjoint | utils/unitConversion.js:1-12 | no alias belongs to two units |
| Units.KeysAgree | utils/unitConversion.js:1-12 | the definitions and the alias rows name the same ten keys |
| Units.AliasNormalizes | utils/unitConversion.js:21-25 | every alias of every unit normalises to that unit's key |
| Units.NormalizeUnitIsKey | utils/unitConversion.js:21-25 | normalisation yields a key of the table and is idempotent on its results |
| Units.NormalizeUnitEmpty | utils/unitConversion.js:22 | missing and empty text does not normalise |
| Units.NormalizeUnit | utils/unitConversion.js:21-25 | specified by `Units.NormalizeIsLookup`, `Units.NormalizeUnitIsKey`, `Units.AliasNormalizes` and the invariance lemmas below |
| Units.NormalizeIsLookup | utils/unitConversion.js:21-25 | normalisation is the alias lookup of the trimmed, lower-cased text without periods |
| Units.OnlyWordsAreSpelled | utils/unitConversion.js:14-19 | only a non-empty lower-case word is found in the alias index |
| Units.NormalizeIgnoresPadding | utils/unitConversion.js:23 | white space around the unit does not change its normalisation |
| Units.NormalizeIgnoresPeriod | utils/unitConversion.js:23 | a period inside a unit without white space around it does not change its normalisation |
| Units.NormalizeIgnoresCase | utils/unitConversion.js:23 | texts that lower-case alike normalise alike |
| Units.PeriodBeforeSpace | utils/unitConversion.js:23 | a period followed by a space before a word normalises to null, since periods are removed after trimming |
| Units.GetUnitInfo | utils/unitConversion.js:27-30 | specified by `Units.GetUnitInfoIsNormalized` |
| Units.GetUnitInfoIsNormalized | utils/unitConversion.js:27-30 | `getUnitInfo` finds a row exactly when the text normalises, and then it is that unit's row |
| Units.ConvertToBase | utils/unitConversion.js:54-58 | specified by `Units.ConvertToBaseDefined` |
| Units.GetUnitType | utils/unitConversion.js:69-72 | specified through `Units.CompareUnitTypesIff` |
| Units.CompareUnitTypes | utils/unitConversion.js:74-79 | specified by `Units.CompareUnitTypesIff` |
| Units.ConvertBetween | utils/unitConversion.js:60-67 | specified by `Units.ConvertBetweenMeaning`, `Units.ConvertBetweenScales` and the round-trip lemmas |
| Units.ConvertToBaseDefined | utils/unitConversion.js:54-58 | `convertToBase` fails exactly on a unit outside the table and keeps positive amounts positive |
| Units.CompareUnitTypesIff | utils/unitConversion.js:74-79 | `compareUnitTypes` holds exactly when both units are known with one type, and is symmetric |
| Units.ConvertBetweenScales | utils/unitConversion.js:60-67 | a successful conversion multiplies by the source factor and divides by the target factor |
| Units.ConvertBetweenMeaning | utils/unitConversion.js:60-67 | a conversion succeeds exactly for comparable units, and then both amounts have the same base quantity |
| Units.ConvertToSelf | utils/unitConversion.js:60-67 | converting a known unit to itself gives the quantity back |
| Units.ConvertRoundTrip | utils/unitConversion.js:60-67 | converting there and back gives the quantity back |
| Units.ConvertCompose | utils/unitConversion.js:60-67 | converting through an intermediate unit equals converting directly |
| Units.ConversionExamples | utils/unitConversion.js:1-12 | worked conversions between table units |
| Units.BuildAmountLabel | utils/unitConversion.js:81-85 | specified by `Units.AmountLabelShape` |
| Units.AmountLabelShape | utils/unitConversion.js:81-85 | the label is missing exactly for a missing quantity or empty unit; otherwise it is the quantity then the normalised unit, or the raw unit |
| Units.ConvertBetweenAsWrittenAgrees | utils/unitConversion.js:60-67 | on names outside `Object.prototype`, the lookup as written agrees with the corrected model |
| Units.InheritedNameConvertsToNaN | utils/unitConversion.js:60-67 | converting between two inherited member names, such as "constructor", yields NaN |
| Units.ConstructorNormalizesAsWritten | utils/unitConversion.js:24 | "constructor" normalises, as written, to the inherited `Object` function rather than to null |
| QuantityScan.RunFacts | utils/unitConversion.js:32 | a character-class run stops at the first character outside the class |
| QuantityScan.MatchAtSound | utils/unitConversion.js:32 | a match found at a position is a match of the pattern |
| QuantityScan.MatchAtComplete | utils/unitConversion.js:32 | wherever the pattern matches, the matcher finds a match with the same number and the longest unit |
| QuantityScan.TokenBounds | utils/unitConversion.js:32 | a match is non-empty, lies inside the text and matches the pattern |
| QuantityScan.FindMatch | utils/unitConversion.js:37 | `exec` from `lastIndex` finds a match at or after that position |
| QuantityScan.FindMatchIsLeftmost | utils/unitConversion.js:37 | no match starts between `lastIndex` and the match found |
| QuantityScan.FindMatchIsGreedy | utils/unitConversion.js:32 | the match found takes the longest number and letter runs |
| QuantityScan.FindMatchFindsAny | utils/unitConversion.js:37 | if the pattern matches anywhere after `lastIndex`, `exec` finds a match no later |
| QuantityScan.NumberValueBounds | utils/unitConversion.js:38 | the quantity read is non-negative and below its integer part plus one |
| QuantityScan.InterpretUnit | utils/unitConversion.js:40-48 | a reading has the normalised unit, the letters as written and the table's type |
| QuantityScan.InterpretAmount | utils/unitConversion.js:38 | a reading's quantity is the number with a comma read as the decimal point |
| QuantityScan.VisitedAreMatches | utils/unitConversion.js:37 | the tokens the loop visits are matches, in increasing, non-overlapping order |
| QuantityScan.ScanIsFirstKnown | utils/unitConversion.js:37-51 | the scan returns the first visited token whose unit is known, skipping the others |
| QuantityScan.FirstSomeMeaning | utils/unitConversion.js:37-51 | no result exactly when no visited token has a known unit |
| QuantityScan.Scan | utils/unitConversion.js:37-51 | the position it leaves lies inside the text, and is 0 exactly when nothing was found; `QuantityScan.ScanIsFirstKnown` states the result |
| QuantityScan.ParseQuantityAndUnit | utils/unitConversion.js:34-52 | specified by `QuantityScan.ParseQuantityAndUnitMeaning` |
| QuantityScan.ParseQuantityAndUnitMeaning | utils/unitConversion.js:34-52 | null for missing or empty text; otherwise the first match from the start of the text whose word names a unit |
| QuantityScan.ScanResultFacts | utils/unitConversion.js:37-51 | a result is a pattern match at or after the start with a table unit; `lastIndex` is its end, or 0 after a miss |
| QuantityScan.QuantityScanner.Exec | utils/unitConversion.js:37 | `exec` on the `/g` regex, with `lastIndex` in UTF-16 code units: past the end it fails; otherwise it returns the next match from the character at `lastIndex` and moves `lastIndex` to the match's end in code units, or resets it to 0 |
| QuantityScan.QuantityScanner.Parse | utils/unitConversion.js:34-52 | the loop as written leaves missing or empty text alone; otherwise it scans from the stored `lastIndex` (in code units) and leaves it at the code-unit end of the match it returns, or at 0 |
| QuantityScan.StaleLastIndexSkipsMatch | utils/unitConversion.js:32-44 | after "100 g" parses, `lastIndex` is 5, and a scan of "1 cup" from there finds nothing, though "1 cup" holds one cup |
| QuantityScan.AstralCharCountsTwice | utils/unitConversion.js:37 | a character above U+FFFF counts twice in `lastIndex`: "🍅 100 g" has 7 characters but 8 code units |
| QuantityScan.ParsesOneCup | utils/unitConversion.js:34-52 | "1 cup" reads as one cup of volume |
| QuantityScan.DecimalCommaExample | utils/unitConversion.js:38 | "1,5 kg" reads as 1.5 kilograms |
| QuantityScan.ScansHundredGrams | utils/unitConversion.js:34-52 | "100 g" reads as 100 grams, with `lastIndex` left at 5 |
| RecipeIO.UidInjective | utils/recipeIO.js:34 | fresh names drawn at different counters differ |
| RecipeIO.DataRoundTrip | utils/recipeIO.js:9 | a node's data (label, amount, action, time, temp, serves) survives being saved and read back |
| RecipeIO.NodeJsonProjects | utils/recipeIO.js:9 | a saved node holds exactly `id`, `type`, `position` and `data`, each readable back |
| RecipeIO.ExportDocument | utils/recipeIO.js:5-15 | specified by `RecipeIO.ExportDocumentShape` and `RecipeIO.NodeJsonProjects` |
| RecipeIO.ExportDocumentShape | utils/recipeIO.js:5-15 | the saved document has version 1 and lists every node and every edge, in order |
| RecipeIO.IndexFrom | utils/recipeIO.js:22 | `indexOf` finds the first occurrence at or after a position |
| RecipeIO.LastIndexBefore | utils/recipeIO.js:23 | `lastIndexOf` finds the last occurrence |
| RecipeIO.ParseLenient | utils/recipeIO.js:18-29 | specified by `RecipeIO.LenientStrict`, `RecipeIO.LenientRecovers` and `RecipeIO.LenientRethrows` |
| RecipeIO.LenientStrict | utils/recipeIO.js:19-20 | text that parses is taken as it is |
| RecipeIO.LenientRecovers | utils/recipeIO.js:21-25 | failing that, for any text whose first `{` comes before its last `}`, exactly that span is parsed, and its failure is the import's error |
| RecipeIO.LenientRethrows | utils/recipeIO.js:26-27 | without a `{` followed later by a `}`, the original parse error is rethrown |
| RecipeIO.InvalidFileIff | utils/recipeIO.js:30 | the import fails with "Invalid recipe file." exactly when `nodes` or `edges` is missing or falsy |
| RecipeIO.DraftNodes | utils/recipeIO.js:32-41 | the node `map` fails only on a `null` raw node, and otherwise keeps the count |
| RecipeIO.DraftNodesDrafted | utils/recipeIO.js:32-41 | each draft has the raw id or a fresh one, the raw type, a usable position or the i-th default, and the data or `{}` |
| RecipeIO.CheckKindsAllOrNothing | utils/recipeIO.js:42-47 | the type check passes only when every type is known, and otherwise fails on the first unknown one |
| RecipeIO.UnknownTypeRejectsAll | utils/recipeIO.js:42-47 | one node of another type makes the whole import fail with "Unknown node type: …" |
| RecipeIO.MessagesDiffer | utils/recipeIO.js:30-44 | the unknown-type message is never the missing-key message |
| RecipeIO.ImportDocument | utils/recipeIO.js:30-60 | specified by `RecipeIO.InvalidFileIff`, `RecipeIO.ImportedNodesFaithful` and `RecipeIO.ImportedEdgesFiltered` |
| RecipeIO.ImportedNodesFaithful | utils/recipeIO.js:32-47 | an import holds one node per raw node, in order, each with the raw id or a fresh one, the raw type (one of the three kinds), a usable position or the i-th default, and the data or `{}` |
| RecipeIO.DraftEdges | utils/recipeIO.js:50-58 | the edge `map` fails only on a `null` raw edge, and otherwise keeps the count |
| RecipeIO.DraftEdgesDefaulted | utils/recipeIO.js:50-58 | each edge has its id or a fresh non-empty one, its endpoints as text, `type` "bezier" and a closed arrow by default |
| RecipeIO.KeepEdges | utils/recipeIO.js:59 | the filter keeps exactly the edges whose endpoints are distinct imported ids |
| RecipeIO.KeepEdgesAppend | utils/recipeIO.js:59 | the filter works edge by edge, so it keeps the input order |
| RecipeIO.ImportedEdgesFiltered | utils/recipeIO.js:48-59 | the imported edges are exactly the defaulted raw edges joining two distinct imported nodes, in order |
| RecipeIO.ImportRecipe | utils/recipeIO.js:17-61 | specified by `RecipeIO.ImportRecipeOfExport` and `RecipeIO.ExportImportRoundTrip` |
| RecipeIO.ImportRecipeOfExport | utils/recipeIO.js:17-61 | text that parses to a saved document without start nodes loads as its nodes, reloaded, and its edges between distinct loaded ids |
| RecipeIO.ExportImportRoundTrip | utils/recipeIO.js:5-60 | for a graph without start nodes, loading what was saved gives back every node, with its id, type, position and data, and every edge that joins two distinct saved nodes, in order, using no fresh names; dangling and self-loop edges are dropped, and an empty drawing type comes back as "bezier" |
| RecipeIO.RoundTripKeepsGraph | utils/testUtils.js:60-68 | a saved graph without start nodes whose edges join distinct nodes loads back with the same counts, ids, types, data and edge endpoints |
| RecipeIO.ExportedStartRejected | utils/recipeIO.js:42-47 | a graph with a start node saves, but loading it fails with "Unknown node type: start" |
| Traverse.FindStartNode | src/interactive/traverse.js:3-5 | the first node of kind start, or none when there is none |
| Traverse.GetNextNodeId | src/interactive/traverse.js:7-13 | no next node for a missing current id or a node without outgoing edges |
| Traverse.NextIsFirstTarget | src/interactive/traverse.js:9-12 | otherwise the next node is the target of the first outgoing edge, in edge order |
| Traverse.HasReachableInteractivePath | src/interactive/traverse.js:15-32 | the search answers true exactly when some walk from the start, through nodes of the graph, ends at an ingredient or a step; it stops on cyclic graphs |
| SessionStore.Started | store/useRecipeStore.js:20-31 | a session starts awaiting prep at its start node, with empty history, a stopped timer and no warning |
| SessionStore.Restarted | store/useRecipeStore.js:33-49 | restarting without a start node gives the initial state, otherwise a fresh start on the same start node, graph and signature |
| SessionStore.Advanced | store/useRecipeStore.js:50-65 | advancing records the node left (if any) at the end of the history, sets the next node and status, and stops the timer |
| SessionStore.Finished | store/useRecipeStore.js:66-75 | completing keeps the history, clears the current node and stops the timer |
| SessionStore.TimerCancelled | store/useRecipeStore.js:76-84 | cancelling goes back to awaiting prep with the timer stopped |
| SessionStore.TimerStarted | store/useRecipeStore.js:85-93 | starting a timer counts down from the duration, status running-timer |
| SessionStore.Ticked | store/useRecipeStore.js:94-109 | a tick leaves a stopped timer alone; a running one loses the elapsed time, never below zero, and runs exactly while time remains |
| SessionStore.Warned | store/useRecipeStore.js:110-117 | only the warning changes |
| SessionStore.RecipeStore.constructor | store/useRecipeStore.js:3-19 | the store opens in the initial state |
| SessionStore.RecipeStore.StartSession | store/useRecipeStore.js:20-31 | the record becomes the started session |
| SessionStore.RecipeStore.StopSession | store/useRecipeStore.js:32 | the record returns to the initial state |
| SessionStore.RecipeStore.Restart | store/useRecipeStore.js:33-49 | the record becomes the restarted session |
| SessionStore.RecipeStore.Advance | store/useRecipeStore.js:50-65 | the record advances, with awaiting-prep as the default status |
| SessionStore.RecipeStore.Complete | store/useRecipeStore.js:66-75 | the record becomes the completed session |
| SessionStore.RecipeStore.CancelTimer | store/useRecipeStore.js:76-84 | the record's timer is cancelled |
| SessionStore.RecipeStore.StartTimer | store/useRecipeStore.js:85-93 | the record's timer starts |
| SessionStore.RecipeStore.Tick | store/useRecipeStore.js:94-109 | the record's timer ticks |
| SessionStore.RecipeStore.SetWarning | store/useRecipeStore.js:110-117 | the record's warning is set |
| SessionStore.RestartForgetsProgress | store/useRecipeStore.js:33-49 | whatever actions ran, restarting gives what restarting at the outset would have |
| SessionStore.RestartAfterStart | store/useRecipeStore.js:20-49 | restarting a started session gives that start again |
| SessionStore.RunKeepsInvariants | store/useRecipeStore.js:50-109 | over any session the timer stays consistent with the status and the history only grows, by at most one per action |
| SessionStore.TicksAddUp | store/useRecipeStore.js:94-109 | two ticks take off what one tick of their sum does |
| SessionStore.TickNeverAddsTime | store/useRecipeStore.js:97 | a tick never adds time and never goes below zero |
| Editor.Endpoint | components/InnerApp.jsx:55-56 | an endpoint names a node exactly when its id is non-empty and in the graph |
| Editor.IsValidConnection | components/InnerApp.jsx:53-64 | unknown endpoints are accepted; between known nodes, a self-loop, an edge into an ingredient or out of an output is refused, and nothing else |
| Editor.AcceptedEdgesRespectKinds | components/InnerApp.jsx:53-64 | in a graph of accepted edges, no ingredient has an input, no output an outgoing edge, and no edge loops |
| Editor.EdgesKept | components/InnerApp.jsx:117 | the kept edges are exactly those touching no selected id |
| Editor.NodesKept | components/InnerApp.jsx:118 | the kept nodes are exactly those not selected |
| Editor.EdgesKeptAppend | components/InnerApp.jsx:117 | the edge filter keeps the remaining edges in order |
| Editor.NodesKeptAppend | components/InnerApp.jsx:118 | the node filter keeps the remaining nodes in order |
| Editor.DeletedIds | components/InnerApp.jsx:118 | after deleting, the graph's ids are the old ids minus the selected ones |
| Editor.DeletionKeepsEndpoints | components/InnerApp.jsx:115-121 | deleting keeps every remaining edge's endpoints in the graph |
| Editor.WithData | components/InnerApp.jsx:83 | saving replaces the data of the nodes with the saved id and changes nothing else |
| Editor.SavingKeepsGraph | components/InnerApp.jsx:83 | saving keeps the set of ids and the edges' endpoints |
| Editor.SavingIsIdempotent | components/InnerApp.jsx:83 | saving the same node twice is saving it once |
| Editor.SavingMissingNode | components/InnerApp.jsx:83 | saving a node no longer in the graph changes nothing |
| Editor.GraphEditor.DoDeleteSelected | components/InnerApp.jsx:115-121 | nothing happens without a selection; otherwise the selected nodes and their edges go and the selection clears |
| Editor.GraphEditor.UpdateSelected | components/InnerApp.jsx:82-85 | the node list takes the saved data and the panel shows the saved node |

## Left out

- JSON text is not modelled. A document is a `Json` value, and `JSON.parse` is a parameter that either yields one or fails. `JSON.stringify` and its layout are not modelled: export is modelled up to the document it writes.
- `uid` (utils/uid) is not part of this model. A fresh name is drawn from a counter threaded through the import; only its non-emptiness and injectivity are used.
- `constants/nodeKinds` is not part of this model. The kinds are the enumeration ingredient, step, output and start, and the start kind is written "start".
- `String(n)` of a number is modelled in plain decimal notation with at most twenty fraction digits. Exponent notation and IEEE rounding are not modelled.
- Recipe.NodeData / RecipeIO.ExportDocument: node data keeps only the six fields the property panel and the node components use (label, amount, action, time, temp, serves), each as text or absent. Other data fields, and numeric values such as the `serves = 2` that `addNode` sets (components/InnerApp.jsx:75), are not carried: the source saves and reloads `data` whole (utils/recipeIO.js:9 and 40), while the model saves a number as the text it renders to and reloads only the six text fields.
- Narrator.SimulateExecute: the data fields the narration reads (label, amount, action, serves) are strings or absent. A numeric `serves` or `amount` is carried as the text it renders to, so a numeric 0, which JavaScript treats as false in `||` and which prints "(serves ?)" or "()" (utils/graphUtils.js:64 and 82), prints "0" in the model. An import copies `data` unchanged (utils/recipeIO.js:40), so such numbers can reach the narration.
- Units.NormalizeIgnoresPeriod: requires the unit to have no white space at its ends. Periods are removed after trimming, so ". g" cleans to " g" and normalises to null (`Units.PeriodBeforeSpace`).
- `toLowerCase` is modelled as ASCII lower-casing plus the Kelvin sign. The other Unicode case mappings are not modelled, since no alias contains them.
- Numbers are exact reals, so the conversions carry no floating-point rounding. The `Number.isNaN` branch of `parseQuantityAndUnit` is absent: a digit run always parses.
- SessionStore.RecipeStore.Advance: `nextStatus` ranges over the four statuses of `src/interactive/types.js`. Other strings the caller might pass are not modelled.
- The React and zustand wiring is not modelled. This covers `set`/`get`, the `sel`/`selectedIds` hooks, `onSelectionChange`, `onConnect`, `addNode` and the rendering.
- `computeNodeNutrition`, the nutrition provider (network access), the number formatting of the node components and `macrosEqual` are not part of this model.
- Traverse.HasReachableInteractivePath: `forEach` pushing each target is modelled as appending the targets of the outgoing edges in one step.
- GraphOrder.TopologicalSort: requires every edge endpoint to name a node. With a dangling target the source pushes `undefined` into the queue (utils/graphUtils.js:14) and then fails reading its `id`. `GraphValidate.ValidateGraph` and `Narrator.SimulateExecute` inherit the requirement.
- GraphOrder.KahnRemaining: states which ids `remaining` holds, not that they stay in input order.
- GraphOrder.KahnPermutation: requires unique node ids, as do the other lemmas about the order. With duplicate ids only the equality of `GraphOrder.TopologicalSort` with its specification is proved.
- RecipeIO.RoundTripKeepsGraph: states the round trip for graphs without start nodes whose edges join distinct existing nodes. Other graphs lose their start nodes' load (`RecipeIO.ExportedStartRejected`) or their dangling and looping edges.

## Findings

| source | as written | input that shows it | evidently intended | confidence | as-written member | corrected member |
|---|---|---|---|---|---|---|
| utils/unitConversion.js:24 and 55-66 | `UNIT_DEFINITIONS[unit]` and `UNIT_ALIAS_LOOKUP[cleaned]` are plain-object reads, so they also find `Object.prototype` members | `convertBetween(1, "constructor", "constructor")` passes the type check (both types are undefined) and returns NaN; `normalizeUnit("constructor")` returns the `Object` function | unknown names give null | not executed | Units.InheritedNameConvertsToNaN, Units.ConstructorNormalizesAsWritten | Units.ConvertBetweenMeaning, Units.NormalizeUnitIsKey |
| utils/unitConversion.js:32-44 | the `/g` regex is shared across calls and keeps `lastIndex` after a successful return | `parseQuantityAndUnit("100 g")`, then `parseQuantityAndUnit("1 cup")`: the second scan starts at 5 and returns null | each call scans its text from the start | not executed | QuantityScan.StaleLastIndexSkipsMatch | QuantityScan.ScanIsFirstKnown |

=== FILE: editor.dfy ===
/**
 * The list rules of the graph editor: which connections the canvas accepts,
 * what deleting the selection removes, and how saving the property panel
 * replaces the data of the selected node.
 */
module Editor {
  import opened Wrappers
  import opened Text
  import opened Recipe

  // ---- Connections ----

  /** The node an endpoint of a connection names: none for a missing or empty id,
      else the first node with that id. */
  function Endpoint(nodes: seq<Node>, id: Option<string>): (r: Option<Node>)
    ensures r.Some? <==> Truthy(id) && id.value in NodeIds(nodes)
    ensures r.Some? ==> r.value == FindNode(nodes, id.value).value
  {
    if Truthy(id) then FindNode(nodes, id.value) else None
  }

  /** `isValidConnection`: connections between known nodes are refused when they
      loop on one node, enter an ingredient or leave an output; a connection with
      an endpoint the editor does not know is let through. */
  function IsValidConnection(nodes: seq<Node>, source: Option<string>, target: Option<string>): (r: bool)
    ensures Endpoint(nodes, source).None? || Endpoint(nodes, target).None? ==> r
    ensures !r <==>
      && Endpoint(nodes, source).Some? && Endpoint(nodes, target).Some?
      && (|| source.value == target.value
          || Endpoint(nodes, target).value.kind == Ingredient
          || Endpoint(nodes, source).value.kind == Output)
  {
    var src := Endpoint(nodes, source);
    var tgt := Endpoint(nodes, target);
    if src.None? || tgt.None? then true
    else if src.value.id == tgt.value.id then false
    else if tgt.value.kind == Ingredient then false
    else if src.value.kind == Output then false
    else true
  }

  /** An edge between two known nodes, named by non-empty ids, that the editor accepted. */
  predicate Accepted(nodes: seq<Node>, e: Edge)
  {
    && e.source != "" && e.source in NodeIds(nodes)
    && e.target != "" && e.target in NodeIds(nodes)
    && IsValidConnection(nodes, Some(e.source), Some(e.target))
  }

  /** What accepting an edge between known nodes rules out. */
  lemma AcceptedEdge(nodes: seq<Node>, e: Edge)
    requires Accepted(nodes, e)
    ensures e.source != e.target
    ensures FindNode(nodes, e.target).value.kind != Ingredient
    ensures FindNode(nodes, e.source).value.kind != Output
  {
    assert Endpoint(nodes, Some(e.source)).Some? && Endpoint(nodes, Some(e.target)).Some?;
  }

  /** In a graph whose edges were all accepted, no ingredient has an input, no
      output has an outgoing edge and no edge loops on one node. */
  lemma AcceptedEdgesRespectKinds(nodes: seq<Node>, edges: seq<Edge>)
    requires UniqueIds(nodes)
    requires forall e :: e in edges ==> Accepted(nodes, e)
    ensures forall n :: n in nodes && n.kind == Ingredient ==> Incoming(edges, n.id) == []
    ensures forall n :: n in nodes && n.kind == Output ==> Outgoing(edges, n.id) == []
    ensures forall e :: e in edges ==> e.source != e.target
  {
    forall e | e in edges
      ensures e.source != e.target
    {
      AcceptedEdge(nodes, e);
    }
    forall n | n in nodes && n.kind == Ingredient
      ensures Incoming(edges, n.id) == []
    {
      var i :| 0 <= i < |nodes| && nodes[i] == n;
      FindUnique(nodes, i);
      if Incoming(edges, n.id) != [] {
        var e := Incoming(edges, n.id)[0];
        AcceptedEdge(nodes, e);
      }
    }
    forall n | n in nodes && n.kind == Output
      ensures Outgoing(edges, n.id) == []
    {
      var i :| 0 <= i < |nodes| && nodes[i] == n;
      FindUnique(nodes, i);
      if Outgoing(edges, n.id) != [] {
        var e := Outgoing(edges, n.id)[0];
        AcceptedEdge(nodes, e);
      }
    }
  }

  // ---- Deleting the selection ----

  /** The edge touches one of the selected ids. */
  predicate Touches(e: Edge, ids: seq<string>)
  {
    e.source in ids || e.target in ids
  }

  /** The edges left once the selected ids are deleted. */
  function EdgesKept(edges: seq<Edge>, ids: seq<string>): (r: seq<Edge>)
    ensures forall e :: e in r <==> e in edges && !Touches(e, ids)
    ensures |r| <= |edges|
  {
    if edges == [] then []
    else (if Touches(edges[0], ids) then [] else [edges[0]]) + EdgesKept(edges[1..], ids)
  }

  /** The nodes left once the selected ids are deleted. */
  function NodesKept(nodes: seq<Node>, ids: seq<string>): (r: seq<Node>)
    ensures forall n :: n in r <==> n in nodes && n.id !in ids
    ensures |r| <= |nodes|
  {
    if nodes == [] then []
    else (if nodes[0].id in ids then [] else [nodes[0]]) + NodesKept(nodes[1..], ids)
  }

  /** The filters work item by item, so what they keep stays in order. */
  lemma {:induction false} EdgesKeptAppend(a: seq<Edge>, b: seq<Edge>, ids: seq<string>)
    ensures EdgesKept(a + b, ids) == EdgesKept(a, ids) + EdgesKept(b, ids)
  {
    if a == [] {
      assert a + b == b;
    } else {
      assert (a + b)[1..] == a[1..] + b;
      EdgesKeptAppend(a[1..], b, ids);
    }
  }

  lemma {:induction false} NodesKeptAppend(a: seq<Node>, b: seq<Node>, ids: seq<string>)
    ensures NodesKept(a + b, ids) == NodesKept(a, ids) + NodesKept(b, ids)
  {
    if a == [] {
      assert a + b == b;
    } else {
      assert (a + b)[1..] == a[1..] + b;
      NodesKeptAppend(a[1..], b, ids);
    }
  }

  /** Nodes and edges that nothing selected touches are kept as they were. */
  lemma {:induction false} UntouchedNodesKept(nodes: seq<Node>, ids: seq<string>)
    requires forall n :: n in nodes ==> n.id !in ids
    ensures NodesKept(nodes, ids) == nodes
  {
    if nodes != [] {
      UntouchedNodesKept(nodes[1..], ids);
    }
  }

  lemma {:induction false} UntouchedEdgesKept(edges: seq<Edge>, ids: seq<string>)
    requires forall e :: e in edges ==> !Touches(e, ids)
    ensures EdgesKept(edges, ids) == edges
  {
    if edges != [] {
      UntouchedEdgesKept(edges[1..], ids);
    }
  }

  /** The selected ids are gone from the graph afterwards, and every other id stays. */
  lemma DeletedIds(nodes: seq<Node>, ids: seq<string>)
    ensures NodeIds(NodesKept(nodes, ids)) == NodeIds(nodes) - set i | i in ids
  {
    var r := NodesKept(nodes, ids);
    forall x | x in NodeIds(nodes) - set i | i in ids
      ensures x in NodeIds(r)
    {
      var n :| n in nodes && n.id == x;
      assert n in r;
    }
  }

  /** Deleting keeps every edge's endpoints in the graph. */
  lemma DeletionKeepsEndpoints(nodes: seq<Node>, edges: seq<Edge>, ids: seq<string>)
    requires EndpointsExist(nodes, edges)
    ensures EndpointsExist(NodesKept(nodes, ids), EdgesKept(edges, ids))
  {
    var kept := NodesKept(nodes, ids);
    forall e | e in EdgesKept(edges, ids)
      ensures e.source in NodeIds(kept) && e.target in NodeIds(kept)
    {
      var s :| s in nodes && s.id == e.source;
      var t :| t in nodes && t.id == e.target;
      assert s in kept && t in kept;
    }
  }

  // ---- Saving the property panel ----

  /** `n` with `updated`'s data when their ids match. */
  function Saved(n: Node, updated: Node): Node
  {
    if n.id == updated.id then n.(data := updated.data) else n
  }

  /** The node list after the panel saves `updated`: only nodes with `updated`'s id
      take its data, and nothing else about any node changes. */
  function WithData(nodes: seq<Node>, updated: Node): (r: seq<Node>)
    ensures |r| == |nodes|
    ensures forall i :: 0 <= i < |nodes| ==>
      r[i].id == nodes[i].id && r[i].kind == nodes[i].kind
      && r[i].position == nodes[i].position && r[i].editor == nodes[i].editor
    ensures forall i :: 0 <= i < |nodes| ==> r[i].data == if nodes[i].id == updated.id then updated.data else nodes[i].data
  {
    if nodes == [] then [] else [Saved(nodes[0], updated)] + WithData(nodes[1..], updated)
  }

  /** Saving keeps the set of ids, so every edge still joins nodes of the graph. */
  lemma SavingKeepsGraph(nodes: seq<Node>, edges: seq<Edge>, updated: Node)
    ensures NodeIds(WithData(nodes, updated)) == NodeIds(nodes)
    ensures EndpointsExist(nodes, edges) ==> EndpointsExist(WithData(nodes, updated), edges)
  {
    var r := WithData(nodes, updated);
    forall x | x in NodeIds(nodes)
      ensures x in NodeIds(r)
    {
      var i :| 0 <= i < |nodes| && nodes[i].id == x;
      assert r[i] in r;
    }
    forall x | x in NodeIds(r)
      ensures x in NodeIds(nodes)
    {
      var i :| 0 <= i < |r| && r[i].id == x;
      assert nodes[i] in nodes;
    }
  }

  /** Saving the same node twice is saving it once. */
  lemma SavingIsIdempotent(nodes: seq<Node>, updated: Node)
    ensures WithData(WithData(nodes, updated), updated) == WithData(nodes, updated)
  {
  }

  /** Saving a node no longer in the graph changes nothing. */
  lemma SavingMissingNode(nodes: seq<Node>, updated: Node)
    requires updated.id !in NodeIds(nodes)
    ensures WithData(nodes, updated) == nodes
  {
    var r := WithData(nodes, updated);
    forall i | 0 <= i < |nodes|
      ensures r[i] == nodes[i]
    {
      assert nodes[i] in nodes;
    }
  }

  // ---- The editor ----

  /** The editor's node and edge lists, the node the property panel shows, and the
      ids selected on the canvas. */
  class GraphEditor {
    var nodes: seq<Node>
    var edges: seq<Edge>
    var selection: Option<Node>
    var selectedIds: seq<string>

    constructor(nodes: seq<Node>, edges: seq<Edge>, selectedIds: seq<string>)
      ensures this.nodes == nodes && this.edges == edges
      ensures this.selection == None && this.selectedIds == selectedIds
    {
      this.nodes := nodes;
      this.edges := edges;
      this.selection := None;
      this.selectedIds := selectedIds;
    }

    /** `doDeleteSelected`: nothing happens without a selection; otherwise the
        selected nodes and every edge touching them go, and the selection clears. */
    method DoDeleteSelected()
      modifies this
      ensures old(selectedIds) == [] ==>
        && nodes == old(nodes) && edges == old(edges)
        && selection == old(selection) && selectedIds == old(selectedIds)
      ensures old(selectedIds) != [] ==>
        && edges == EdgesKept(old(edges), old(selectedIds))
        && nodes == NodesKept(old(nodes), old(selectedIds))
        && selection == None && selectedIds == []
      ensures EndpointsExist(old(nodes), old(edges)) ==> EndpointsExist(nodes, edges)
    {
      if |selectedIds| == 0 {
        return;
      }
      if EndpointsExist(nodes, edges) {
        DeletionKeepsEndpoints(nodes, edges, selectedIds);
      }
      edges := EdgesKept(edges, selectedIds);
      nodes := NodesKept(nodes, selectedIds);
      selection := None;
      selectedIds := [];
    }

    /** `updateSelected`: the saved node's data replaces that of the node with its
        id, and the panel shows the saved node. */
    method UpdateSelected(updated: Node)
      modifies this
      ensures nodes == WithData(old(nodes), updated) && selection == Some(updated)
      ensures edges == old(edges) && selectedIds == old(selectedIds)
      ensures EndpointsExist(old(nodes), edges) ==> EndpointsExist(nodes, edges)
    {
      SavingKeepsGraph(nodes, edges, updated);
      nodes := WithData(nodes, updated);
      selection := Some(updated);
    }
  }
}

=== FILE: graph_order.dfy ===
/**
 * Kahn's topological sort of the recipe graph (`topologicalSort` in
 * utils/graphUtils.js): in-degrees in a map keyed by node id, a FIFO queue
 * seeded with the in-degree-0 nodes in input order, and a partial order plus
 * the unordered ids when the graph has a cycle.
 */
module GraphOrder {
  import opened Wrappers
  import opened Recipe

  datatype TopoResult = TopoResult(order: seq<Node>, hasCycle: bool, remaining: seq<string>)

  /** The in-degree map and the queue while the sort runs. */
  datatype Frontier = Frontier(counts: map<string, int>, queue: seq<Node>)

  /** `incoming.get(id) || 0`. */
  function Get(counts: map<string, int>, id: string): int
  {
    if id in counts then counts[id] else 0
  }

  /** `new Map(nodes.map((n) => [n.id, 0]))`. */
  function ZeroCounts(nodes: seq<Node>): (c: map<string, int>)
    ensures c.Keys == NodeIds(nodes)
    ensures forall id :: id in c ==> c[id] == 0
  {
    map id | id in NodeIds(nodes) :: 0
  }

  /** One increment of `incoming` per edge target, edges taken in order. */
  function CountEdges(counts: map<string, int>, edges: seq<Edge>): map<string, int>
    decreases edges
  {
    if edges == [] then counts
    else CountEdges(counts[edges[0].target := Get(counts, edges[0].target) + 1], edges[1..])
  }

  function InitialCounts(nodes: seq<Node>, edges: seq<Edge>): map<string, int>
  {
    CountEdges(ZeroCounts(nodes), edges)
  }

  /** `nodes.filter((n) => (incoming.get(n.id) || 0) === 0)`. */
  function Sources(nodes: seq<Node>, counts: map<string, int>): (r: seq<Node>)
    ensures forall n :: n in r <==> n in nodes && Get(counts, n.id) == 0
    ensures |r| <= |nodes|
  {
    if nodes == [] then []
    else (if Get(counts, nodes[0].id) == 0 then [nodes[0]] else []) + Sources(nodes[1..], counts)
  }

  /** The ids whose in-degree is still positive: the ids that may yet be queued. */
  ghost function Positive(counts: map<string, int>): set<string>
  {
    set id | id in counts && counts[id] > 0
  }

  lemma PositiveAfterDecrement(counts: map<string, int>, t: string)
    ensures var c := counts[t := Get(counts, t) - 1];
      |Positive(c)| == if Get(counts, t) == 1 then |Positive(counts)| - 1 else |Positive(counts)|
  {
    var c := counts[t := Get(counts, t) - 1];
    if Get(counts, t) == 1 {
      assert Positive(c) == Positive(counts) - {t};
    } else {
      assert Positive(c) == Positive(counts);
    }
  }

  /**
   * The inner loop: for each outgoing edge of the dequeued node, in edge
   * order, decrement the target's in-degree and enqueue the target node when
   * it reaches zero. Every queued node costs one positive in-degree, so the
   * queue length plus the number of positive in-degrees never changes.
   */
  function Relax(nodes: seq<Node>, f: Frontier, out: seq<Edge>): (r: Frontier)
    requires forall e :: e in out ==> e.target in NodeIds(nodes)
    decreases out
  {
    if out == [] then f else Relax(nodes, Step(nodes, f, out[0].target), out[1..])
  }

  /** One edge into `t`: decrement its in-degree, and enqueue its node when the
      in-degree reaches zero. */
  function Step(nodes: seq<Node>, f: Frontier, t: string): Frontier
    requires t in NodeIds(nodes)
  {
    var v := Get(f.counts, t) - 1;
    Frontier(f.counts[t := v], if v == 0 then f.queue + [FindNode(nodes, t).value] else f.queue)
  }

  /** Relaxing only appends to the queue, and every node it queues costs one
      positive in-degree: the queue length plus the number of positive
      in-degrees never changes. */
  lemma {:induction false} RelaxMeasure(nodes: seq<Node>, f: Frontier, out: seq<Edge>)
    requires forall e :: e in out ==> e.target in NodeIds(nodes)
    ensures |Relax(nodes, f, out).queue| + |Positive(Relax(nodes, f, out).counts)| == |f.queue| + |Positive(f.counts)|
    ensures f.queue <= Relax(nodes, f, out).queue
    decreases out
  {
    if out != [] {
      PositiveAfterDecrement(f.counts, out[0].target);
      RelaxMeasure(nodes, Step(nodes, f, out[0].target), out[1..]);
    }
  }

  /** The outer loop: dequeue, append to the order, relax the node's out-edges. */
  function Drain(nodes: seq<Node>, edges: seq<Edge>, f: Frontier, order: seq<Node>): seq<Node>
    requires EndpointsExist(nodes, edges)
    decreases |f.queue| + |Positive(f.counts)|
  {
    if f.queue == [] then order
    else
      var n := f.queue[0];
      RelaxMeasure(nodes, Frontier(f.counts, f.queue[1..]), Outgoing(edges, n.id));
      Drain(nodes, edges, Relax(nodes, Frontier(f.counts, f.queue[1..]), Outgoing(edges, n.id)), order + [n])
  }

  /** `nodes.filter((n) => !order.find((o) => o.id === n.id)).map((n) => n.id)`. */
  function UnorderedIds(nodes: seq<Node>, order: seq<Node>): (r: seq<string>)
    ensures forall id :: id in r <==> id in NodeIds(nodes) && id !in NodeIds(order)
  {
    if nodes == [] then []
    else (if nodes[0].id in NodeIds(order) then [] else [nodes[0].id]) + UnorderedIds(nodes[1..], order)
  }

  /** The whole of `topologicalSort`, as a function of the graph. */
  function Kahn(nodes: seq<Node>, edges: seq<Edge>): TopoResult
    requires EndpointsExist(nodes, edges)
  {
    var counts := InitialCounts(nodes, edges);
    var order := Drain(nodes, edges, Frontier(counts, Sources(nodes, counts)), []);
    if |order| != |nodes| then TopoResult(order, true, UnorderedIds(nodes, order))
    else TopoResult(order, false, [])
  }

  /** The first loop of `topologicalSort`: one increment per edge target. */
  method CountIncoming(nodes: seq<Node>, edges: seq<Edge>) returns (incoming: map<string, int>)
    ensures incoming == InitialCounts(nodes, edges)
  {
    incoming := ZeroCounts(nodes);
    var i := 0;
    while i < |edges|
      invariant 0 <= i <= |edges|
      invariant CountEdges(incoming, edges[i..]) == InitialCounts(nodes, edges)
    {
      var t := edges[i].target;
      assert edges[i..][1..] == edges[i + 1..];
      incoming := incoming[t := Get(incoming, t) + 1];
      i := i + 1;
    }
  }

  /** The inner loop of `topologicalSort`: relax the out-edges of one node. */
  method RelaxOutgoing(nodes: seq<Node>, incoming0: map<string, int>, q0: seq<Node>, out: seq<Edge>)
    returns (incoming: map<string, int>, q: seq<Node>)
    requires forall e :: e in out ==> e.target in NodeIds(nodes)
    ensures Frontier(incoming, q) == Relax(nodes, Frontier(incoming0, q0), out)
  {
    incoming, q := incoming0, q0;
    var j := 0;
    while j < |out|
      invariant 0 <= j <= |out|
      invariant Relax(nodes, Frontier(incoming, q), out[j..]) == Relax(nodes, Frontier(incoming0, q0), out)
    {
      var t := out[j].target;
      ghost var before := Frontier(incoming, q);
      var v := Get(incoming, t) - 1;
      incoming := incoming[t := v];
      if v == 0 {
        q := q + [FindNode(nodes, t).value];
      }
      assert Frontier(incoming, q) == Step(nodes, before, t);
      assert out[j..][0] == out[j] && out[j..][1..] == out[j + 1..];
      j := j + 1;
    }
  }

  /** `topologicalSort(nodes, edges)`. */
  method TopologicalSort(nodes: seq<Node>, edges: seq<Edge>) returns (r: TopoResult)
    requires EndpointsExist(nodes, edges)
    ensures r == Kahn(nodes, edges)
  {
    var incoming := CountIncoming(nodes, edges);
    var q := Sources(nodes, incoming);
    var order := [];
    ghost var start := Frontier(incoming, q);
    while q != []
      invariant Drain(nodes, edges, Frontier(incoming, q), order) == Drain(nodes, edges, start, [])
      decreases |q| + |Positive(incoming)|
    {
      var n := q[0];
      q := q[1..];
      order := order + [n];
      var out := Outgoing(edges, n.id);
      RelaxMeasure(nodes, Frontier(incoming, q), out);
      incoming, q := RelaxOutgoing(nodes, incoming, q, out);
    }
    if |order| != |nodes| {
      r := TopoResult(order, true, UnorderedIds(nodes, order));
    } else {
      r := TopoResult(order, false, []);
    }
  }

  // ---------------------------------------------------------------------
  // Correctness, for graphs whose node ids are unique and whose edges join
  // existing nodes.

  /** Every edge whose target is in `order` has its source at an earlier position. */
  ghost predicate Respects(edges: seq<Edge>, order: seq<Node>)
  {
    forall i, e :: 0 <= i < |order| && e in edges && e.target == order[i].id ==> e.source in NodeIds(order[..i])
  }

  /** An independent statement of the seed: the nodes without incoming edges, in input order. */
  function InDegreeZero(nodes: seq<Node>, edges: seq<Edge>): (r: seq<Node>)
    ensures forall n :: n in r <==> n in nodes && Incoming(edges, n.id) == []
  {
    if nodes == [] then []
    else (if Incoming(edges, nodes[0].id) == [] then [nodes[0]] else []) + InDegreeZero(nodes[1..], edges)
  }

  ghost predicate HasEdge(edges: seq<Edge>, a: string, b: string)
  {
    exists e :: e in edges && e.source == a && e.target == b
  }

  /** `p` is a closed walk along edges. */
  ghost predicate IsCycle(edges: seq<Edge>, p: seq<string>)
  {
    |p| >= 2 && p[0] == p[|p| - 1] && forall k :: 0 <= k < |p| - 1 ==> HasEdge(edges, p[k], p[k + 1])
  }

  /** The number of edges into `v` whose source is not in `done`. */
  function PendingInto(edges: seq<Edge>, done: set<string>, v: string): nat
  {
    if edges == [] then 0
    else (if edges[0].target == v && edges[0].source !in done then 1 else 0) + PendingInto(edges[1..], done, v)
  }

  lemma {:induction false} PendingZero(edges: seq<Edge>, done: set<string>, v: string)
    requires PendingInto(edges, done, v) == 0
    ensures forall e :: e in edges && e.target == v ==> e.source in done
  {
    if edges != [] {
      PendingZero(edges[1..], done, v);
    }
  }

  lemma {:induction false} PendingPositive(edges: seq<Edge>, done: set<string>, v: string) returns (e: Edge)
    requires PendingInto(edges, done, v) > 0
    ensures e in edges && e.target == v && e.source !in done
  {
    if edges[0].target == v && edges[0].source !in done {
      e := edges[0];
    } else {
      e := PendingPositive(edges[1..], done, v);
    }
  }

  lemma {:induction false} PendingNone(edges: seq<Edge>, v: string)
    ensures PendingInto(edges, {}, v) == |Incoming(edges, v)|
  {
    if edges != [] {
      PendingNone(edges[1..], v);
    }
  }

  /** Marking `x` done removes exactly the edges from `x` from every pending count. */
  lemma {:induction false} PendingSplit(edges: seq<Edge>, done: set<string>, x: string, v: string)
    requires x !in done
    ensures PendingInto(edges, done, v) == PendingInto(edges, done + {x}, v) + |Incoming(Outgoing(edges, x), v)|
  {
    if edges != [] {
      PendingSplit(edges[1..], done, x, v);
      var head := if edges[0].source == x then [edges[0]] else [];
      assert Outgoing(edges, x) == head + Outgoing(edges[1..], x);
      IncomingAppend(head, Outgoing(edges[1..], x), v);
    }
  }

  lemma {:induction false} CountEdgesValue(counts: map<string, int>, edges: seq<Edge>)
    requires forall e :: e in edges ==> e.target in counts
    ensures CountEdges(counts, edges).Keys == counts.Keys
    ensures forall v :: v in counts ==> CountEdges(counts, edges)[v] == counts[v] + |Incoming(edges, v)|
    decreases edges
  {
    if edges != [] {
      var t := edges[0].target;
      var c := counts[t := Get(counts, t) + 1];
      CountEdgesValue(c, edges[1..]);
    }
  }

  /** The in-degree map holds each node's number of incoming edges. */
  lemma InitialCountsValue(nodes: seq<Node>, edges: seq<Edge>)
    requires EndpointsExist(nodes, edges)
    ensures InitialCounts(nodes, edges).Keys == NodeIds(nodes)
    ensures forall v :: v in NodeIds(nodes) ==> InitialCounts(nodes, edges)[v] == |Incoming(edges, v)|
  {
    CountEdgesValue(ZeroCounts(nodes), edges);
  }

  lemma {:induction false} SourcesAreInDegreeZero(nodes: seq<Node>, all: seq<Node>, edges: seq<Edge>)
    requires EndpointsExist(all, edges)
    requires forall n :: n in nodes ==> n in all
    ensures Sources(nodes, InitialCounts(all, edges)) == InDegreeZero(nodes, edges)
  {
    InitialCountsValue(all, edges);
    if nodes != [] {
      SourcesAreInDegreeZero(nodes[1..], all, edges);
    }
  }

  lemma SameId(nodes: seq<Node>, a: Node, b: Node)
    requires UniqueIds(nodes) && a in nodes && b in nodes && a.id == b.id
    ensures a == b
  {
  }

  lemma {:induction false} SourcesUnique(nodes: seq<Node>, counts: map<string, int>)
    requires UniqueIds(nodes)
    ensures UniqueIds(Sources(nodes, counts))
  {
    if nodes != [] {
      SourcesUnique(nodes[1..], counts);
      var rest := Sources(nodes[1..], counts);
      assert forall v :: v in rest ==> v in nodes[1..];
    }
  }

  lemma UniqueIdsAppend(s: seq<Node>, w: Node)
    requires UniqueIds(s) && w.id !in NodeIds(s)
    ensures UniqueIds(s + [w])
  {
  }

  /** An id at a position of a sequence with unique ids is at no other position. */
  lemma NotEarlier(s: seq<Node>, k: int)
    requires UniqueIds(s) && 0 <= k < |s|
    ensures s[k].id !in NodeIds(s[..k])
  {
  }

  /** The in-degree map counts, for every node, the edges whose source is not
      yet ordered, plus the edges the inner loop has still to relax. */
  ghost predicate CountsOk(nodes: seq<Node>, edges: seq<Edge>, counts: map<string, int>, order: seq<Node>, rest: seq<Edge>)
  {
    && counts.Keys == NodeIds(nodes)
    && forall id :: id in counts ==> counts[id] == PendingInto(edges, NodeIds(order), id) + |Incoming(rest, id)|
  }

  /** Ordered and queued nodes are distinct nodes of the graph, and they are
      exactly the nodes whose in-degree has reached zero. */
  ghost predicate QueueOk(nodes: seq<Node>, counts: map<string, int>, order: seq<Node>, queue: seq<Node>)
  {
    && UniqueIds(order + queue)
    && (forall v :: v in order + queue ==> v in nodes)
    && (forall v :: v in nodes ==> (v in order + queue <==> Get(counts, v.id) == 0))
  }

  /** The invariant of the sort. `rest` is what the inner loop has still to relax. */
  ghost predicate Core(nodes: seq<Node>, edges: seq<Edge>, q0: seq<Node>, f: Frontier, order: seq<Node>, rest: seq<Edge>)
  {
    && UniqueIds(nodes) && EndpointsExist(nodes, edges)
    && CountsOk(nodes, edges, f.counts, order, rest)
    && QueueOk(nodes, f.counts, order, f.queue)
    && Respects(edges, order)
    && q0 <= order + f.queue
  }

  lemma TargetPending(nodes: seq<Node>, edges: seq<Edge>, counts: map<string, int>, order: seq<Node>, rest: seq<Edge>)
    requires CountsOk(nodes, edges, counts, order, rest)
    requires rest != [] && rest[0].target in counts
    ensures Get(counts, rest[0].target) >= 1
  {
    assert rest[0] in Incoming(rest, rest[0].target);
  }

  lemma StepCounts(nodes: seq<Node>, edges: seq<Edge>, f: Frontier, order: seq<Node>, rest: seq<Edge>)
    requires CountsOk(nodes, edges, f.counts, order, rest)
    requires rest != [] && rest[0].target in NodeIds(nodes)
    ensures CountsOk(nodes, edges, Step(nodes, f, rest[0].target).counts, order, rest[1..])
  {
    var c := Step(nodes, f, rest[0].target).counts;
    forall id | id in c
      ensures c[id] == PendingInto(edges, NodeIds(order), id) + |Incoming(rest[1..], id)|
    {
      assert Incoming(rest, id) == (if rest[0].target == id then [rest[0]] else []) + Incoming(rest[1..], id);
    }
  }

  lemma StepQueue(nodes: seq<Node>, counts: map<string, int>, order: seq<Node>, queue: seq<Node>, t: string)
    requires UniqueIds(nodes) && QueueOk(nodes, counts, order, queue)
    requires t in NodeIds(nodes) && Get(counts, t) >= 1
    ensures var g := Step(nodes, Frontier(counts, queue), t);
      QueueOk(nodes, g.counts, order, g.queue)
  {
    var v := Get(counts, t) - 1;
    var w := FindNode(nodes, t).value;
    var c := counts[t := v];
    var q := if v == 0 then queue + [w] else queue;
    assert w !in order + queue;
    assert t !in NodeIds(order + queue);
    if v == 0 {
      UniqueIdsAppend(order + queue, w);
      assert order + q == (order + queue) + [w];
    }
    forall x | x in nodes
      ensures x in order + q <==> Get(c, x.id) == 0
    {
      if x.id == t {
        SameId(nodes, x, w);
      }
    }
  }

  /** A step only appends to the queue, so the seed stays a prefix of `order + queue`. */
  lemma StepPrefix(nodes: seq<Node>, q0: seq<Node>, f: Frontier, order: seq<Node>, t: string)
    requires t in NodeIds(nodes) && q0 <= order + f.queue
    ensures q0 <= order + Step(nodes, f, t).queue
  {
    var more := Step(nodes, f, t).queue[|f.queue|..];
    assert Step(nodes, f, t).queue == f.queue + more;
    assert order + (f.queue + more) == (order + f.queue) + more;
    assert (order + (f.queue + more))[..|q0|] == q0;
  }

  lemma {:induction false} RelaxKeepsCore(nodes: seq<Node>, edges: seq<Edge>, q0: seq<Node>, f: Frontier, order: seq<Node>, rest: seq<Edge>)
    requires Core(nodes, edges, q0, f, order, rest)
    requires forall e :: e in rest ==> e in edges
    ensures Core(nodes, edges, q0, Relax(nodes, f, rest), order, [])
    decreases rest
  {
    if rest != [] {
      var t := rest[0].target;
      assert rest[0] in rest;
      TargetPending(nodes, edges, f.counts, order, rest);
      StepQueue(nodes, f.counts, order, f.queue, t);
      StepCounts(nodes, edges, f, order, rest);
      StepPrefix(nodes, q0, f, order, t);
      var g := Step(nodes, f, t);
      RelaxKeepsCore(nodes, edges, q0, g, order, rest[1..]);
    }
  }

  lemma DequeueCounts(nodes: seq<Node>, edges: seq<Edge>, counts: map<string, int>, order: seq<Node>, n: Node)
    requires CountsOk(nodes, edges, counts, order, [])
    requires n.id !in NodeIds(order)
    ensures CountsOk(nodes, edges, counts, order + [n], Outgoing(edges, n.id))
  {
    assert NodeIds(order + [n]) == NodeIds(order) + {n.id};
    forall id | id in counts
      ensures counts[id] == PendingInto(edges, NodeIds(order + [n]), id) + |Incoming(Outgoing(edges, n.id), id)|
    {
      PendingSplit(edges, NodeIds(order), n.id, id);
    }
  }

  lemma DequeueRespects(edges: seq<Edge>, order: seq<Node>, n: Node)
    requires Respects(edges, order)
    requires forall e :: e in edges && e.target == n.id ==> e.source in NodeIds(order)
    ensures Respects(edges, order + [n])
  {
    var order' := order + [n];
    forall i, e | 0 <= i < |order'| && e in edges && e.target == order'[i].id
      ensures e.source in NodeIds(order'[..i])
    {
      if i < |order| {
        assert order'[..i] == order[..i];
      } else {
        assert order'[..i] == order;
      }
    }
  }

  lemma {:induction false} DrainKeepsCore(nodes: seq<Node>, edges: seq<Edge>, q0: seq<Node>, f: Frontier, order: seq<Node>)
    returns (last: Frontier)
    requires Core(nodes, edges, q0, f, order, [])
    ensures last.queue == [] && Core(nodes, edges, q0, last, Drain(nodes, edges, f, order), [])
    decreases |f.queue| + |Positive(f.counts)|
  {
    if f.queue == [] {
      last := f;
    } else {
      var n := f.queue[0];
      var order' := order + [n];
      var g := Frontier(f.counts, f.queue[1..]);
      var out := Outgoing(edges, n.id);
      assert order' + g.queue == order + f.queue;
      NotEarlier(order + f.queue, |order|);
      assert (order + f.queue)[..|order|] == order;
      DequeueCounts(nodes, edges, f.counts, order, n);
      assert n in nodes && Get(f.counts, n.id) == 0;
      PendingZero(edges, NodeIds(order), n.id);
      DequeueRespects(edges, order, n);
      assert Core(nodes, edges, q0, g, order', out);
      RelaxKeepsCore(nodes, edges, q0, g, order', out);
      RelaxMeasure(nodes, g, out);
      last := DrainKeepsCore(nodes, edges, q0, Relax(nodes, g, out), order');
    }
  }

  lemma InitialCore(nodes: seq<Node>, edges: seq<Edge>)
    requires UniqueIds(nodes) && EndpointsExist(nodes, edges)
    ensures var c := InitialCounts(nodes, edges);
      Core(nodes, edges, Sources(nodes, c), Frontier(c, Sources(nodes, c)), [], [])
  {
    var c := InitialCounts(nodes, edges);
    var q0 := Sources(nodes, c);
    InitialCountsValue(nodes, edges);
    assert NodeIds([]) == {};
    forall id | id in c
      ensures c[id] == PendingInto(edges, NodeIds([]), id) + |Incoming([], id)|
    {
      PendingNone(edges, id);
    }
    assert CountsOk(nodes, edges, c, [], []);
    SourcesUnique(nodes, c);
    assert [] + q0 == q0;
    assert QueueOk(nodes, c, [], q0);
  }

  /** What the sort leaves behind, from which every property below follows. */
  lemma KahnFacts(nodes: seq<Node>, edges: seq<Edge>)
    requires UniqueIds(nodes) && EndpointsExist(nodes, edges)
    ensures var order := Kahn(nodes, edges).order;
      && UniqueIds(order)
      && (forall v :: v in order ==> v in nodes)
      && Respects(edges, order)
      && InDegreeZero(nodes, edges) <= order
      && (forall v :: v in nodes && v !in order ==> PendingInto(edges, NodeIds(order), v.id) > 0)
  {
    var c := InitialCounts(nodes, edges);
    var q0 := Sources(nodes, c);
    InitialCore(nodes, edges);
    var last := DrainKeepsCore(nodes, edges, q0, Frontier(c, q0), []);
    var order := Drain(nodes, edges, Frontier(c, q0), []);
    assert order + last.queue == order;
    forall v | v in nodes && v !in order
      ensures PendingInto(edges, NodeIds(order), v.id) > 0
    {
      assert v.id in last.counts && Get(last.counts, v.id) != 0;
    }
    SourcesAreInDegreeZero(nodes, nodes, edges);
  }

  lemma {:induction false} DistinctCard<T>(s: seq<T>)
    requires forall i, j :: 0 <= i < j < |s| ==> s[i] != s[j]
    ensures |set x | x in s| == |s|
  {
    if s != [] {
      DistinctCard(s[1..]);
      assert (set x | x in s) == {s[0]} + (set x | x in s[1..]);
    }
  }

  lemma {:induction false} NodeIdsCard(s: seq<Node>)
    requires UniqueIds(s)
    ensures |NodeIds(s)| == |s|
  {
    if s != [] {
      NodeIdsCard(s[1..]);
      assert NodeIds(s) == {s[0].id} + NodeIds(s[1..]);
    }
  }

  lemma {:induction false} NodeIdsCardAtMost(s: seq<Node>)
    ensures |NodeIds(s)| <= |s|
  {
    if s != [] {
      NodeIdsCardAtMost(s[1..]);
      assert NodeIds(s) == {s[0].id} + NodeIds(s[1..]);
    }
  }

  lemma SubsetCard<T>(a: set<T>, b: set<T>)
    requires a <= b
    ensures |a| <= |b|
  {
    assert b == a + (b - a);
  }

  /** In a sequence with unique ids every node occurs at most once. */
  lemma {:induction false} UniqueMultiplicity(s: seq<Node>, v: Node)
    requires UniqueIds(s)
    ensures multiset(s)[v] == if v in s then 1 else 0
  {
    if s != [] {
      var t := s[1..];
      assert UniqueIds(t) by {
        forall i, j | 0 <= i < j < |t|
          ensures t[i].id != t[j].id
        {
          assert t[i] == s[i + 1] && t[j] == s[j + 1];
        }
      }
      UniqueMultiplicity(t, v);
      assert s == [s[0]] + t;
      assert s[0] !in t by {
        forall k | 0 <= k < |t|
          ensures t[k] != s[0]
        {
          assert t[k] == s[k + 1];
        }
      }
    }
  }

  /** A duplicate-free sequence contained in another of the same length is a permutation of it. */
  lemma SameSizeSubsetIsPermutation(a: seq<Node>, b: seq<Node>)
    requires UniqueIds(a) && UniqueIds(b) && |a| == |b|
    requires forall v :: v in a ==> v in b
    ensures multiset(a) == multiset(b)
  {
    var sa := set x | x in a;
    var sb := set x | x in b;
    DistinctCard(a);
    DistinctCard(b);
    assert sb == sa + (sb - sa);
    assert sb - sa == {};
    forall v
      ensures multiset(a)[v] == multiset(b)[v]
    {
      UniqueMultiplicity(a, v);
      UniqueMultiplicity(b, v);
      assert v in a <==> v in sa;
      assert v in b <==> v in sb;
    }
  }

  /** The order has no more nodes than the graph, and all of them when there is no cycle. */
  lemma KahnSize(nodes: seq<Node>, edges: seq<Edge>)
    requires UniqueIds(nodes) && EndpointsExist(nodes, edges)
    ensures var order := Kahn(nodes, edges).order;
      && |order| <= |nodes|
      && (|order| == |nodes| ==> NodeIds(order) == NodeIds(nodes))
  {
    var order := Kahn(nodes, edges).order;
    KahnFacts(nodes, edges);
    NodeIdsCard(order);
    NodeIdsCard(nodes);
    SubsetCard(NodeIds(order), NodeIds(nodes));
    if |order| == |nodes| {
      assert NodeIds(nodes) - NodeIds(order) == {} by {
        assert NodeIds(nodes) == NodeIds(order) + (NodeIds(nodes) - NodeIds(order));
      }
    }
  }

  /** `Respects`, restated with positions. */
  lemma RespectsByPosition(edges: seq<Edge>, order: seq<Node>)
    requires Respects(edges, order)
    ensures forall e, i :: e in edges && 0 <= i < |order| && order[i].id == e.target ==>
      exists j :: 0 <= j < i && order[j].id == e.source
  {
    forall e, i | e in edges && 0 <= i < |order| && order[i].id == e.target
      ensures exists j :: 0 <= j < i && order[j].id == e.source
    {
      var x :| x in order[..i] && x.id == e.source;
      var j :| 0 <= j < i && order[..i][j] == x;
      assert order[j].id == e.source;
    }
  }

  /** In the returned order every edge's source comes before its target, and
      no node appears twice. */
  lemma KahnRespectsEdges(nodes: seq<Node>, edges: seq<Edge>)
    requires UniqueIds(nodes) && EndpointsExist(nodes, edges)
    ensures var order := Kahn(nodes, edges).order;
      forall e, i :: e in edges && 0 <= i < |order| && order[i].id == e.target ==>
        exists j :: 0 <= j < i && order[j].id == e.source
    ensures UniqueIds(Kahn(nodes, edges).order)
  {
    KahnFacts(nodes, edges);
    RespectsByPosition(edges, Kahn(nodes, edges).order);
  }

  /** Ties break by input order: the nodes without inputs come first, as they stand in `nodes`. */
  lemma KahnTieBreak(nodes: seq<Node>, edges: seq<Edge>)
    requires UniqueIds(nodes) && EndpointsExist(nodes, edges)
    ensures InDegreeZero(nodes, edges) <= Kahn(nodes, edges).order
  {
    KahnFacts(nodes, edges);
  }

  /** Without a cycle report the order is a permutation of the nodes and nothing remains. */
  lemma KahnPermutation(nodes: seq<Node>, edges: seq<Edge>)
    requires UniqueIds(nodes) && EndpointsExist(nodes, edges)
    ensures var r := Kahn(nodes, edges);
      !r.hasCycle ==> multiset(r.order) == multiset(nodes) && r.remaining == []
  {
    var r := Kahn(nodes, edges);
    KahnFacts(nodes, edges);
    if !r.hasCycle {
      SameSizeSubsetIsPermutation(r.order, nodes);
    }
  }

  /** A cycle report comes exactly when the order is short, and then `remaining`
      lists the unordered ids, at least one of them. */
  lemma KahnRemaining(nodes: seq<Node>, edges: seq<Edge>)
    requires UniqueIds(nodes) && EndpointsExist(nodes, edges)
    ensures var r := Kahn(nodes, edges);
      && (r.hasCycle <==> |r.order| < |nodes|)
      && (r.hasCycle ==> r.remaining != [])
      && (r.hasCycle ==> forall id :: id in r.remaining <==> id in NodeIds(nodes) && id !in NodeIds(r.order))
  {
    var r := Kahn(nodes, edges);
    KahnSize(nodes, edges);
    KahnFacts(nodes, edges);
    if r.hasCycle {
      NodeIdsCard(r.order);
      NodeIdsCard(nodes);
      if NodeIds(nodes) <= NodeIds(r.order) {
        SubsetCard(NodeIds(nodes), NodeIds(r.order));
        assert false;
      }
      var id :| id in NodeIds(nodes) && id !in NodeIds(r.order);
      assert id in r.remaining;
    }
  }

  // ---- Cycle detection is exact ----

  /** The position of an id in an order with unique ids. */
  ghost function PosOf(order: seq<Node>, id: string): (i: nat)
    requires id in NodeIds(order)
    ensures i < |order| && order[i].id == id
  {
    var i :| 0 <= i < |order| && order[i].id == id; i
  }

  lemma {:induction false} CycleClimbs(order: seq<Node>, edges: seq<Edge>, p: seq<string>, k: nat)
    requires UniqueIds(order) && Respects(edges, order)
    requires IsCycle(edges, p) && 1 <= k < |p|
    requires forall m :: 0 <= m < |p| ==> p[m] in NodeIds(order)
    ensures PosOf(order, p[0]) < PosOf(order, p[k])
  {
    if k > 1 {
      CycleClimbs(order, edges, p, k - 1);
    }
    var e :| e in edges && e.source == p[k - 1] && e.target == p[k];
    var i := PosOf(order, p[k]);
    assert e.source in NodeIds(order[..i]);
    var x :| x in order[..i] && x.id == e.source;
    var j :| 0 <= j < i && order[..i][j] == x;
    assert order[j].id == p[k - 1];
    assert PosOf(order, p[k - 1]) == j;
  }

  /** Walking edges backwards through unordered nodes never gets stuck. */
  lemma {:induction false} BackWalk(nodes: seq<Node>, edges: seq<Edge>, order: seq<Node>, u: string, k: nat)
    returns (w: seq<string>)
    requires EndpointsExist(nodes, edges)
    requires forall v :: v in nodes && v !in order ==> PendingInto(edges, NodeIds(order), v.id) > 0
    requires u in NodeIds(nodes) && u !in NodeIds(order)
    ensures |w| == k + 1 && w[0] == u
    ensures forall m :: 0 <= m < |w| ==> w[m] in NodeIds(nodes) && w[m] !in NodeIds(order)
    ensures forall m :: 0 <= m < k ==> HasEdge(edges, w[m + 1], w[m])
    decreases k
  {
    if k == 0 {
      w := [u];
    } else {
      var v := FindNode(nodes, u).value;
      assert v !in order;
      var e := PendingPositive(edges, NodeIds(order), u);
      var tail := BackWalk(nodes, edges, order, e.source, k - 1);
      w := [u] + tail;
      assert HasEdge(edges, w[1], w[0]);
    }
  }

  /** A walk longer than the number of nodes visits some node twice. */
  lemma Pigeonhole(nodes: seq<Node>, w: seq<string>) returns (i: nat, j: nat)
    requires |w| > |nodes|
    requires forall m :: 0 <= m < |w| ==> w[m] in NodeIds(nodes)
    ensures i < j < |w| && w[i] == w[j]
  {
    if forall i, j :: 0 <= i < j < |w| ==> w[i] != w[j] {
      DistinctCard(w);
      SubsetCard((set x | x in w), NodeIds(nodes));
      NodeIdsCardAtMost(nodes);
      assert false;
    }
    i, j :| 0 <= i < j < |w| && w[i] == w[j];
  }

  /** `q` is a walk along edges; a single id is a walk of no steps. */
  ghost predicate IsWalk(edges: seq<Edge>, q: seq<string>)
  {
    |q| >= 1 && forall k :: 0 <= k < |q| - 1 ==> HasEdge(edges, q[k], q[k + 1])
  }

  /** `u` lies on a cycle or downstream of one: a walk leads from a node of a cycle to `u`. */
  ghost predicate BehindCycle(edges: seq<Edge>, u: string)
  {
    exists p, q :: IsCycle(edges, p) && IsWalk(edges, q) && q[0] == p[0] && q[|q| - 1] == u
  }

  /** Nodes left unordered, each with a pending input, lie on or behind a cycle. */
  lemma StuckNodesHaveCycle(nodes: seq<Node>, edges: seq<Edge>, order: seq<Node>, u: string)
    requires EndpointsExist(nodes, edges)
    requires forall v :: v in nodes && v !in order ==> PendingInto(edges, NodeIds(order), v.id) > 0
    requires u in NodeIds(nodes) && u !in NodeIds(order)
    ensures BehindCycle(edges, u)
    ensures exists p :: IsCycle(edges, p)
  {
    var w := BackWalk(nodes, edges, order, u, |nodes|);
    var i, j := Pigeonhole(nodes, w);
    RepeatIsBehindCycle(edges, w, i, j);
  }

  /** A backward walk that revisits a node starts on or behind a cycle. */
  lemma RepeatIsBehindCycle(edges: seq<Edge>, w: seq<string>, i: nat, j: nat)
    requires i < j < |w| && w[i] == w[j]
    requires forall m :: 0 <= m < |w| - 1 ==> HasEdge(edges, w[m + 1], w[m])
    ensures BehindCycle(edges, w[0])
  {
    // Read backwards, the walk from w[j] down to w[0] passes w[i] == w[j].
    var q := seq(j + 1, m requires 0 <= m <= j => w[j - m]);
    var p := q[..j - i + 1];
    forall m | 0 <= m < |q| - 1
      ensures HasEdge(edges, q[m], q[m + 1])
    {
      assert q[m] == w[j - m] && q[m + 1] == w[j - m - 1];
    }
    assert IsCycle(edges, p) && IsWalk(edges, q) && q[0] == p[0] && q[|q| - 1] == w[0];
  }

  /** In an order that respects the edges, a walk that ends at an ordered node runs
      through ordered nodes only. */
  lemma {:induction false} WalkIntoOrder(edges: seq<Edge>, order: seq<Node>, q: seq<string>, k: nat)
    requires Respects(edges, order) && IsWalk(edges, q)
    requires q[|q| - 1] in NodeIds(order) && k < |q|
    ensures q[k] in NodeIds(order)
    decreases |q| - k
  {
    if k < |q| - 1 {
      WalkIntoOrder(edges, order, q, k + 1);
      assert HasEdge(edges, q[k], q[k + 1]);
      var e :| e in edges && e.source == q[k] && e.target == q[k + 1];
      var x :| x in order && x.id == q[k + 1];
      var i :| 0 <= i < |order| && order[i] == x;
      assert e.source in NodeIds(order[..i]);
      var y :| y in order[..i] && y.id == e.source;
      assert y in order;
    }
  }

  /** Nothing on or behind a cycle can be placed in an order that respects the edges. */
  lemma BehindCycleUnordered(edges: seq<Edge>, order: seq<Node>, u: string)
    requires UniqueIds(order) && Respects(edges, order)
    requires BehindCycle(edges, u)
    ensures u !in NodeIds(order)
  {
    if u in NodeIds(order) {
      var p, q :| IsCycle(edges, p) && IsWalk(edges, q) && q[0] == p[0] && q[|q| - 1] == u;
      WalkIntoOrder(edges, order, q, 0);
      forall m | 0 <= m < |p|
        ensures p[m] in NodeIds(order)
      {
        WalkIntoOrder(edges, order, p, m);
      }
      CycleClimbs(order, edges, p, |p| - 1);
      assert false;
    }
  }

  /** `remaining` holds exactly the ids that lie on a cycle or downstream of one. */
  lemma KahnRemainingBehindCycles(nodes: seq<Node>, edges: seq<Edge>)
    requires UniqueIds(nodes) && EndpointsExist(nodes, edges)
    ensures forall id :: id in Kahn(nodes, edges).remaining <==> id in NodeIds(nodes) && BehindCycle(edges, id)
  {
    var r := Kahn(nodes, edges);
    KahnFacts(nodes, edges);
    KahnSize(nodes, edges);
    KahnRemaining(nodes, edges);
    forall id
      ensures id in r.remaining <==> id in NodeIds(nodes) && BehindCycle(edges, id)
    {
      if id in r.remaining {
        StuckNodesHaveCycle(nodes, edges, r.order, id);
      }
      if id in NodeIds(nodes) && BehindCycle(edges, id) {
        BehindCycleUnordered(edges, r.order, id);
      }
    }
  }

  /** An order that respects every edge and holds every endpoint leaves no cycle. */
  lemma OrderedGraphIsAcyclic(edges: seq<Edge>, order: seq<Node>, p: seq<string>)
    requires UniqueIds(order) && Respects(edges, order)
    requires forall e :: e in edges ==> e.source in NodeIds(order) && e.target in NodeIds(order)
    ensures !IsCycle(edges, p)
  {
    if IsCycle(edges, p) {
      forall m | 0 <= m < |p|
        ensures p[m] in NodeIds(order)
      {
        var k := if m < |p| - 1 then m else m - 1;
        assert HasEdge(edges, p[k], p[k + 1]);
        var e :| e in edges && e.source == p[k] && e.target == p[k + 1];
      }
      CycleClimbs(order, edges, p, |p| - 1);
    }
  }

  /** Along a walk whose every edge climbs in `rank`, the rank keeps climbing. */
  lemma {:induction false} RankClimbs(edges: seq<Edge>, rank: string -> int, p: seq<string>, k: nat)
    requires forall e :: e in edges ==> rank(e.source) < rank(e.target)
    requires forall m :: 0 <= m < |p| - 1 ==> HasEdge(edges, p[m], p[m + 1])
    requires 1 <= k < |p|
    ensures rank(p[0]) < rank(p[k])
  {
    if k > 1 {
      RankClimbs(edges, rank, p, k - 1);
    }
    assert HasEdge(edges, p[k - 1], p[k]);
  }

  /** A graph whose edges all climb in some ranking of the ids has no cycle. */
  lemma RankedIsAcyclic(edges: seq<Edge>, rank: string -> int)
    requires forall e :: e in edges ==> rank(e.source) < rank(e.target)
    ensures !exists p :: IsCycle(edges, p)
  {
    forall p | IsCycle(edges, p)
      ensures false
    {
      RankClimbs(edges, rank, p, |p| - 1);
    }
  }

  /** The sort reports a cycle exactly when the graph has one. */
  lemma KahnDetectsCycles(nodes: seq<Node>, edges: seq<Edge>)
    requires UniqueIds(nodes) && EndpointsExist(nodes, edges)
    ensures Kahn(nodes, edges).hasCycle <==> exists p :: IsCycle(edges, p)
  {
    var r := Kahn(nodes, edges);
    KahnFacts(nodes, edges);
    KahnSize(nodes, edges);
    KahnRemaining(nodes, edges);
    if r.hasCycle {
      StuckNodesHaveCycle(nodes, edges, r.order, r.remaining[0]);
    } else {
      forall p | true
        ensures !IsCycle(edges, p)
      {
        OrderedGraphIsAcyclic(edges, r.order, p);
      }
    }
  }
}

=== FILE: graph_validate.dfy ===
/**
 * `validateGraph` in utils/graphUtils.js: the structural complaints about a
 * recipe graph, grouped by kind (outputs without inputs, ingredients with
 * inputs, steps without inputs) and followed by at most one cycle message.
 */
module GraphValidate {
  import opened Wrappers
  import opened Text
  import opened Recipe
  import opened GraphOrder

  /** The node's label in double quotes, as the messages show it. */
  function Quoted(n: Node): string
  {
    "\"" + Show(n.data.title) + "\""
  }

  function OutputMessage(n: Node): string
  {
    "Output " + Quoted(n) + " has no inputs."
  }

  function IngredientMessage(n: Node): string
  {
    "Ingredient " + Quoted(n) + " cannot have inputs."
  }

  function StepMessage(n: Node): string
  {
    "Step " + Quoted(n) + " has no inputs."
  }

  /** The rule each kind of node must obey. */
  predicate Violates(n: Node, edges: seq<Edge>)
  {
    || (n.kind == Output && Incoming(edges, n.id) == [])
    || (n.kind == Ingredient && Incoming(edges, n.id) != [])
    || (n.kind == Step && Incoming(edges, n.id) == [])
  }

  /** What the pass over the nodes for `kind` records about `n`: nothing, or one message. */
  function Complaint(kind: NodeKind, n: Node, edges: seq<Edge>): (r: seq<string>)
    ensures |r| <= 1
    ensures r != [] <==> n.kind == kind && Violates(n, edges)
  {
    if n.kind != kind then []
    else
      match kind
      case Output => if Incoming(edges, n.id) == [] then [OutputMessage(n)] else []
      case Ingredient => if Incoming(edges, n.id) != [] then [IngredientMessage(n)] else []
      case Step => if Incoming(edges, n.id) == [] then [StepMessage(n)] else []
      case Start => []
  }

  /** The messages of one pass, in node order. */
  function KindErrors(kind: NodeKind, nodes: seq<Node>, edges: seq<Edge>): (r: seq<string>)
    ensures |r| <= |nodes|
  {
    if nodes == [] then []
    else KindErrors(kind, nodes[..|nodes| - 1], edges) + Complaint(kind, nodes[|nodes| - 1], edges)
  }

  /** Every message of a pass is the complaint about one of the nodes. */
  lemma {:induction false} KindErrorsSound(kind: NodeKind, nodes: seq<Node>, edges: seq<Edge>)
    ensures forall m :: m in KindErrors(kind, nodes, edges) ==> exists n :: n in nodes && Complaint(kind, n, edges) == [m]
  {
    if nodes != [] {
      var init := nodes[..|nodes| - 1];
      var last := nodes[|nodes| - 1];
      KindErrorsSound(kind, init, edges);
      assert last in nodes;
      assert forall n :: n in init ==> n in nodes;
    }
  }

  /** Every node of the pass's kind that breaks the rule is complained about. */
  lemma {:induction false} KindErrorsComplete(kind: NodeKind, nodes: seq<Node>, edges: seq<Edge>)
    ensures forall n :: n in nodes && n.kind == kind && Violates(n, edges) ==> Complaint(kind, n, edges)[0] in KindErrors(kind, nodes, edges)
  {
    if nodes != [] {
      var init := nodes[..|nodes| - 1];
      var last := nodes[|nodes| - 1];
      KindErrorsComplete(kind, init, edges);
      assert nodes == init + [last];
      assert forall n :: n in nodes ==> n in init || n == last;
    }
  }

  /** A pass reports one message per node of its kind that breaks the rule, and nothing else. */
  lemma KindErrorsMembers(kind: NodeKind, nodes: seq<Node>, edges: seq<Edge>)
    ensures forall m :: m in KindErrors(kind, nodes, edges) ==> exists n :: n in nodes && Complaint(kind, n, edges) == [m]
    ensures forall n :: n in nodes && n.kind == kind && Violates(n, edges) ==> Complaint(kind, n, edges)[0] in KindErrors(kind, nodes, edges)
  {
    KindErrorsSound(kind, nodes, edges);
    KindErrorsComplete(kind, nodes, edges);
  }

  const CyclePrefix := "Cycle detected among nodes: "

  /** The final message, present exactly when the sort reports a cycle. */
  function CycleErrors(t: TopoResult): seq<string>
  {
    if t.hasCycle then [CyclePrefix + Join(t.remaining, ", ")] else []
  }

  /** Everything `validateGraph` reports, in order, given the sort's result `t`. */
  function ErrorsWith(nodes: seq<Node>, edges: seq<Edge>, t: TopoResult): seq<string>
  {
    KindErrors(Output, nodes, edges) + KindErrors(Ingredient, nodes, edges)
      + KindErrors(Step, nodes, edges) + CycleErrors(t)
  }

  /** Everything `validateGraph` reports. */
  function GraphErrors(nodes: seq<Node>, edges: seq<Edge>): seq<string>
    requires EndpointsExist(nodes, edges)
  {
    ErrorsWith(nodes, edges, Kahn(nodes, edges))
  }

  /** A pass over one more node adds that node's complaint. */
  lemma PassStep(kind: NodeKind, errs: seq<string>, done: seq<Node>, n: Node, edges: seq<Edge>, before: seq<string>, out: seq<string>)
    requires before == errs + KindErrors(kind, done, edges)
    requires out == before + Complaint(kind, n, edges)
    ensures out == errs + KindErrors(kind, done + [n], edges)
  {
    assert (done + [n])[..|done|] == done;
  }

  /** What each pass records about one node, as its loop body computes it. */
  lemma ComplaintShape(kind: NodeKind, n: Node, edges: seq<Edge>)
    ensures kind == Output ==> Complaint(kind, n, edges) == if n.kind == Output && |Incoming(edges, n.id)| == 0 then [OutputMessage(n)] else []
    ensures kind == Ingredient ==> Complaint(kind, n, edges) == if n.kind == Ingredient && |Incoming(edges, n.id)| != 0 then [IngredientMessage(n)] else []
    ensures kind == Step ==> Complaint(kind, n, edges) == if n.kind == Step && |Incoming(edges, n.id)| == 0 then [StepMessage(n)] else []
  {
  }

  /** The first pass: outputs without inputs. */
  method OutputPass(nodes: seq<Node>, edges: seq<Edge>, errs: seq<string>) returns (out: seq<string>)
    ensures out == errs + KindErrors(Output, nodes, edges)
  {
    out := errs;
    for i := 0 to |nodes|
      invariant out == errs + KindErrors(Output, nodes[..i], edges)
    {
      var n := nodes[i];
      ghost var before := out;
      if n.kind == Output {
        var incoming := Incoming(edges, n.id);
        if |incoming| == 0 {
          out := out + [OutputMessage(n)];
        }
      }
      assert out == before + Complaint(Output, n, edges) by {
        ComplaintShape(Output, n, edges);
      }
      PassStep(Output, errs, nodes[..i], n, edges, before, out);
      assert nodes[..i + 1] == nodes[..i] + [n];
    }
    assert nodes[..|nodes|] == nodes;
  }

  /** The second pass: ingredients with inputs. */
  method IngredientPass(nodes: seq<Node>, edges: seq<Edge>, errs: seq<string>) returns (out: seq<string>)
    ensures out == errs + KindErrors(Ingredient, nodes, edges)
  {
    out := errs;
    for i := 0 to |nodes|
      invariant out == errs + KindErrors(Ingredient, nodes[..i], edges)
    {
      var n := nodes[i];
      ghost var before := out;
      if n.kind == Ingredient {
        var incoming := Incoming(edges, n.id);
        if |incoming| != 0 {
          out := out + [IngredientMessage(n)];
        }
      }
      assert out == before + Complaint(Ingredient, n, edges) by {
        ComplaintShape(Ingredient, n, edges);
      }
      PassStep(Ingredient, errs, nodes[..i], n, edges, before, out);
      assert nodes[..i + 1] == nodes[..i] + [n];
    }
    assert nodes[..|nodes|] == nodes;
  }

  /** The third pass: steps without inputs. */
  method StepPass(nodes: seq<Node>, edges: seq<Edge>, errs: seq<string>) returns (out: seq<string>)
    ensures out == errs + KindErrors(Step, nodes, edges)
  {
    out := errs;
    for i := 0 to |nodes|
      invariant out == errs + KindErrors(Step, nodes[..i], edges)
    {
      var n := nodes[i];
      ghost var before := out;
      if n.kind == Step {
        var incoming := Incoming(edges, n.id);
        if |incoming| == 0 {
          out := out + [StepMessage(n)];
        }
      }
      assert out == before + Complaint(Step, n, edges) by {
        ComplaintShape(Step, n, edges);
      }
      PassStep(Step, errs, nodes[..i], n, edges, before, out);
      assert nodes[..i + 1] == nodes[..i] + [n];
    }
    assert nodes[..|nodes|] == nodes;
  }

  /** `validateGraph(nodes, edges)`: three passes over the nodes, then the sort. */
  method ValidateGraph(nodes: seq<Node>, edges: seq<Edge>) returns (errs: seq<string>)
    requires EndpointsExist(nodes, edges)
    ensures errs == ErrorsWith(nodes, edges, Kahn(nodes, edges))
  {
    errs := OutputPass(nodes, edges, []);
    assert errs == KindErrors(Output, nodes, edges);
    errs := IngredientPass(nodes, edges, errs);
    errs := StepPass(nodes, edges, errs);
    ghost var passes := errs;
    var sorted := TopologicalSort(nodes, edges);
    if sorted.hasCycle {
      errs := errs + [CyclePrefix + Join(sorted.remaining, ", ")];
    }
    assert errs == passes + CycleErrors(sorted);
  }

  // ---------------------------------------------------------------------
  // Properties

  /** Which group a message belongs to, read off its first words. */
  function Group(m: string): nat
  {
    if StartsWith(m, "Output \"") then 0
    else if StartsWith(m, "Ingredient \"") then 1
    else if StartsWith(m, "Step \"") then 2
    else 3
  }

  lemma OutputMessageGroup(n: Node)
    ensures Group(OutputMessage(n)) == 0
  {
    var m := OutputMessage(n);
    assert m == "Output \"" + (Show(n.data.title) + "\" has no inputs.");
    StartsWithConcat("Output \"", Show(n.data.title) + "\" has no inputs.");
  }

  lemma IngredientMessageGroup(n: Node)
    ensures Group(IngredientMessage(n)) == 1
  {
    var m := IngredientMessage(n);
    assert m == "Ingredient \"" + (Show(n.data.title) + "\" cannot have inputs.");
    StartsWithConcat("Ingredient \"", Show(n.data.title) + "\" cannot have inputs.");
    StartsWithDiffers(m, "Output \"", 0);
  }

  lemma StepMessageGroup(n: Node)
    ensures Group(StepMessage(n)) == 2
  {
    var m := StepMessage(n);
    assert m == "Step \"" + (Show(n.data.title) + "\" has no inputs.");
    StartsWithConcat("Step \"", Show(n.data.title) + "\" has no inputs.");
    StartsWithDiffers(m, "Output \"", 0);
    StartsWithDiffers(m, "Ingredient \"", 0);
  }

  lemma ComplaintGroup(kind: NodeKind, n: Node, edges: seq<Edge>, m: string)
    requires Complaint(kind, n, edges) == [m]
    ensures kind == Output ==> Group(m) == 0
    ensures kind == Ingredient ==> Group(m) == 1
    ensures kind == Step ==> Group(m) == 2
  {
    ComplaintShape(kind, n, edges);
    match kind
    case Output => OutputMessageGroup(n);
    case Ingredient => IngredientMessageGroup(n);
    case Step => StepMessageGroup(n);
    case Start =>
  }

  lemma KindErrorsGroup(kind: NodeKind, nodes: seq<Node>, edges: seq<Edge>, g: nat)
    requires (kind == Output && g == 0) || (kind == Ingredient && g == 1) || (kind == Step && g == 2)
    ensures forall m :: m in KindErrors(kind, nodes, edges) ==> Group(m) == g
  {
    KindErrorsMembers(kind, nodes, edges);
    forall m | m in KindErrors(kind, nodes, edges)
      ensures Group(m) == g
    {
      var n :| n in nodes && Complaint(kind, n, edges) == [m];
      ComplaintGroup(kind, n, edges, m);
    }
  }

  lemma CycleGroup(t: TopoResult)
    ensures forall m :: m in CycleErrors(t) ==> Group(m) == 3 && StartsWith(m, "Cycle detected")
  {
    if t.hasCycle {
      var m := CyclePrefix + Join(t.remaining, ", ");
      assert m == "Cycle detected" + (" among nodes: " + Join(t.remaining, ", "));
      StartsWithConcat("Cycle detected", " among nodes: " + Join(t.remaining, ", "));
      StartsWithDiffers(m, "Output \"", 0);
      StartsWithDiffers(m, "Ingredient \"", 0);
      StartsWithDiffers(m, "Step \"", 0);
    }
  }

  /** Messages whose groups never decrease. */
  predicate GroupOrdered(errs: seq<string>)
  {
    forall i, j :: 0 <= i < j < |errs| ==> Group(errs[i]) <= Group(errs[j])
  }

  lemma SingleGroup(a: seq<string>, g: nat)
    requires forall m :: m in a ==> Group(m) == g
    ensures GroupOrdered(a) && forall m :: m in a ==> Group(m) <= g
  {
    forall i, j | 0 <= i < j < |a|
      ensures Group(a[i]) <= Group(a[j])
    {
      assert a[i] in a && a[j] in a;
    }
  }

  lemma GroupOrderedAppend(a: seq<string>, b: seq<string>, g: nat)
    requires GroupOrdered(a) && forall m :: m in a ==> Group(m) <= g
    requires forall m :: m in b ==> Group(m) == g
    ensures GroupOrdered(a + b) && forall m :: m in a + b ==> Group(m) <= g
  {
    var s := a + b;
    forall i, j | 0 <= i < j < |s|
      ensures Group(s[i]) <= Group(s[j])
    {
      if j < |a| {
        assert s[i] == a[i] && s[j] == a[j];
      } else if i < |a| {
        assert s[i] == a[i] && s[i] in a;
        assert s[j] == b[j - |a|] && s[j] in b;
      } else {
        assert s[i] == b[i - |a|] && s[i] in b;
        assert s[j] == b[j - |a|] && s[j] in b;
      }
    }
  }

  /** The messages come grouped: outputs, then ingredients, then steps, then the cycle. */
  lemma ErrorsGrouped(nodes: seq<Node>, edges: seq<Edge>, t: TopoResult)
    ensures GroupOrdered(ErrorsWith(nodes, edges, t))
  {
    var a := KindErrors(Output, nodes, edges);
    var b := KindErrors(Ingredient, nodes, edges);
    var c := KindErrors(Step, nodes, edges);
    var d := CycleErrors(t);
    KindErrorsGroup(Output, nodes, edges, 0);
    KindErrorsGroup(Ingredient, nodes, edges, 1);
    KindErrorsGroup(Step, nodes, edges, 2);
    CycleGroup(t);
    SingleGroup(a, 0);
    GroupOrderedAppend(a, b, 1);
    GroupOrderedAppend(a + b, c, 2);
    GroupOrderedAppend(a + b + c, d, 3);
    assert ErrorsWith(nodes, edges, t) == a + b + c + d;
  }

  /** At most one cycle message, present exactly when the sort reports a cycle. */
  lemma CycleMessage(nodes: seq<Node>, edges: seq<Edge>, t: TopoResult)
    ensures |CycleErrors(t)| <= 1
    ensures (exists m :: m in ErrorsWith(nodes, edges, t) && Group(m) == 3) <==> t.hasCycle
  {
    KindErrorsGroup(Output, nodes, edges, 0);
    KindErrorsGroup(Ingredient, nodes, edges, 1);
    KindErrorsGroup(Step, nodes, edges, 2);
    CycleGroup(t);
    var d := CycleErrors(t);
    if d != [] {
      assert d[0] in ErrorsWith(nodes, edges, t);
    }
  }

  /** With unique ids, the cycle message appears exactly when the graph has a cycle. */
  lemma CycleMessageIffCycle(nodes: seq<Node>, edges: seq<Edge>)
    requires UniqueIds(nodes) && EndpointsExist(nodes, edges)
    ensures (exists m :: m in GraphErrors(nodes, edges) && Group(m) == 3) <==> exists p :: IsCycle(edges, p)
  {
    CycleMessage(nodes, edges, Kahn(nodes, edges));
    KahnDetectsCycles(nodes, edges);
  }

  /** A pass reports nothing exactly when no node of its kind breaks the rule. */
  lemma KindErrorsEmpty(kind: NodeKind, nodes: seq<Node>, edges: seq<Edge>)
    ensures KindErrors(kind, nodes, edges) == [] <==> forall n :: n in nodes && n.kind == kind ==> !Violates(n, edges)
  {
    var r := KindErrors(kind, nodes, edges);
    KindErrorsMembers(kind, nodes, edges);
    if r != [] {
      assert r[0] in r;
    }
  }

  /** A graph validates cleanly exactly when no node breaks its kind's rule and
      the sort finds no cycle. */
  lemma NoErrorsIff(nodes: seq<Node>, edges: seq<Edge>, t: TopoResult)
    ensures ErrorsWith(nodes, edges, t) == [] <==>
      (forall n :: n in nodes ==> !Violates(n, edges)) && !t.hasCycle
  {
    KindErrorsEmpty(Output, nodes, edges);
    KindErrorsEmpty(Ingredient, nodes, edges);
    KindErrorsEmpty(Step, nodes, edges);
  }

  // ---------------------------------------------------------------------
  // The graphs of the repository's own checks (utils/testUtils.js)

  function Labelled(id: string, kind: NodeKind, title: string): Node
  {
    Node(id, kind, Position(0.0, 0.0), NodeData(Some(title), None, None, None, None, None), map[])
  }

  function Link(id: string, source: string, target: string): Edge
  {
    Edge(id, source, target, EdgeData(None), "", ArrowClosed)
  }

  lemma ContainsInTail(a: string, pre: string, s: string, post: string)
    ensures Contains(a + (pre + s + post), s)
  {
    assert a + (pre + s + post) == (a + pre) + s + post;
    ContainsMiddle(a + pre, s, post);
  }

  /** A graph with no cycle report and no broken rule validates cleanly. */
  lemma CleanWhenAcyclic(nodes: seq<Node>, edges: seq<Edge>, rank: string -> int)
    requires UniqueIds(nodes) && EndpointsExist(nodes, edges)
    requires forall e :: e in edges ==> rank(e.source) < rank(e.target)
    requires forall n :: n in nodes ==> !Violates(n, edges)
    ensures GraphErrors(nodes, edges) == []
  {
    RankedIsAcyclic(edges, rank);
    KahnDetectsCycles(nodes, edges);
    NoErrorsIff(nodes, edges, Kahn(nodes, edges));
  }

  /** Flour into Mix into Dough. */
  function ChainNodes(): seq<Node>
  {
    [Labelled("i1", Ingredient, "Flour"), Labelled("s1", Step, "Mix"), Labelled("o1", Output, "Dough")]
  }

  function ChainEdges(): seq<Edge>
  {
    [Link("e1", "i1", "s1"), Link("e2", "s1", "o1")]
  }

  lemma ChainIsWellFormed()
    ensures UniqueIds(ChainNodes()) && EndpointsExist(ChainNodes(), ChainEdges())
  {
    var nodes := ChainNodes();
    assert NodeIds(nodes) == {"i1", "s1", "o1"} by {
      assert nodes[0].id == "i1" && nodes[1].id == "s1" && nodes[2].id == "o1";
    }
  }

  lemma ChainKeepsRules()
    ensures forall n :: n in ChainNodes() ==> !Violates(n, ChainEdges())
  {
    var nodes := ChainNodes();
    var edges := ChainEdges();
    assert edges[0] in Incoming(edges, "s1");
    assert edges[1] in Incoming(edges, "o1");
    assert Incoming(edges, "i1") == [] by {
      assert edges[0].target != "i1" && edges[1].target != "i1";
    }
    forall n | n in nodes
      ensures !Violates(n, edges)
    {
      assert n == nodes[0] || n == nodes[1] || n == nodes[2];
    }
  }

  /** The repository's chain graph validates without errors. */
  lemma ChainIsValid()
    ensures EndpointsExist(ChainNodes(), ChainEdges()) && GraphErrors(ChainNodes(), ChainEdges()) == []
  {
    ChainIsWellFormed();
    ChainKeepsRules();
    var rank := (id: string) => if id == "i1" then 0 else if id == "s1" then 1 else 2;
    CleanWhenAcyclic(ChainNodes(), ChainEdges(), rank);
  }

  lemma MessagesMention(n: Node)
    ensures Contains(IngredientMessage(n), "cannot have inputs")
    ensures Contains(OutputMessage(n), "no inputs")
    ensures Contains(StepMessage(n), "no inputs")
  {
    assert " cannot have inputs." == " " + "cannot have inputs" + ".";
    ContainsInTail("Ingredient " + Quoted(n), " ", "cannot have inputs", ".");
    assert " has no inputs." == " has " + "no inputs" + ".";
    ContainsInTail("Output " + Quoted(n), " has ", "no inputs", ".");
    ContainsInTail("Step " + Quoted(n), " has ", "no inputs", ".");
  }

  /** An ingredient with an incoming edge is always reported. */
  lemma IngredientWithInputIsReported(nodes: seq<Node>, edges: seq<Edge>, t: TopoResult, n: Node)
    requires n in nodes && n.kind == Ingredient && Incoming(edges, n.id) != []
    ensures exists m :: m in ErrorsWith(nodes, edges, t) && Contains(m, "cannot have inputs")
  {
    KindErrorsMembers(Ingredient, nodes, edges);
    MessagesMention(n);
    assert IngredientMessage(n) in ErrorsWith(nodes, edges, t);
  }

  /** An output without an incoming edge is always reported. */
  lemma OutputWithoutInputIsReported(nodes: seq<Node>, edges: seq<Edge>, t: TopoResult, n: Node)
    requires n in nodes && n.kind == Output && Incoming(edges, n.id) == []
    ensures exists m :: m in ErrorsWith(nodes, edges, t) && Contains(m, "no inputs")
  {
    KindErrorsMembers(Output, nodes, edges);
    MessagesMention(n);
    assert OutputMessage(n) in ErrorsWith(nodes, edges, t);
  }

  /** A cycle among nodes with unique ids is always reported. */
  lemma CycleIsReported(nodes: seq<Node>, edges: seq<Edge>, p: seq<string>)
    requires UniqueIds(nodes) && EndpointsExist(nodes, edges)
    requires IsCycle(edges, p)
    ensures exists m :: m in GraphErrors(nodes, edges) && Contains(m, "Cycle detected")
  {
    CycleMessageIffCycle(nodes, edges);
    var m :| m in GraphErrors(nodes, edges) && Group(m) == 3;
    KindErrorsGroup(Output, nodes, edges, 0);
    KindErrorsGroup(Ingredient, nodes, edges, 1);
    KindErrorsGroup(Step, nodes, edges, 2);
    CycleGroup(Kahn(nodes, edges));
    StartsWithContains(m, "Cycle detected");
  }

  /** Two steps feeding each other form a cycle. */
  lemma TwoStepsFormCycle()
    ensures IsCycle([Link("e1", "a", "b"), Link("e2", "b", "a")], ["a", "b", "a"])
  {
    var edges := [Link("e1", "a", "b"), Link("e2", "b", "a")];
    assert edges[0] in edges && edges[1] in edges;
  }
}

=== FILE: narrator.dfy ===
/**
 * `simulateExecute` in utils/graphUtils.js: one pass over the topological
 * order that remembers what each node produced and writes one log line per
 * ingredient, step and output.
 */
module Narrator {
  import opened Wrappers
  import opened Text
  import opened Recipe
  import opened GraphOrder

  /** What the pass remembers for a node id (the `values` map). */
  datatype Value =
    | IngredientValue(name: Option<string>, amount: Option<string>)
    | Mix(step: Option<string>, action: Option<string>, description: string)
    | Dish(name: Option<string>, serves: Option<string>, inputs: seq<Option<Value>>)

  /** The values map and the log lines written so far. */
  datatype Narration = Narration(values: map<string, Value>, logs: seq<string>)

  const CycleError := "Cannot execute: graph has a cycle."

  const IngredientIcon := "\U{1F9C2} "
  const StepIcon := "\U{1F469}\U{200D}\U{1F373} "
  const OutputIcon := "\U{1F37D}\U{FE0F} Output: "

  /** `values.get(id)`. */
  function Lookup(values: map<string, Value>, id: string): Option<Value>
  {
    if id in values then Some(values[id]) else None
  }

  // ---- joinReadable ----

  /** How `Array.prototype.join` shows an element: a missing one as nothing. */
  function JoinPiece(o: Option<string>): string
  {
    if o.Some? then o.value else ""
  }

  /** `joinReadable(items)`, as the enclosing template literal shows it. */
  function JoinReadable(items: seq<Option<string>>): string
  {
    if |items| == 0 then ""
    else if |items| == 1 then Show(items[0])
    else if |items| == 2 then Show(items[0]) + " and " + Show(items[1])
    else
      var init := items[..|items| - 1];
      Join(seq(|init|, k requires 0 <= k < |init| => JoinPiece(init[k])), ", ") + ", and " + Show(items[|items| - 1])
  }

  /** An English listing written front to back: "a", "a and b", "a, b, and c". */
  function Listing(xs: seq<string>): string
  {
    if |xs| == 0 then ""
    else if |xs| == 1 then xs[0]
    else if |xs| == 2 then xs[0] + " and " + xs[1]
    else Serial(xs)
  }

  /** "x1, x2, …, and xn" for two or more items. */
  function Serial(xs: seq<string>): string
    requires |xs| >= 2
  {
    if |xs| == 2 then xs[0] + ", and " + xs[1]
    else xs[0] + ", " + Serial(xs[1..])
  }

  /** Joining peels off its first element. */
  lemma {:induction false} JoinFront(xs: seq<string>, sep: string)
    requires |xs| >= 2
    ensures Join(xs, sep) == xs[0] + sep + Join(xs[1..], sep)
  {
    if |xs| > 2 {
      var init := xs[..|xs| - 1];
      JoinFront(init, sep);
      assert init[1..] == xs[1..][..|xs[1..]| - 1];
      assert init[0] == xs[0];
    } else {
      assert xs[..1] == [xs[0]];
      assert xs[1..] == [xs[1]];
    }
  }

  /** A serial listing is the join of all but the last item, then ", and " and the last. */
  lemma {:induction false} SerialIsJoin(xs: seq<string>)
    requires |xs| >= 2
    ensures Serial(xs) == Join(xs[..|xs| - 1], ", ") + ", and " + xs[|xs| - 1]
  {
    if |xs| == 2 {
      assert xs[..1] == [xs[0]];
    } else {
      SerialIsJoin(xs[1..]);
      var init := xs[..|xs| - 1];
      JoinFront(init, ", ");
      assert init[1..] == xs[1..][..|xs[1..]| - 1];
    }
  }

  /** With every item present, `joinReadable` writes the Oxford-comma listing. */
  lemma JoinReadableIsListing(items: seq<Option<string>>)
    requires forall k :: 0 <= k < |items| ==> items[k].Some?
    ensures JoinReadable(items) == Listing(seq(|items|, k requires 0 <= k < |items| => items[k].value))
  {
    var xs := seq(|items|, k requires 0 <= k < |items| => items[k].value);
    if |items| >= 3 {
      SerialIsJoin(xs);
      var init := items[..|items| - 1];
      assert seq(|init|, k requires 0 <= k < |init| => JoinPiece(init[k])) == xs[..|xs| - 1];
    }
  }

  // ---- One step of the pass ----

  /** The name a step phrase uses for what came in along an edge. */
  function BaseName(src: Option<Value>): Option<string>
  {
    match src
    case Some(IngredientValue(name, _)) => name
    case Some(Mix(step, _, _)) => Some(OrElse(step, "previous step"))
    case Some(Dish(name, _, _)) => Some(OrElse(name, "previous step"))
    case None => Some("previous step")
  }

  function ItemName(src: Option<Value>): Option<string>
  {
    if src.Some? && src.value.IngredientValue? then BaseName(src)
    else Some("the result of " + Show(BaseName(src)))
  }

  /** The amount a phrase mentions: the edge's own, else the source ingredient's, else none. */
  function Used(e: Edge, src: Option<Value>): string
  {
    if Truthy(e.data.useAmount) then e.data.useAmount.value
    else if src.Some? && src.value.IngredientValue? && Truthy(src.value.amount) then src.value.amount.value
    else ""
  }

  /** The phrase for one incoming edge of a step. */
  function Item(e: Edge, values: map<string, Value>): Option<string>
  {
    var src := Lookup(values, e.source);
    var used := Used(e, src);
    if used != "" then Some(used + " of " + Show(ItemName(src))) else ItemName(src)
  }

  function Items(inEdges: seq<Edge>, values: map<string, Value>): (r: seq<Option<string>>)
    ensures |r| == |inEdges|
  {
    seq(|inEdges|, k requires 0 <= k < |inEdges| => Item(inEdges[k], values))
  }

  /** The step's verb: its action, else its label, else "Step". */
  function Verb(n: Node): string
  {
    OrElse(n.data.action, OrElse(n.data.title, "Step"))
  }

  function StepSentence(n: Node, inEdges: seq<Edge>, values: map<string, Value>): string
  {
    Trim(Verb(n) + " " + JoinReadable(Items(inEdges, values)))
  }

  function IngredientLine(n: Node): string
  {
    IngredientIcon + (Show(n.data.title) + " (" + OrElse(n.data.amount, "") + ")")
  }

  function StepLine(n: Node, sentence: string): string
  {
    StepIcon + (Show(n.data.title) + " — " + sentence)
  }

  function OutputLine(n: Node): string
  {
    OutputIcon + (Show(n.data.title) + " (serves " + OrElse(n.data.serves, "?") + ")")
  }

  function Inputs(inEdges: seq<Edge>, values: map<string, Value>): seq<Option<Value>>
  {
    seq(|inEdges|, k requires 0 <= k < |inEdges| => Lookup(values, inEdges[k].source))
  }

  /** What visiting one node adds to the narration. */
  function Visit(edges: seq<Edge>, st: Narration, n: Node): Narration
  {
    match n.kind
    case Ingredient =>
      Narration(st.values[n.id := IngredientValue(n.data.title, n.data.amount)], st.logs + [IngredientLine(n)])
    case Step =>
      var sentence := StepSentence(n, Incoming(edges, n.id), st.values);
      Narration(st.values[n.id := Mix(n.data.title, n.data.action, sentence)], st.logs + [StepLine(n, sentence)])
    case Output =>
      var inputs := Inputs(Incoming(edges, n.id), st.values);
      Narration(st.values[n.id := Dish(n.data.title, n.data.serves, inputs)], st.logs + [OutputLine(n)])
    case Start => st
  }

  /** The narration after visiting `order` from the front. */
  function Run(edges: seq<Edge>, order: seq<Node>): Narration
  {
    if order == [] then Narration(map[], [])
    else Visit(edges, Run(edges, order[..|order| - 1]), order[|order| - 1])
  }

  /** The outcome of `simulateExecute`: the thrown error, or the joined log. */
  function Simulation(nodes: seq<Node>, edges: seq<Edge>): Result<string, string>
    requires EndpointsExist(nodes, edges)
  {
    var t := Kahn(nodes, edges);
    if t.hasCycle then Err(CycleError) else Ok(Join(Run(edges, t.order).logs, "\n"))
  }

  /** `simulateExecute(nodes, edges)`. */
  method SimulateExecute(nodes: seq<Node>, edges: seq<Edge>) returns (r: Result<string, string>)
    requires EndpointsExist(nodes, edges)
    ensures r == Simulation(nodes, edges)
  {
    var sorted := TopologicalSort(nodes, edges);
    if sorted.hasCycle {
      return Err(CycleError);
    }
    var order := sorted.order;
    var values: map<string, Value> := map[];
    var logs: seq<string> := [];
    var i := 0;
    while i < |order|
      invariant 0 <= i <= |order|
      invariant Run(edges, order[..i]) == Narration(values, logs)
    {
      var n := order[i];
      assert order[..i + 1][..i] == order[..i];
      if n.kind == Ingredient {
        values := values[n.id := IngredientValue(n.data.title, n.data.amount)];
        logs := logs + [IngredientLine(n)];
      } else if n.kind == Step {
        var inEdges := Incoming(edges, n.id);
        var items := Items(inEdges, values);
        var sentence := Trim(Verb(n) + " " + JoinReadable(items));
        values := values[n.id := Mix(n.data.title, n.data.action, sentence)];
        logs := logs + [StepLine(n, sentence)];
      } else if n.kind == Output {
        var inEdges := Incoming(edges, n.id);
        var inputs := Inputs(inEdges, values);
        values := values[n.id := Dish(n.data.title, n.data.serves, inputs)];
        logs := logs + [OutputLine(n)];
      }
      i := i + 1;
    }
    assert order[..|order|] == order;
    r := Ok(Join(logs, "\n"));
  }

  // ---------------------------------------------------------------------
  // Properties

  /** The nodes that get a log line: every node but the start marker. */
  function Narrated(order: seq<Node>): (r: seq<Node>)
    ensures |r| <= |order|
  {
    if order == [] then []
    else Narrated(order[..|order| - 1]) + (if order[|order| - 1].kind != Start then [order[|order| - 1]] else [])
  }

  function Icon(kind: NodeKind): string
  {
    match kind
    case Ingredient => IngredientIcon
    case Step => StepIcon
    case Output => OutputIcon
    case Start => ""
  }

  /** Appending a line that opens with `icon` keeps the earlier lines. */
  lemma AppendLine(logs: seq<string>, icon: string, rest: string)
    ensures var l := logs + [icon + rest];
      |l| == |logs| + 1 && l[..|logs|] == logs && StartsWith(l[|logs|], icon)
  {
    StartsWithConcat(icon, rest);
    assert (logs + [icon + rest])[..|logs|] == logs;
  }

  /** Visiting a node other than the start marker adds one line, opening with its kind's marker. */
  lemma VisitAddsLine(edges: seq<Edge>, st: Narration, n: Node)
    ensures n.kind == Start ==> Visit(edges, st, n).logs == st.logs
    ensures n.kind != Start ==>
      var logs := Visit(edges, st, n).logs;
      |logs| == |st.logs| + 1 && logs[..|st.logs|] == st.logs && StartsWith(logs[|st.logs|], Icon(n.kind))
  {
    var title := Show(n.data.title);
    match n.kind
    case Ingredient =>
      AppendLine(st.logs, IngredientIcon, title + " (" + OrElse(n.data.amount, "") + ")");
    case Step =>
      var sentence := StepSentence(n, Incoming(edges, n.id), st.values);
      AppendLine(st.logs, StepIcon, title + " — " + sentence);
    case Output =>
      AppendLine(st.logs, OutputIcon, title + " (serves " + OrElse(n.data.serves, "?") + ")");
    case Start =>
  }

  /** One line per ingredient, step and output, in the order visited, each
      opening with its kind's marker. */
  lemma {:induction false} OneLinePerNode(edges: seq<Edge>, order: seq<Node>)
    ensures var logs := Run(edges, order).logs;
      && |logs| == |Narrated(order)|
      && forall k :: 0 <= k < |logs| ==> StartsWith(logs[k], Icon(Narrated(order)[k].kind))
  {
    if order != [] {
      var init := order[..|order| - 1];
      var n := order[|order| - 1];
      OneLinePerNode(edges, init);
      VisitAddsLine(edges, Run(edges, init), n);
    }
  }

  /** The simulation fails exactly when the sort reports a cycle; with unique
      ids, exactly when the graph has a cycle. */
  lemma SimulationFailsOnCycle(nodes: seq<Node>, edges: seq<Edge>)
    requires EndpointsExist(nodes, edges)
    ensures Simulation(nodes, edges).Err? <==> Kahn(nodes, edges).hasCycle
    ensures Simulation(nodes, edges).Err? ==> Simulation(nodes, edges).error == CycleError
    ensures UniqueIds(nodes) ==> (Simulation(nodes, edges).Err? <==> exists p :: IsCycle(edges, p))
  {
    if UniqueIds(nodes) {
      KahnDetectsCycles(nodes, edges);
    }
  }

  lemma {:induction false} NarratedCount(s: seq<Node>, x: Node)
    ensures multiset(Narrated(s))[x] == if x.kind != Start then multiset(s)[x] else 0
  {
    if s != [] {
      var init := s[..|s| - 1];
      NarratedCount(init, x);
      assert s == init + [s[|s| - 1]];
    }
  }

  /** Rearranging the nodes rearranges the narrated ones the same way. */
  lemma NarratedPermutation(a: seq<Node>, b: seq<Node>)
    requires multiset(a) == multiset(b)
    ensures multiset(Narrated(a)) == multiset(Narrated(b))
  {
    forall x
      ensures multiset(Narrated(a))[x] == multiset(Narrated(b))[x]
    {
      NarratedCount(a, x);
      NarratedCount(b, x);
    }
  }

  /** On an acyclic graph with unique ids, every ingredient, step and output of
      the graph is narrated, each exactly once. */
  lemma EveryNodeNarrated(nodes: seq<Node>, edges: seq<Edge>)
    requires UniqueIds(nodes) && EndpointsExist(nodes, edges)
    requires !Kahn(nodes, edges).hasCycle
    ensures var order := Kahn(nodes, edges).order;
      && |Run(edges, order).logs| == |Narrated(nodes)|
      && multiset(Narrated(order)) == multiset(Narrated(nodes))
  {
    var order := Kahn(nodes, edges).order;
    KahnPermutation(nodes, edges);
    NarratedPermutation(order, nodes);
    OneLinePerNode(edges, order);
    assert |Narrated(order)| == |multiset(Narrated(order))|;
  }

  /** A step phrase takes its amount from the edge when the edge has one, and
      from the source ingredient otherwise. */
  lemma EdgeAmountWins(e: Edge, values: map<string, Value>)
    ensures Truthy(e.data.useAmount) ==>
      Item(e, values) == Some(e.data.useAmount.value + " of " + Show(ItemName(Lookup(values, e.source))))
    ensures (!Truthy(e.data.useAmount) && e.source in values && values[e.source].IngredientValue?
             && Truthy(values[e.source].amount)) ==>
      Item(e, values) == Some(values[e.source].amount.value + " of " + Show(values[e.source].name))
  {
  }
}

=== FILE: quantity_scan.dfy ===
/**
 * `parseQuantityAndUnit` of utils/unitConversion.js: find the first
 * "number, optional blanks, word" in a text whose word is a known unit.
 *
 * The pattern `([0-9]+(?:[.,][0-9]+)?)\s*([a-zA-Z]+)` is modelled by a greedy
 * parse, `MatchAt`, which `MatchAtSound` and `MatchAtComplete` prove equal to
 * the pattern's language: a match starts at a position exactly when the
 * greedy parse succeeds there, and the greedy parse is the one the engine
 * reports. The pattern is global, so the engine keeps a `lastIndex` between
 * calls; `QuantityScanner` holds that state.
 */
module QuantityScan {
  import opened Wrappers
  import opened Text
  import opened Units

  datatype CharClass = Digit | Space | Letter

  predicate IsSeparator(c: char) { c == '.' || c == ',' }

  predicate InClass(c: char, k: CharClass)
  {
    match k
    case Digit => IsDigit(c)
    case Space => IsJsWhitespace(c)
    case Letter => 'a' <= c <= 'z' || 'A' <= c <= 'Z'
  }

  /** Every character of `s` is in class `k`. */
  predicate AllIn(s: string, k: CharClass)
  {
    forall i :: 0 <= i < |s| ==> InClass(s[i], k)
  }

  /** Every character of `text` from `lo` up to `hi` is in class `k`. */
  predicate Span(text: string, lo: nat, hi: nat, k: CharClass)
    requires lo <= hi <= |text|
  {
    forall j :: lo <= j < hi ==> InClass(text[j], k)
  }

  lemma SpanIsAllIn(text: string, lo: nat, hi: nat, k: CharClass)
    requires lo <= hi <= |text| && Span(text, lo, hi, k)
    ensures AllIn(text[lo..hi], k)
  {
    assert forall j | 0 <= j < hi - lo :: text[lo..hi][j] == text[lo + j];
  }

  /** The end of the longest run of class-`k` characters starting at `i`. */
  function Run(text: string, i: nat, k: CharClass): (r: nat)
    requires i <= |text|
    ensures i <= r <= |text|
    decreases |text| - i
  {
    if i < |text| && InClass(text[i], k) then Run(text, i + 1, k) else i
  }

  /** The run is all of class `k`, and the character after it is not. */
  lemma {:induction false} RunFacts(text: string, i: nat, k: CharClass)
    requires i <= |text|
    ensures Span(text, i, Run(text, i, k), k)
    ensures Run(text, i, k) < |text| ==> !InClass(text[Run(text, i, k)], k)
    decreases |text| - i
  {
    if i < |text| && InClass(text[i], k) {
      RunFacts(text, i + 1, k);
    }
  }

  /** A match: the number spans `start..numberEnd` (its whole part ends at
      `wholeEnd`; a separator and a fraction follow when `numberEnd > wholeEnd`),
      blanks fill `numberEnd..unitStart` and the word spans `unitStart..end`. */
  datatype Token = Token(start: nat, wholeEnd: nat, numberEnd: nat, unitStart: nat, end: nat)

  predicate Ordered(text: string, t: Token)
  {
    t.start <= t.wholeEnd <= t.numberEnd <= t.unitStart <= t.end <= |text|
  }

  /** The pattern's language: `t` cuts `text` into a number, blanks and a word. */
  predicate PatternMatch(text: string, t: Token)
  {
    && Ordered(text, t)
    && t.start < t.wholeEnd
    && Span(text, t.start, t.wholeEnd, Digit)
    && (t.numberEnd == t.wholeEnd ||
        (t.wholeEnd + 1 < t.numberEnd && IsSeparator(text[t.wholeEnd])
         && Span(text, t.wholeEnd + 1, t.numberEnd, Digit)))
    && Span(text, t.numberEnd, t.unitStart, Space)
    && t.unitStart < t.end
    && Span(text, t.unitStart, t.end, Letter)
  }

  /** The greedy parse at position `p`. */
  function MatchAt(text: string, p: nat): Option<Token>
    requires p <= |text|
  {
    if p == |text| || !IsDigit(text[p]) then None
    else
      var wholeEnd := Run(text, p, Digit);
      var numberEnd :=
        if wholeEnd + 1 < |text| && IsSeparator(text[wholeEnd]) && IsDigit(text[wholeEnd + 1])
        then Run(text, wholeEnd + 1, Digit) else wholeEnd;
      var unitStart := Run(text, numberEnd, Space);
      var end := Run(text, unitStart, Letter);
      if end == unitStart then None else Some(Token(p, wholeEnd, numberEnd, unitStart, end))
  }

  /** What the greedy parse returns is a match of the pattern, with the longest word. */
  lemma MatchAtSound(text: string, p: nat)
    requires p <= |text|
    ensures MatchAt(text, p).Some? ==>
      var t := MatchAt(text, p).value;
      t.start == p && PatternMatch(text, t) && (t.end == |text| || !InClass(text[t.end], Letter))
  {
    if MatchAt(text, p).Some? {
      var t := MatchAt(text, p).value;
      assert t.wholeEnd == Run(text, p, Digit);
      RunFacts(text, p, Digit);
      if t.numberEnd != t.wholeEnd {
        assert t.numberEnd == Run(text, t.wholeEnd + 1, Digit);
        RunFacts(text, t.wholeEnd + 1, Digit);
      }
      assert t.unitStart == Run(text, t.numberEnd, Space);
      RunFacts(text, t.numberEnd, Space);
      assert t.end == Run(text, t.unitStart, Letter);
      RunFacts(text, t.unitStart, Letter);
    }
  }

  /** A run of class `k` covers every span of class `k` from its start. */
  lemma RunCovers(text: string, i: nat, e: nat, k: CharClass)
    requires i <= e <= |text| && Span(text, i, e, k)
    ensures Run(text, i, k) >= e
  {
    RunFacts(text, i, k);
  }

  /** A span of class `k` followed by a character outside it is the run. */
  lemma RunEndsAt(text: string, i: nat, e: nat, k: CharClass)
    requires i <= e <= |text| && Span(text, i, e, k)
    requires e < |text| && !InClass(text[e], k)
    ensures Run(text, i, k) == e
  {
    RunFacts(text, i, k);
  }

  /** Whenever the pattern matches at a position, the greedy parse succeeds there,
      with the same number and blanks and a word at least as long. */
  lemma MatchAtComplete(text: string, t: Token)
    requires PatternMatch(text, t)
    ensures MatchAt(text, t.start).Some?
    ensures MatchAt(text, t.start).value.numberEnd == t.numberEnd
    ensures MatchAt(text, t.start).value.unitStart == t.unitStart
    ensures MatchAt(text, t.start).value.end >= t.end
  {
    AfterNumber(text, t);
    var p := t.start;
    if t.numberEnd > t.wholeEnd {
      RunEndsAt(text, p, t.wholeEnd, Digit);
      RunEndsAt(text, t.wholeEnd + 1, t.numberEnd, Digit);
    } else {
      RunEndsAt(text, p, t.wholeEnd, Digit);
    }
    var numberEnd :=
      if t.wholeEnd + 1 < |text| && IsSeparator(text[t.wholeEnd]) && IsDigit(text[t.wholeEnd + 1])
      then Run(text, t.wholeEnd + 1, Digit) else t.wholeEnd;
    assert numberEnd == t.numberEnd;
    assert InClass(text[t.unitStart], Letter);
    RunEndsAt(text, t.numberEnd, t.unitStart, Space);
    RunCovers(text, t.unitStart, t.end, Letter);
  }

  /** The character after the number is a blank or a letter, so neither a digit nor a separator. */
  lemma AfterNumber(text: string, t: Token)
    requires PatternMatch(text, t)
    ensures t.numberEnd < |text|
    ensures !IsDigit(text[t.numberEnd]) && !IsSeparator(text[t.numberEnd])
  {
    if t.numberEnd == t.unitStart {
      assert InClass(text[t.unitStart], Letter);
    } else {
      assert InClass(text[t.numberEnd], Space);
    }
  }

  /** `exec` from `from`: the leftmost position at or after `from` where the pattern matches. */
  function FindMatch(text: string, from: nat): (r: Option<Token>)
    ensures r.Some? ==> from <= r.value.start < r.value.end && Ordered(text, r.value)
    decreases |text| - from
  {
    if from > |text| then None
    else if MatchAt(text, from).Some? then TokenBounds(text, from); MatchAt(text, from)
    else if from == |text| then None
    else FindMatch(text, from + 1)
  }

  /** What `exec` reports is the greedy parse at its start, and a match of the pattern. */
  lemma {:induction false} FindMatchIsGreedy(text: string, from: nat)
    ensures FindMatch(text, from).Some? ==>
      var t := FindMatch(text, from).value;
      MatchAt(text, t.start) == Some(t) && PatternMatch(text, t)
    decreases |text| - from
  {
    if from <= |text| {
      if MatchAt(text, from).Some? {
        TokenBounds(text, from);
      } else if from < |text| {
        FindMatchIsGreedy(text, from + 1);
      }
    }
  }

  /** No match begins between `from` and what `exec` reports, nor anywhere after
      `from` when it reports nothing. */
  lemma {:induction false} FindMatchIsLeftmost(text: string, from: nat)
    ensures forall q :: from <= q <= |text| && (FindMatch(text, from).None? || q < FindMatch(text, from).value.start) ==>
      MatchAt(text, q).None?
    decreases |text| - from
  {
    if from <= |text| && MatchAt(text, from).Some? {
      TokenBounds(text, from);
    } else if from < |text| {
      var m := FindMatch(text, from);
      FindMatchIsLeftmost(text, from + 1);
      assert m == FindMatch(text, from + 1);
      forall q | from <= q <= |text| && (m.None? || q < m.value.start)
        ensures MatchAt(text, q).None?
      {
        if q > from {
          assert from + 1 <= q;
        }
      }
    }
  }

  /** Any match of the pattern at or after `from` means `exec` finds one, no later. */
  lemma FindMatchFindsAny(text: string, from: nat, t: Token)
    requires PatternMatch(text, t) && from <= t.start
    ensures FindMatch(text, from).Some?
    ensures FindMatch(text, from).value.start <= t.start
  {
    MatchAtComplete(text, t);
    FindMatchIsLeftmost(text, from);
    FindMatchIsGreedy(text, from);
  }

  lemma TokenBounds(text: string, p: nat)
    requires p <= |text| && MatchAt(text, p).Some?
    ensures p < MatchAt(text, p).value.end <= |text|
    ensures PatternMatch(text, MatchAt(text, p).value)
    ensures MatchAt(text, p).value.start == p
  {
    MatchAtSound(text, p);
  }

  // ---- The value of a match ----

  /** The value of the digits after a decimal point: `0.d1d2…dn`. */
  function Fraction(s: string): real
  {
    if s == [] then 0.0 else (DigitValue(s[0]) as real + Fraction(s[1..])) / 10.0
  }

  /** `parseFloat(match[1].replace(",", "."))`: the whole part plus the fraction. */
  function NumberValue(text: string, t: Token): real
    requires Ordered(text, t)
  {
    var whole := DigitsValue(text[t.start..t.wholeEnd]) as real;
    if t.numberEnd <= t.wholeEnd + 1 then whole else whole + Fraction(text[t.wholeEnd + 1..t.numberEnd])
  }

  /** A fraction lies in [0, 1). */
  lemma {:induction false} FractionBounds(s: string)
    ensures 0.0 <= Fraction(s) < 1.0
  {
    if s != [] {
      FractionBounds(s[1..]);
    }
  }

  /** The value of a match is never negative, and its fraction adds less than one. */
  lemma NumberValueBounds(text: string, t: Token)
    requires Ordered(text, t)
    ensures NumberValue(text, t) >= 0.0
    ensures NumberValue(text, t) < (DigitsValue(text[t.start..t.wholeEnd]) + 1) as real
  {
    if t.numberEnd > t.wholeEnd + 1 {
      FractionBounds(text[t.wholeEnd + 1..t.numberEnd]);
    }
  }

  // ---- Scanning ----

  /** The object `parseQuantityAndUnit` returns. */
  datatype Quantity = Quantity(quantity: real, unit: string, originalUnit: string, kind: UnitType)

  /** A word read as a unit of the table, with an amount. */
  function Reading(word: string, amount: real): Option<Quantity>
  {
    var unit := NormalizeUnit(Some(word));
    if unit.None? then None
    else
      var info := Definition(unit.value);
      if info.None? then None
      else Some(Quantity(amount, unit.value, word, info.value.kind))
  }

  /** The word of a match, if it names a unit of the table, with the value of the number. */
  function Interpret(text: string, t: Token): Option<Quantity>
    requires Ordered(text, t)
  {
    Reading(text[t.unitStart..t.end], NumberValue(text, t))
  }

  /** The loop of `parseQuantityAndUnit` from `from`: its result and the `lastIndex` it leaves. */
  function Scan(text: string, from: nat): (r: (Option<Quantity>, nat))
    ensures r.1 <= |text|
    ensures r.0.None? <==> r.1 == 0
    decreases |text| - from
  {
    var m := FindMatch(text, from);
    if m.None? then (None, 0)
    else
      var q := Interpret(text, m.value);
      if q.Some? then (q, m.value.end) else Scan(text, m.value.end)
  }

  /** The matches `exec` reports one after another from `from`. */
  function Visited(text: string, from: nat): (r: seq<Token>)
    ensures forall i :: 0 <= i < |r| ==> Ordered(text, r[i])
    decreases |text| - from
  {
    var m := FindMatch(text, from);
    if m.None? then [] else [m.value] + Visited(text, m.value.end)
  }

  /** What each of `ts` reads as: a quantity when its word names a unit. */
  function Readings(text: string, ts: seq<Token>): (r: seq<Option<Quantity>>)
    requires forall i :: 0 <= i < |ts| ==> Ordered(text, ts[i])
    ensures |r| == |ts|
    ensures forall i :: 0 <= i < |ts| ==> r[i] == Interpret(text, ts[i])
  {
    if ts == [] then [] else [Interpret(text, ts[0])] + Readings(text, ts[1..])
  }

  /** The first reading that is present. */
  function FirstSome(xs: seq<Option<Quantity>>): Option<Quantity>
  {
    if xs == [] then None else if xs[0].Some? then xs[0] else FirstSome(xs[1..])
  }

  /** `parseQuantityAndUnit(text)` run with a fresh `lastIndex`. */
  function ParseQuantityAndUnit(text: Option<string>): Option<Quantity>
  {
    if text.None? || text.value == "" then None else Scan(text.value, 0).0
  }

  /** The reported matches are matches of the pattern, in order and without overlap. */
  lemma {:induction false} VisitedAreMatches(text: string, from: nat)
    ensures forall i :: 0 <= i < |Visited(text, from)| ==>
      PatternMatch(text, Visited(text, from)[i]) && from <= Visited(text, from)[i].start
    ensures forall i :: 0 < i < |Visited(text, from)| ==>
      Visited(text, from)[i - 1].end <= Visited(text, from)[i].start
    decreases |text| - from
  {
    var m := FindMatch(text, from);
    if m.Some? {
      var v := Visited(text, from);
      var rest := Visited(text, m.value.end);
      FindMatchIsGreedy(text, from);
      VisitedAreMatches(text, m.value.end);
      assert v == [m.value] + rest;
      forall i | 0 <= i < |v|
        ensures PatternMatch(text, v[i]) && from <= v[i].start
      {
        if i > 0 {
          assert v[i] == rest[i - 1];
        }
      }
      forall i | 0 < i < |v|
        ensures v[i - 1].end <= v[i].start
      {
        assert v[i] == rest[i - 1];
        if i > 1 {
          assert v[i - 1] == rest[i - 2];
        }
      }
    }
  }

  /** The loop returns the first reported match whose word names a unit. */
  lemma {:induction false} ScanIsFirstKnown(text: string, from: nat)
    ensures Scan(text, from).0 == FirstSome(Readings(text, Visited(text, from)))
    decreases |text| - from
  {
    var m := FindMatch(text, from);
    if m.Some? {
      var v := Visited(text, from);
      assert v[1..] == Visited(text, m.value.end);
      ScanIsFirstKnown(text, m.value.end);
    }
  }

  /** `parseQuantityAndUnit` gives null for missing or empty text, and otherwise
      the first match, from the start of the text, whose word names a unit. */
  lemma ParseQuantityAndUnitMeaning(text: Option<string>)
    ensures text.None? || text.value == "" ==> ParseQuantityAndUnit(text) == None
    ensures text.Some? && text.value != "" ==>
      ParseQuantityAndUnit(text) == FirstSome(Readings(text.value, Visited(text.value, 0)))
  {
    if text.Some? {
      ScanIsFirstKnown(text.value, 0);
    }
  }

  /** `FirstSome` picks a present reading with only absent ones before it, and is
      `None` exactly when every reading is absent. */
  lemma {:induction false} FirstSomeMeaning(xs: seq<Option<Quantity>>)
    ensures FirstSome(xs).None? <==> forall i :: 0 <= i < |xs| ==> xs[i].None?
    ensures FirstSome(xs).Some? ==>
      exists i :: 0 <= i < |xs| && xs[i] == FirstSome(xs) && forall j :: 0 <= j < i ==> xs[j].None?
  {
    if xs != [] {
      FirstSomeMeaning(xs[1..]);
      if xs[0].None? {
        assert forall i :: 1 <= i < |xs| ==> xs[i] == xs[1..][i - 1];
        if FirstSome(xs).Some? {
          var i :| 0 <= i < |xs[1..]| && xs[1..][i] == FirstSome(xs) && forall j :: 0 <= j < i ==> xs[1..][j].None?;
          assert xs[i + 1] == FirstSome(xs);
        }
      }
    }
  }

  /** Every listed spelling reads as its own unit, with that unit's type. */
  lemma ReadsUnit(i: nat, a: string, amount: real)
    requires i < |Spellings| && a in Spellings[i].1
    ensures Reading(a, amount) == Some(Quantity(amount, Spellings[i].0, a, Definition(Spellings[i].0).value.kind))
  {
    AliasNormalizes(i, a);
    TableWellFormed();
  }

  /** A reading that is present names a table unit of its type, spelled as in the text. */
  lemma InterpretUnit(text: string, t: Token)
    requires Ordered(text, t)
    ensures Interpret(text, t).Some? ==>
      var q := Interpret(text, t).value;
      && Definition(q.unit).Some?
      && Definition(q.unit).value.kind == q.kind
      && NormalizeUnit(Some(q.originalUnit)) == Some(q.unit)
      && q.originalUnit == text[t.unitStart..t.end]
  {
  }

  /** The amount of a reading is the value of the match's number. */
  lemma InterpretAmount(text: string, t: Token)
    requires Ordered(text, t)
    ensures Interpret(text, t).Some? ==> Interpret(text, t).value.quantity == NumberValue(text, t)
  {
  }

  /** The word of a match is a non-empty run of letters found in the text. */
  lemma WordFacts(text: string, t: Token)
    requires PatternMatch(text, t)
    ensures AllIn(text[t.unitStart..t.end], Letter) && text[t.unitStart..t.end] != []
    ensures Contains(text, text[t.unitStart..t.end])
  {
    SpanIsAllIn(text, t.unitStart, t.end, Letter);
    assert OccursAt(text, text[t.unitStart..t.end], t.unitStart);
  }

  /** What the loop returns names a table unit of the reported type, spelled as in the text. */
  lemma {:induction false} ScanResultFacts(text: string, from: nat)
    ensures Scan(text, from).0.Some? ==>
      var q := Scan(text, from).0.value;
      && Definition(q.unit).Some?
      && Definition(q.unit).value.kind == q.kind
      && NormalizeUnit(Some(q.originalUnit)) == Some(q.unit)
      && AllIn(q.originalUnit, Letter) && q.originalUnit != []
      && q.quantity >= 0.0
      && Contains(text, q.originalUnit)
    ensures Scan(text, from).0.Some? ==> 0 < Scan(text, from).1 <= |text|
    ensures Scan(text, from).0.None? ==> Scan(text, from).1 == 0
    decreases |text| - from
  {
    var m := FindMatch(text, from);
    if m.Some? {
      var t := m.value;
      FindMatchIsGreedy(text, from);
      InterpretUnit(text, t);
      InterpretAmount(text, t);
      NumberValueBounds(text, t);
      WordFacts(text, t);
      if Interpret(text, t).None? {
        ScanResultFacts(text, t.end);
      }
    }
  }

  // ---- The regular expression object and its `lastIndex` ----

  /** The module-level global pattern: its only state is `lastIndex`. */
  class QuantityScanner {
    /** The regex's `lastIndex`, counted in UTF-16 code units as in JavaScript. */
    var lastIndex: nat

    constructor()
      ensures lastIndex == 0
    {
      lastIndex := 0;
    }

    /** `exec(text)`: search from `lastIndex`; move `lastIndex` past a match, or
        reset it. Past the end of the text the search fails at once. */
    method Exec(text: string) returns (m: Option<Token>)
      modifies this
      ensures CharAt(text, old(lastIndex)).None? ==> m == None
      ensures CharAt(text, old(lastIndex)).Some? ==> m == FindMatch(text, CharAt(text, old(lastIndex)).value)
      ensures lastIndex == if m.Some? then CodeUnits(text[..m.value.end]) else 0
    {
      var from := CharAt(text, lastIndex);
      if from.None? {
        lastIndex := 0;
        return None;
      }
      var p := from.value;
      while p <= |text|
        invariant from.value <= p <= |text| + 1
        invariant FindMatch(text, from.value) == FindMatch(text, p) || (p == |text| + 1 && FindMatch(text, from.value).None?)
        decreases |text| + 1 - p
      {
        var here := MatchAt(text, p);
        if here.Some? {
          TokenBounds(text, p);
          lastIndex := CodeUnits(text[..here.value.end]);
          return here;
        }
        p := p + 1;
      }
      lastIndex := 0;
      return None;
    }

    /** `parseQuantityAndUnit(text)` against this object's `lastIndex`: the scan
        resumes at the character where `lastIndex` falls and leaves `lastIndex`
        after the match it returns, in code units. */
    method Parse(text: Option<string>) returns (r: Option<Quantity>)
      modifies this
      ensures text.None? || text.value == "" ==> r == None && lastIndex == old(lastIndex)
      ensures text.Some? && text.value != "" && CharAt(text.value, old(lastIndex)).None? ==>
        r == None && lastIndex == 0
      ensures text.Some? && text.value != "" && CharAt(text.value, old(lastIndex)).Some? ==>
        var scan := Scan(text.value, CharAt(text.value, old(lastIndex)).value);
        r == scan.0 && lastIndex == CodeUnits(text.value[..scan.1])
    {
      if text.None? || text.value == "" {
        return None;
      }
      var t := text.value;
      ghost var from := CharAt(t, lastIndex);
      ghost var goal := if from.None? then (None, 0) else Scan(t, from.value);
      var m := Exec(t);
      while m.Some?
        invariant m.Some? ==> Ordered(t, m.value) && m.value.start < m.value.end
        invariant m.Some? ==> lastIndex == CodeUnits(t[..m.value.end])
        invariant m.None? ==> lastIndex == 0
        invariant goal == if m.None? then (None, 0)
          else if Interpret(t, m.value).Some? then (Interpret(t, m.value), m.value.end)
          else Scan(t, m.value.end)
        decreases if m.Some? then |t| - m.value.start else 0
      {
        var q := Interpret(t, m.value);
        if q.Some? {
          return q;
        }
        CharAtOfCodeUnits(t, m.value.end);
        m := Exec(t);
      }
      return None;
    }
  }

  /** A word that normalises to a key of the table reads as that key, with its type. */
  lemma KnownUnit(word: string, key: string, kind: UnitType, amount: real)
    requires NormalizeUnit(Some(word)) == Some(key)
    requires Definition(key).Some? && Definition(key).value.kind == kind
    ensures Reading(word, amount) == Some(Quantity(amount, key, word, kind))
  {
  }

  lemma GramIsGram()
    ensures NormalizeUnit(Some("g")) == Some("g")
  {
    AliasNormalizes(0, "g");
  }

  lemma KiloIsKilo()
    ensures NormalizeUnit(Some("kg")) == Some("kg")
  {
    AliasNormalizes(1, "kg");
  }

  lemma CupIsCup()
    ensures NormalizeUnit(Some("cup")) == Some("cup")
  {
    AliasNormalizes(9, "cup");
  }

  lemma ReadsHundredGrams()
    ensures Interpret("100 g", Token(0, 3, 3, 4, 5)) == Some(Quantity(100.0, "g", "g", Mass))
  {
    var text := "100 g";
    var t := Token(0, 3, 3, 4, 5);
    assert text[4..5] == "g";
    assert NumberValue(text, t) == 100.0 by {
      assert text[0..3] == "100";
      assert "100"[..2] == "10" && "10"[..1] == "1" && "1"[..0] == "";
    }
    GramIsGram();
    KnownUnit("g", "g", Mass, 100.0);
  }

  lemma ReadsOneCup()
    ensures Interpret("1 cup", Token(0, 1, 1, 2, 5)) == Some(Quantity(1.0, "cup", "cup", Volume))
  {
    var text := "1 cup";
    var t := Token(0, 1, 1, 2, 5);
    assert text[2..5] == "cup";
    assert NumberValue(text, t) == 1.0 by {
      assert text[0..1] == "1";
    }
    CupIsCup();
    KnownUnit("cup", "cup", Volume, 1.0);
  }

  lemma ReadsOneAndAHalfKilos()
    ensures Interpret("1,5 kg", Token(0, 1, 3, 4, 6)) == Some(Quantity(1.5, "kg", "kg", Mass))
  {
    var text := "1,5 kg";
    var t := Token(0, 1, 3, 4, 6);
    assert text[4..6] == "kg";
    assert NumberValue(text, t) == 1.5 by {
      assert text[0..1] == "1";
      assert text[2..3] == "5";
    }
    KiloIsKilo();
    KnownUnit("kg", "kg", Mass, 1.5);
  }

  /** The greedy parse of "100 g": three digits, one blank, one letter. */
  lemma MatchesHundredGrams()
    ensures MatchAt("100 g", 0) == Some(Token(0, 3, 3, 4, 5))
  {
    var text := "100 g";
    assert Run(text, 3, Digit) == 3;
    assert Run(text, 2, Digit) == 3;
    assert Run(text, 1, Digit) == 3;
    assert Run(text, 0, Digit) == 3;
    assert Run(text, 3, Space) == 4;
    assert Run(text, 4, Letter) == 5;
  }

  /** The greedy parse of "1 cup": one digit, one blank, three letters. */
  lemma MatchesOneCup()
    ensures MatchAt("1 cup", 0) == Some(Token(0, 1, 1, 2, 5))
  {
    var text := "1 cup";
    assert Run(text, 0, Digit) == 1;
    assert Run(text, 1, Space) == 2;
    assert Run(text, 4, Letter) == 5;
    assert Run(text, 3, Letter) == 5;
    assert Run(text, 2, Letter) == 5;
  }

  /** The greedy parse of "1,5 kg": a whole part, a comma and a fraction digit. */
  lemma MatchesOneAndAHalfKilos()
    ensures MatchAt("1,5 kg", 0) == Some(Token(0, 1, 3, 4, 6))
  {
    var text := "1,5 kg";
    assert Run(text, 0, Digit) == 1;
    assert Run(text, 2, Digit) == 3;
    assert Run(text, 3, Space) == 4;
    assert Run(text, 5, Letter) == 6;
    assert Run(text, 4, Letter) == 6;
  }

  lemma ScansHundredGrams()
    ensures Scan("100 g", 0) == (Some(Quantity(100.0, "g", "g", Mass)), 5)
  {
    MatchesHundredGrams();
    assert FindMatch("100 g", 0) == Some(Token(0, 3, 3, 4, 5));
    ReadsHundredGrams();
  }

  lemma ParsesOneCup()
    ensures ParseQuantityAndUnit(Some("1 cup")) == Some(Quantity(1.0, "cup", "cup", Volume))
  {
    MatchesOneCup();
    assert FindMatch("1 cup", 0) == Some(Token(0, 1, 1, 2, 5));
    ReadsOneCup();
  }

  /** Parsing "100 g" leaves `lastIndex` at 5, so a later "1 cup" is searched from
      position 5 and yields nothing, although it names a cup. */
  lemma StaleLastIndexSkipsMatch()
    ensures Scan("100 g", 0) == (Some(Quantity(100.0, "g", "g", Mass)), 5)
    ensures CharAt("100 g", 0) == Some(0) && CodeUnits("100 g"[..5]) == 5
    ensures CharAt("1 cup", 5) == Some(5) && Scan("1 cup", 5).0 == None
    ensures ParseQuantityAndUnit(Some("1 cup")) == Some(Quantity(1.0, "cup", "cup", Volume))
  {
    assert "100 g"[..5] == "100 g";
    CodeUnitsOfBmp("100 g");
    CodeUnitsOfBmp("1 cup");
    assert "1 cup"[..5] == "1 cup";
    CharAtOfCodeUnits("1 cup", 5);
    ScansHundredGrams();
    ParsesOneCup();
  }

  /** A decimal comma counts as a point: "1,5 kg" is one and a half kilograms. */
  lemma DecimalCommaExample()
    ensures ParseQuantityAndUnit(Some("1,5 kg")) == Some(Quantity(1.5, "kg", "kg", Mass))
  {
    MatchesOneAndAHalfKilos();
    assert FindMatch("1,5 kg", 0) == Some(Token(0, 1, 3, 4, 6));
    ReadsOneAndAHalfKilos();
  }

  /** A character above U+FFFF takes two code units: after "🍅 100 g" the match
      ends at character 7 but at code unit 8. */
  lemma AstralCharCountsTwice()
    ensures |"\U{1F345} 100 g"| == 7
    ensures CodeUnits("\U{1F345} 100 g") == 8
  {
    var tomato, rest := "\U{1F345}", " 100 g";
    assert tomato + rest == "\U{1F345} 100 g";
    CodeUnitsAppend(tomato, rest);
    assert tomato[..0] == [];
    CodeUnitsOfBmp(rest);
  }
}

=== FILE: recipe.dfy ===
/**
 * The recipe graph shared by every part of the editor: nodes (ingredients,
 * steps, outputs and the interactive start marker) and the directed edges
 * between them, with the list queries the code performs on them.
 */
module Recipe {
  import opened Wrappers

  /** The node kinds of `constants/nodeKinds`. */
  datatype NodeKind = Ingredient | Step | Output | Start

  /** The attribute bag of a node: the fields the property panel edits. Each
      field is absent or a string; numeric fields (a serving count) are carried
      as the text they render to. */
  datatype NodeData = NodeData(
    title: Option<string>,  // the `label` key (`label` is a Dafny keyword)
    amount: Option<string>,
    action: Option<string>,
    time: Option<string>,
    temp: Option<string>,
    serves: Option<string>)

  const EmptyData := NodeData(None, None, None, None, None, None)

  datatype Position = Position(x: real, y: real)

  /** A canvas node. `editor` holds the fields the canvas library adds to a
      node while it is edited (selection, drag state, measured size). */
  datatype Node = Node(
    id: string,
    kind: NodeKind,
    position: Position,
    data: NodeData,
    editor: map<string, string>)

  datatype EdgeData = EdgeData(useAmount: Option<string>)

  datatype Marker = ArrowClosed | OtherMarker(name: string)

  /** A directed edge; `style` is the edge's drawing type ("bezier"). */
  datatype Edge = Edge(
    id: string,
    source: string,
    target: string,
    data: EdgeData,
    style: string,
    markerEnd: Marker)

  /** The set of ids of `nodes`. */
  function NodeIds(nodes: seq<Node>): set<string>
  {
    set n | n in nodes :: n.id
  }

  /** The ids of `nodes`, in order. */
  function IdList(nodes: seq<Node>): (ids: seq<string>)
    ensures |ids| == |nodes|
    ensures forall i :: 0 <= i < |nodes| ==> ids[i] == nodes[i].id
  {
    if nodes == [] then [] else [nodes[0].id] + IdList(nodes[1..])
  }

  /** No two nodes share an id. */
  predicate UniqueIds(nodes: seq<Node>)
  {
    forall i, j :: 0 <= i < j < |nodes| ==> nodes[i].id != nodes[j].id
  }

  /** Every edge starts and ends at a node of the graph. */
  predicate EndpointsExist(nodes: seq<Node>, edges: seq<Edge>)
  {
    forall e :: e in edges ==> e.source in NodeIds(nodes) && e.target in NodeIds(nodes)
  }

  /** `i` is the position of the first node whose id is `id`. */
  predicate FirstWithId(nodes: seq<Node>, id: string, i: int)
  {
    0 <= i < |nodes| && nodes[i].id == id && forall j :: 0 <= j < i ==> nodes[j].id != id
  }

  /** `nodes.find((n) => n.id === id)`: the first node with that id. */
  function FindNode(nodes: seq<Node>, id: string): (r: Option<Node>)
    ensures r.Some? <==> id in NodeIds(nodes)
    ensures r.Some? ==> r.value in nodes && r.value.id == id
    ensures r.Some? ==> exists i :: FirstWithId(nodes, id, i) && nodes[i] == r.value
  {
    if nodes == [] then None
    else if nodes[0].id == id then Some(nodes[0])
    else
      var r := FindNode(nodes[1..], id);
      if r.Some? then
        var i :| FirstWithId(nodes[1..], id, i) && nodes[1..][i] == r.value;
        assert FirstWithId(nodes, id, i + 1);
        r
      else r
  }

  /** With unique ids, the node found for an id is the one node carrying it. */
  lemma FindUnique(nodes: seq<Node>, i: int)
    requires UniqueIds(nodes) && 0 <= i < |nodes|
    ensures FindNode(nodes, nodes[i].id) == Some(nodes[i])
  {
    var r := FindNode(nodes, nodes[i].id);
    var k :| FirstWithId(nodes, nodes[i].id, k) && nodes[k] == r.value;
    assert k == i;
  }

  /** `edges.filter((e) => e.target === id)`. */
  function Incoming(edges: seq<Edge>, id: string): (r: seq<Edge>)
    ensures forall e :: e in r <==> e in edges && e.target == id
    ensures |r| <= |edges|
  {
    if edges == [] then []
    else (if edges[0].target == id then [edges[0]] else []) + Incoming(edges[1..], id)
  }

  /** `edges.filter((e) => e.source === id)`. */
  function Outgoing(edges: seq<Edge>, id: string): (r: seq<Edge>)
    ensures forall e :: e in r <==> e in edges && e.source == id
    ensures |r| <= |edges|
  {
    if edges == [] then []
    else (if edges[0].source == id then [edges[0]] else []) + Outgoing(edges[1..], id)
  }

  /** The filter works edge by edge: it keeps the order of the edges it keeps, and
      on one edge it keeps exactly that edge or nothing. */
  lemma {:induction false} IncomingAppend(a: seq<Edge>, b: seq<Edge>, id: string)
    ensures Incoming(a + b, id) == Incoming(a, id) + Incoming(b, id)
  {
    if a != [] {
      assert (a + b)[0] == a[0];
      assert (a + b)[1..] == a[1..] + b;
      IncomingAppend(a[1..], b, id);
    } else {
      assert a + b == b;
    }
  }

  lemma {:induction false} OutgoingAppend(a: seq<Edge>, b: seq<Edge>, id: string)
    ensures Outgoing(a + b, id) == Outgoing(a, id) + Outgoing(b, id)
  {
    if a != [] {
      assert (a + b)[0] == a[0];
      assert (a + b)[1..] == a[1..] + b;
      OutgoingAppend(a[1..], b, id);
    } else {
      assert a + b == b;
    }
  }
}

=== FILE: recipe_io.dfy ===
/**
 * Saving and loading a recipe (utils/recipeIO.js). Export projects each node to
 * its id, type, position and data and passes edges through; import parses the
 * text (falling back to the span from the first `{` to the last `}`), checks
 * the document's keys, fills in missing ids, positions and edge fields, rejects
 * unknown node types and drops edges that do not join two distinct imported
 * nodes.
 *
 * JSON text is not modelled: a document is a `Json` value, `JSON.parse` is a
 * parameter that either yields one or fails, and `JSON.stringify` is left out.
 * `uid(prefix)` is a counter that the import threads through.
 */
module RecipeIO {
  import opened Wrappers
  import opened Text
  import opened Recipe

  /** A parsed JSON document. */
  datatype Json =
    | Null
    | Bool(b: bool)
    | Num(n: real)
    | Str(s: string)
    | Arr(items: seq<Json>)
    | Obj(fields: map<string, Json>)

  /** What an import throws. */
  datatype ImportError =
    | SyntaxError(input: string)  // `JSON.parse` failed on `input`
    | TypeError                   // a property read on `null`
    | Invalid(message: string)    // `new Error(message)`

  const InvalidFileMessage := "Invalid recipe file."

  /** The imported forms of nodes and edges: fields the import copies from the
      document stay documents. */
  datatype ImportedNode = ImportedNode(id: string, kind: NodeKind, position: Json, data: Json)

  datatype ImportedEdge = ImportedEdge(id: string, source: string, target: string, data: Json, style: Json, markerEnd: Json)

  datatype Imported = Imported(nodes: seq<ImportedNode>, edges: seq<ImportedEdge>, next: nat)

  // ---- JavaScript reads and conversions ----

  /** `v[key]` on a value that is not `null`: an object's own field, otherwise `undefined`. */
  function Get(v: Json, key: string): Option<Json>
  {
    if v.Obj? && key in v.fields then Some(v.fields[key]) else None
  }

  /** JavaScript truthiness of a possibly `undefined` value. */
  predicate Present(v: Option<Json>)
  {
    match v
    case None => false
    case Some(Null) => false
    case Some(Bool(b)) => b
    case Some(Num(n)) => n != 0.0
    case Some(Str(s)) => s != ""
    case Some(_) => true
  }

  /** `undefined` or `null`, the values `??` replaces. */
  predicate Nullish(v: Option<Json>)
  {
    v.None? || v.value.Null?
  }

  function DigitChar(d: int): char
    requires 0 <= d <= 9
  {
    ('0' as int + d) as char
  }

  /** The decimal digits of a fraction in [0, 1), at most `fuel` of them. */
  function FractionDigits(f: real, fuel: nat): string
    requires 0.0 <= f < 1.0
    decreases fuel
  {
    if f == 0.0 || fuel == 0 then ""
    else
      var g := f * 10.0;
      var d := g.Floor;
      [DigitChar(d)] + FractionDigits(g - d as real, fuel - 1)
  }

  const FractionLimit: nat := 20

  /** `String(n)` for a number, in plain decimal notation. */
  function NumberText(r: real): string
  {
    var m := if r < 0.0 then -r else r;
    var whole := m.Floor;
    var fraction := m - whole as real;
    (if r < 0.0 then "-" else "") + NatToString(whole)
      + (if fraction == 0.0 then "" else "." + FractionDigits(fraction, FractionLimit))
  }

  /** `String(v)`, which is also how a template literal renders `v`. */
  function JsText(v: Json): string
  {
    match v
    case Null => "null"
    case Bool(b) => if b then "true" else "false"
    case Num(n) => NumberText(n)
    case Str(s) => s
    case Obj(_) => "[object Object]"
    case Arr(items) => Join(seq(|items|, i requires 0 <= i < |items| => if items[i].Null? then "" else JsText(items[i])), ",")
  }

  /** `String(v)` of a possibly `undefined` value. */
  function Rendered(v: Option<Json>): string
  {
    if v.None? then "undefined" else JsText(v.value)
  }

  /** `uid(prefix)` when it has been called `k` times before. */
  function Uid(prefix: string, k: nat): (r: string)
    ensures r != []
  {
    prefix + "-" + NatToString(k)
  }

  // ---- Export ----

  function KindName(k: NodeKind): string
  {
    match k
    case Ingredient => "ingredient"
    case Step => "step"
    case Output => "output"
    case Start => "start"
  }

  function PositionJson(p: Position): Json
  {
    Obj(map["x" := Num(p.x), "y" := Num(p.y)])
  }

  /** `m` with `key` set to the text `v`, or without `key` when `v` is absent
      (`JSON.stringify` leaves out `undefined` fields). */
  function WithText(m: map<string, Json>, key: string, v: Option<string>): map<string, Json>
  {
    if v.Some? then m[key := Str(v.value)] else m - {key}
  }

  function DataJson(d: NodeData): Json
  {
    var m := WithText(WithText(WithText(map[], "label", d.title), "amount", d.amount), "action", d.action);
    Obj(WithText(WithText(WithText(m, "time", d.time), "temp", d.temp), "serves", d.serves))
  }

  /** A text field of a document, when it holds a string. */
  function TextField(v: Json, key: string): Option<string>
  {
    var f := Get(v, key);
    if f.Some? && f.value.Str? then Some(f.value.s) else None
  }

  /** The node data a data document describes. */
  function DataOfJson(v: Json): NodeData
  {
    NodeData(TextField(v, "label"), TextField(v, "amount"), TextField(v, "action"),
             TextField(v, "time"), TextField(v, "temp"), TextField(v, "serves"))
  }

  /** The per-node projection of `exportRecipe`. */
  function NodeJson(n: Node): Json
  {
    Obj(map["id" := Str(n.id), "type" := Str(KindName(n.kind)), "position" := PositionJson(n.position), "data" := DataJson(n.data)])
  }

  function MarkerJson(m: Marker): Json
  {
    match m
    case ArrowClosed => Obj(map["type" := Str("arrowclosed")])
    case OtherMarker(name) => Obj(map["type" := Str(name)])
  }

  function EdgeDataJson(d: EdgeData): Json
  {
    Obj(WithText(map[], "useAmount", d.useAmount))
  }

  /** An edge as it is saved: every field of it. */
  function EdgeJson(e: Edge): Json
  {
    Obj(map["id" := Str(e.id), "source" := Str(e.source), "target" := Str(e.target),
            "data" := EdgeDataJson(e.data), "type" := Str(e.style), "markerEnd" := MarkerJson(e.markerEnd)])
  }

  function NodesJson(nodes: seq<Node>): (r: seq<Json>)
    ensures |r| == |nodes| && forall i :: 0 <= i < |nodes| ==> r[i] == NodeJson(nodes[i])
  {
    if nodes == [] then [] else [NodeJson(nodes[0])] + NodesJson(nodes[1..])
  }

  function EdgesJson(edges: seq<Edge>): (r: seq<Json>)
    ensures |r| == |edges| && forall i :: 0 <= i < |edges| ==> r[i] == EdgeJson(edges[i])
  {
    if edges == [] then [] else [EdgeJson(edges[0])] + EdgesJson(edges[1..])
  }

  /** `exportRecipe(nodes, edges)`, before it is turned into text. */
  function ExportDocument(nodes: seq<Node>, edges: seq<Edge>): Json
  {
    Obj(map["version" := Num(1.0), "nodes" := Arr(NodesJson(nodes)), "edges" := Arr(EdgesJson(edges))])
  }

  // ---- Import: parsing ----

  /** `text.indexOf(c)` from position `i`. */
  function IndexFrom(text: string, c: char, i: nat): (r: Option<nat>)
    requires i <= |text|
    ensures r.Some? ==> i <= r.value < |text| && text[r.value] == c
    ensures forall j :: i <= j < |text| && (r.None? || j < r.value) ==> text[j] != c
    decreases |text| - i
  {
    if i == |text| then None else if text[i] == c then Some(i) else IndexFrom(text, c, i + 1)
  }

  /** `text.lastIndexOf(c)` among the first `n` characters. */
  function LastIndexBefore(text: string, c: char, n: nat): (r: Option<nat>)
    requires n <= |text|
    ensures r.Some? ==> r.value < n && text[r.value] == c
    ensures forall j :: 0 <= j < n && (r.None? || r.value < j) ==> text[j] != c
  {
    if n == 0 then None else if text[n - 1] == c then Some(n - 1) else LastIndexBefore(text, c, n - 1)
  }

  /** The `try`/`catch` of `importRecipe`: parse the text; failing that, parse the
      span from its first `{` to its last `}`; failing that, rethrow. */
  function ParseLenient(text: string, parse: string -> Option<Json>): Result<Json, ImportError>
  {
    var strict := parse(text);
    if strict.Some? then Ok(strict.value)
    else
      var s := IndexFrom(text, '{', 0);
      var t := LastIndexBefore(text, '}', |text|);
      if s.Some? && t.Some? && t.value > s.value then
        var inner := text[s.value..t.value + 1];
        var second := parse(inner);
        if second.Some? then Ok(second.value) else Err(SyntaxError(inner))
      else Err(SyntaxError(text))
  }

  // ---- Import: nodes ----

  /** A node after the first `map`: its type is not checked yet. */
  datatype Draft = Draft(id: string, kind: Option<Json>, position: Json, data: Json)

  /** The position the `i`-th node gets when its own is unusable. */
  function DefaultPosition(i: nat): Json
  {
    Obj(map["x" := Num(100.0 + 60.0 * i as real), "y" := Num(100.0 + 40.0 * i as real)])
  }

  /** `p && typeof p.x === "number" && typeof p.y === "number"`. */
  predicate UsablePosition(p: Option<Json>)
  {
    && Present(p)
    && Get(p.value, "x").Some? && Get(p.value, "x").value.Num?
    && Get(p.value, "y").Some? && Get(p.value, "y").value.Num?
  }

  function PositionOf(n: Json, i: nat): Json
  {
    var p := Get(n, "position");
    if UsablePosition(p) then p.value else DefaultPosition(i)
  }

  /** `v.data || {}`. */
  function DataOf(v: Json): Json
  {
    var d := Get(v, "data");
    if Present(d) then d.value else Obj(map[])
  }

  /** What the first `map` makes of the `i`-th raw node: its id, or a fresh name when it
      has none, its type as given, a usable position or the default, and its data or `{}`. */
  predicate Drafted(n: Json, i: nat, d: Draft)
  {
    var idv := Get(n, "id");
    && (Nullish(idv) ==> d.id != [])
    && (!Nullish(idv) ==> d.id == JsText(idv.value))
    && d.kind == Get(n, "type")
    && d.position == PositionOf(n, i)
    && d.data == DataOf(n)
  }

  /** The first `map` on one raw node, the `index`-th, with `next` names used. */
  function NodeFrom(n: Json, index: nat, next: nat): (r: (Draft, nat))
    ensures Drafted(n, index, r.0) && next <= r.1
  {
    var idv := Get(n, "id");
    var id := if Nullish(idv) then Uid("nd", next) else JsText(idv.value);
    (Draft(id, Get(n, "type"), PositionOf(n, index), DataOf(n)), if Nullish(idv) then next + 1 else next)
  }

  /** The first `map` over the raw nodes from index `index` on, with `next` names used. */
  function DraftNodes(items: seq<Json>, index: nat, next: nat): (r: Result<(seq<Draft>, nat), ImportError>)
    ensures r.Ok? <==> forall i :: 0 <= i < |items| ==> !items[i].Null?
    ensures r.Err? ==> r.error == TypeError
    ensures r.Ok? ==> |r.value.0| == |items| && next <= r.value.1
  {
    if items == [] then Ok(([], next))
    else if items[0].Null? then Err(TypeError)
    else
      var (d, next1) := NodeFrom(items[0], index, next);
      var rest := DraftNodes(items[1..], index + 1, next1);
      assert forall i :: 1 <= i < |items| ==> items[i] == items[1..][i - 1];
      if rest.Err? then rest
      else Ok(([d] + rest.value.0, rest.value.1))
  }

  /** Each draft is what the first `map` makes of the raw node at its position. */
  lemma DraftNodesDrafted(items: seq<Json>, index: nat, next: nat)
    ensures DraftNodes(items, index, next).Ok? ==> forall i :: 0 <= i < |items| ==>
      Drafted(items[i], index + i, DraftNodes(items, index, next).value.0[i])
  {
    var r := DraftNodes(items, index, next);
    if r.Ok? {
      DraftNodesAll(items, index, next);
      AllDraftedAt(items, index, r.value.0);
    }
  }

  /** `drafts` are the drafts of `items`, the first at position `index`. */
  predicate AllDrafted(items: seq<Json>, index: nat, drafts: seq<Draft>)
    decreases items
  {
    |items| == |drafts| &&
    (items != [] ==> Drafted(items[0], index, drafts[0]) && AllDrafted(items[1..], index + 1, drafts[1..]))
  }

  lemma {:induction false} DraftNodesAll(items: seq<Json>, index: nat, next: nat)
    ensures DraftNodes(items, index, next).Ok? ==> AllDrafted(items, index, DraftNodes(items, index, next).value.0)
  {
    if items != [] && !items[0].Null? {
      var (d, next1) := NodeFrom(items[0], index, next);
      DraftNodesAll(items[1..], index + 1, next1);
      var rest := DraftNodes(items[1..], index + 1, next1);
      if rest.Ok? {
        assert DraftNodes(items, index, next).value.0 == [d] + rest.value.0;
        assert ([d] + rest.value.0)[1..] == rest.value.0;
      }
    }
  }

  lemma {:induction false} AllDraftedAt(items: seq<Json>, index: nat, drafts: seq<Draft>)
    requires AllDrafted(items, index, drafts)
    ensures forall i :: 0 <= i < |items| ==> Drafted(items[i], index + i, drafts[i])
    decreases items
  {
    if items != [] {
      AllDraftedAt(items[1..], index + 1, drafts[1..]);
      forall i | 0 < i < |items|
        ensures Drafted(items[i], index + i, drafts[i])
      {
        var j := i - 1;
        assert Drafted(items[1..][j], index + 1 + j, drafts[1..][j]);
        assert items[1..][j] == items[i] && drafts[1..][j] == drafts[i] && index + 1 + j == index + i;
      }
    }
  }

  /** The three node types a recipe file may hold. */
  function KindOf(t: Option<Json>): Option<NodeKind>
  {
    if t == Some(Str("ingredient")) then Some(Ingredient)
    else if t == Some(Str("step")) then Some(Step)
    else if t == Some(Str("output")) then Some(Output)
    else None
  }

  function UnknownTypeMessage(t: Option<Json>): string
  {
    "Unknown node type: " + Rendered(t)
  }

  /** The second `map`: throw at the first draft of another type. */
  function CheckKinds(drafts: seq<Draft>): (r: Result<seq<ImportedNode>, ImportError>)
    ensures r.Ok? ==> |r.value| == |drafts|
  {
    if drafts == [] then Ok([])
    else
      var d := drafts[0];
      var k := KindOf(d.kind);
      if k.None? then Err(Invalid(UnknownTypeMessage(d.kind)))
      else
        var rest := CheckKinds(drafts[1..]);
        if rest.Err? then rest else Ok([ImportedNode(d.id, k.value, d.position, d.data)] + rest.value)
  }

  // ---- Import: edges ----

  const DefaultMarker := MarkerJson(ArrowClosed)

  /** What the edge `map` makes of a raw edge: its id or a fresh name, its endpoints as
      text, its data or `{}`, its type or "bezier", its marker or a closed arrow. */
  predicate Defaulted(e: Json, edge: ImportedEdge)
  {
    var idv := Get(e, "id");
    && (Nullish(idv) ==> edge.id != [])
    && (!Nullish(idv) ==> edge.id == JsText(idv.value))
    && edge.source == Rendered(Get(e, "source"))
    && edge.target == Rendered(Get(e, "target"))
    && edge.data == DataOf(e)
    && edge.style == (if Present(Get(e, "type")) then Get(e, "type").value else Str("bezier"))
    && edge.markerEnd == (if Present(Get(e, "markerEnd")) then Get(e, "markerEnd").value else DefaultMarker)
  }

  /** The edge `map` on one raw edge, with `next` names used. */
  function EdgeFrom(e: Json, next: nat): (r: (ImportedEdge, nat))
    ensures Defaulted(e, r.0) && next <= r.1
  {
    var idv := Get(e, "id");
    var id := if Nullish(idv) then Uid("e", next) else JsText(idv.value);
    var style := if Present(Get(e, "type")) then Get(e, "type").value else Str("bezier");
    var marker := if Present(Get(e, "markerEnd")) then Get(e, "markerEnd").value else DefaultMarker;
    (ImportedEdge(id, Rendered(Get(e, "source")), Rendered(Get(e, "target")), DataOf(e), style, marker),
     if Nullish(idv) then next + 1 else next)
  }

  /** The edge `map`, with `next` names used. */
  function DraftEdges(items: seq<Json>, next: nat): (r: Result<(seq<ImportedEdge>, nat), ImportError>)
    ensures r.Ok? <==> forall i :: 0 <= i < |items| ==> !items[i].Null?
    ensures r.Err? ==> r.error == TypeError
    ensures r.Ok? ==> |r.value.0| == |items| && next <= r.value.1
  {
    if items == [] then Ok(([], next))
    else if items[0].Null? then Err(TypeError)
    else
      var (edge, next1) := EdgeFrom(items[0], next);
      var rest := DraftEdges(items[1..], next1);
      assert forall i :: 1 <= i < |items| ==> items[i] == items[1..][i - 1];
      if rest.Err? then rest
      else Ok(([edge] + rest.value.0, rest.value.1))
  }

  /** Each edge is what the edge `map` makes of the raw edge at its position. */
  lemma {:induction false} DraftEdgesDefaulted(items: seq<Json>, next: nat)
    ensures DraftEdges(items, next).Ok? ==> forall i :: 0 <= i < |items| ==>
      Defaulted(items[i], DraftEdges(items, next).value.0[i])
  {
    if items != [] && !items[0].Null? {
      var (edge, next1) := EdgeFrom(items[0], next);
      var rest := DraftEdges(items[1..], next1);
      DraftEdgesDefaulted(items[1..], next1);
      if rest.Ok? {
        var r := DraftEdges(items, next).value.0;
        assert r == [edge] + rest.value.0;
        forall i | 0 <= i < |items|
          ensures Defaulted(items[i], r[i])
        {
          if i > 0 {
            assert items[i] == items[1..][i - 1] && r[i] == rest.value.0[i - 1];
          }
        }
      }
    }
  }

  /** The edge filter's test. */
  predicate Joins(ids: set<string>, e: ImportedEdge)
  {
    e.source in ids && e.target in ids && e.source != e.target
  }

  /** The edge filter: the edges that join two distinct imported nodes, in order. */
  function KeepEdges(edges: seq<ImportedEdge>, ids: set<string>): (r: seq<ImportedEdge>)
    ensures forall e :: e in r <==> e in edges && Joins(ids, e)
    ensures |r| <= |edges|
  {
    if edges == [] then []
    else (if Joins(ids, edges[0]) then [edges[0]] else []) + KeepEdges(edges[1..], ids)
  }

  function ImportedIds(nodes: seq<ImportedNode>): set<string>
  {
    set n | n in nodes :: n.id
  }

  /** A field that is an array, else the empty list. */
  function ListField(v: Json): seq<Json>
  {
    if v.Arr? then v.items else []
  }

  /** `importRecipe` after parsing: `raw` is the parsed document, `next` the names used so far. */
  function ImportDocument(raw: Json, next: nat): Result<Imported, ImportError>
  {
    if raw.Null? then Err(TypeError)
    else
      var nodesField := Get(raw, "nodes");
      var edgesField := Get(raw, "edges");
      if !Present(nodesField) || !Present(edgesField) then Err(Invalid(InvalidFileMessage))
      else
        var drafted := DraftNodes(ListField(nodesField.value), 0, next);
        if drafted.Err? then Err(drafted.error)
        else
          var checked := CheckKinds(drafted.value.0);
          if checked.Err? then Err(checked.error)
          else
            var edges := DraftEdges(ListField(edgesField.value), drafted.value.1);
            if edges.Err? then Err(edges.error)
            else Ok(Imported(checked.value, KeepEdges(edges.value.0, ImportedIds(checked.value)), edges.value.1))
  }

  /** `importRecipe(text)`. */
  function ImportRecipe(text: string, parse: string -> Option<Json>, next: nat): Result<Imported, ImportError>
  {
    var raw := ParseLenient(text, parse);
    if raw.Err? then Err(raw.error) else ImportDocument(raw.value, next)
  }

  // ---- Properties: export ----

  /** Different counters give different names. */
  lemma UidInjective(prefix: string, j: nat, k: nat)
    ensures Uid(prefix, j) == Uid(prefix, k) ==> j == k
  {
    if Uid(prefix, j) == Uid(prefix, k) {
      assert NatToString(j) == Uid(prefix, j)[|prefix| + 1..];
      assert NatToString(k) == Uid(prefix, k)[|prefix| + 1..];
      DigitsOfNatToString(j);
      DigitsOfNatToString(k);
    }
  }

  /** A node's data survives being saved and read back. */
  lemma DataRoundTrip(d: NodeData)
    ensures DataOfJson(DataJson(d)) == d
  {
  }

  /** A saved node holds exactly its id, type, position and data, each readable back. */
  lemma NodeJsonProjects(n: Node)
    ensures NodeJson(n).Obj? && NodeJson(n).fields.Keys == {"id", "type", "position", "data"}
    ensures Get(NodeJson(n), "id") == Some(Str(n.id))
    ensures KindOf(Get(NodeJson(n), "type")) == if n.kind == Start then None else Some(n.kind)
    ensures Get(NodeJson(n), "position") == Some(PositionJson(n.position))
    ensures DataOfJson(Get(NodeJson(n), "data").value) == n.data
  {
    DataRoundTrip(n.data);
  }

  /** The saved document has version 1 and lists every node and edge, in order. */
  lemma ExportDocumentShape(nodes: seq<Node>, edges: seq<Edge>)
    ensures Get(ExportDocument(nodes, edges), "version") == Some(Num(1.0))
    ensures Get(ExportDocument(nodes, edges), "nodes").Some?
    ensures ListField(Get(ExportDocument(nodes, edges), "nodes").value) == NodesJson(nodes)
    ensures Get(ExportDocument(nodes, edges), "edges").Some?
    ensures ListField(Get(ExportDocument(nodes, edges), "edges").value) == EdgesJson(edges)
  {
  }

  // ---- Properties: the round trip ----

  /** What the first `map` makes of a saved node. */
  function DraftOfNode(n: Node): Draft
  {
    Draft(n.id, Some(Str(KindName(n.kind))), PositionJson(n.position), DataJson(n.data))
  }

  function DraftsOf(nodes: seq<Node>): (r: seq<Draft>)
    ensures |r| == |nodes| && forall i :: 0 <= i < |nodes| ==> r[i] == DraftOfNode(nodes[i])
  {
    if nodes == [] then [] else [DraftOfNode(nodes[0])] + DraftsOf(nodes[1..])
  }

  /** A node as a save and a load leave it. */
  function Reloaded(n: Node): ImportedNode
  {
    ImportedNode(n.id, n.kind, PositionJson(n.position), DataJson(n.data))
  }

  function ReloadedNodes(nodes: seq<Node>): (r: seq<ImportedNode>)
    ensures |r| == |nodes| && forall i :: 0 <= i < |nodes| ==> r[i] == Reloaded(nodes[i])
  {
    if nodes == [] then [] else [Reloaded(nodes[0])] + ReloadedNodes(nodes[1..])
  }

  /** An edge as a save and a load leave it; an empty drawing type becomes "bezier". */
  function ReloadedEdge(e: Edge): ImportedEdge
  {
    ImportedEdge(e.id, e.source, e.target, EdgeDataJson(e.data),
                 if e.style == "" then Str("bezier") else Str(e.style), MarkerJson(e.markerEnd))
  }

  function ReloadedEdges(edges: seq<Edge>): (r: seq<ImportedEdge>)
    ensures |r| == |edges| && forall i :: 0 <= i < |edges| ==> r[i] == ReloadedEdge(edges[i])
  {
    if edges == [] then [] else [ReloadedEdge(edges[0])] + ReloadedEdges(edges[1..])
  }

  lemma NodeFromSaved(n: Node, index: nat, next: nat)
    ensures NodeFrom(NodeJson(n), index, next) == (DraftOfNode(n), next)
  {
  }

  lemma {:induction false} DraftSaved(nodes: seq<Node>, index: nat, next: nat)
    ensures DraftNodes(NodesJson(nodes), index, next) == Ok((DraftsOf(nodes), next))
  {
    if nodes != [] {
      NodeFromSaved(nodes[0], index, next);
      DraftSaved(nodes[1..], index + 1, next);
      assert NodesJson(nodes)[1..] == NodesJson(nodes[1..]);
    }
  }

  lemma {:induction false} CheckSaved(nodes: seq<Node>)
    requires forall i :: 0 <= i < |nodes| ==> nodes[i].kind != Start
    ensures CheckKinds(DraftsOf(nodes)) == Ok(ReloadedNodes(nodes))
  {
    if nodes != [] {
      assert DraftsOf(nodes)[1..] == DraftsOf(nodes[1..]);
      CheckSaved(nodes[1..]);
    }
  }

  /** A saved start node stops the load at the first one. */
  lemma {:induction false} CheckSavedStart(nodes: seq<Node>)
    requires exists i :: 0 <= i < |nodes| && nodes[i].kind == Start
    ensures CheckKinds(DraftsOf(nodes)) == Err(Invalid("Unknown node type: start"))
  {
    var drafts := DraftsOf(nodes);
    assert drafts[0] == DraftOfNode(nodes[0]);
    KindNameRead(nodes[0].kind);
    if nodes[0].kind != Start {
      assert drafts[1..] == DraftsOf(nodes[1..]);
      var i :| 0 <= i < |nodes| && nodes[i].kind == Start;
      assert nodes[1..][i - 1].kind == Start;
      CheckSavedStart(nodes[1..]);
    }
  }

  /** The type names read back as their kinds, except "start", which the load
      rejects with its name in the message. */
  lemma KindNameRead(k: NodeKind)
    ensures k != Start ==> KindOf(Some(Str(KindName(k)))) == Some(k)
    ensures k == Start ==> KindOf(Some(Str(KindName(k)))) == None
    ensures k == Start ==> UnknownTypeMessage(Some(Str(KindName(k)))) == "Unknown node type: start"
  {
  }

  lemma EdgeFromSaved(e: Edge, next: nat)
    ensures EdgeFrom(EdgeJson(e), next) == (ReloadedEdge(e), next)
  {
  }

  lemma {:induction false} DraftEdgesSaved(edges: seq<Edge>, next: nat)
    ensures DraftEdges(EdgesJson(edges), next) == Ok((ReloadedEdges(edges), next))
  {
    if edges != [] {
      EdgeFromSaved(edges[0], next);
      DraftEdgesSaved(edges[1..], next);
      assert EdgesJson(edges)[1..] == EdgesJson(edges[1..]);
    }
  }

  lemma ReloadedIds(nodes: seq<Node>)
    ensures ImportedIds(ReloadedNodes(nodes)) == NodeIds(nodes)
  {
    var r := ReloadedNodes(nodes);
    forall id | id in NodeIds(nodes) ensures id in ImportedIds(r) {
      var n :| n in nodes && n.id == id;
      var i :| 0 <= i < |nodes| && nodes[i] == n;
      assert r[i].id == id;
    }
  }

  /** Loading what was saved gives back every node, with its id, type, position and
      data, and every edge that joins two distinct saved nodes, in order, using no
      fresh names; only an empty drawing type changes, to "bezier". */
  lemma ExportImportRoundTrip(nodes: seq<Node>, edges: seq<Edge>, next: nat)
    requires forall i :: 0 <= i < |nodes| ==> nodes[i].kind != Start
    ensures ImportDocument(ExportDocument(nodes, edges), next)
      == Ok(Imported(ReloadedNodes(nodes), KeepEdges(ReloadedEdges(edges), NodeIds(nodes)), next))
  {
    var doc := ExportDocument(nodes, edges);
    ExportDocumentShape(nodes, edges);
    assert Present(Get(doc, "nodes")) && Present(Get(doc, "edges"));
    DraftSaved(nodes, 0, next);
    assert DraftNodes(ListField(Get(doc, "nodes").value), 0, next) == Ok((DraftsOf(nodes), next));
    CheckSaved(nodes);
    DraftEdgesSaved(edges, next);
    assert DraftEdges(ListField(Get(doc, "edges").value), next) == Ok((ReloadedEdges(edges), next));
    ReloadedIds(nodes);
  }

  /** Every edge passes the filter: nothing is dropped. */
  lemma {:induction false} KeepEdgesAll(edges: seq<ImportedEdge>, ids: set<string>)
    requires forall i :: 0 <= i < |edges| ==> Joins(ids, edges[i])
    ensures KeepEdges(edges, ids) == edges
  {
    if edges != [] {
      KeepEdgesAll(edges[1..], ids);
    }
  }

  /** What a load of `nodes` and `edges` as saved holds: each node's id, type and
      data, and each edge's id and endpoints. */
  predicate KeepsGraph(r: Imported, nodes: seq<Node>, edges: seq<Edge>)
  {
    && |r.nodes| == |nodes| && |r.edges| == |edges|
    && (forall i :: 0 <= i < |nodes| ==>
          r.nodes[i].id == nodes[i].id && r.nodes[i].kind == nodes[i].kind
          && DataOfJson(r.nodes[i].data) == nodes[i].data)
    && (forall i :: 0 <= i < |edges| ==>
          r.edges[i].id == edges[i].id && r.edges[i].source == edges[i].source && r.edges[i].target == edges[i].target)
  }

  lemma ReloadedKeepsGraph(nodes: seq<Node>, edges: seq<Edge>, next: nat)
    ensures KeepsGraph(Imported(ReloadedNodes(nodes), ReloadedEdges(edges), next), nodes, edges)
  {
    var r := Imported(ReloadedNodes(nodes), ReloadedEdges(edges), next);
    forall i | 0 <= i < |nodes|
      ensures r.nodes[i].id == nodes[i].id && r.nodes[i].kind == nodes[i].kind
      ensures DataOfJson(r.nodes[i].data) == nodes[i].data
    {
      assert r.nodes[i] == Reloaded(nodes[i]);
      DataRoundTrip(nodes[i].data);
    }
  }

  /** For a graph whose edges join existing, distinct nodes, a save and a load keep
      the node count, the edge count, and each node's id, type and data. */
  lemma RoundTripKeepsGraph(nodes: seq<Node>, edges: seq<Edge>, next: nat)
    requires forall i :: 0 <= i < |nodes| ==> nodes[i].kind != Start
    requires EndpointsExist(nodes, edges)
    requires forall e :: e in edges ==> e.source != e.target
    ensures ImportDocument(ExportDocument(nodes, edges), next).Ok?
    ensures KeepsGraph(ImportDocument(ExportDocument(nodes, edges), next).value, nodes, edges)
  {
    ExportImportRoundTrip(nodes, edges, next);
    ReloadedEdgesJoin(nodes, edges);
    ReloadedKeepsGraph(nodes, edges, next);
  }

  /** Loading text that reads back as a saved document gives the saved graph back. */
  lemma ImportRecipeOfExport(nodes: seq<Node>, edges: seq<Edge>, text: string, parse: string -> Option<Json>, next: nat)
    requires forall i :: 0 <= i < |nodes| ==> nodes[i].kind != Start
    requires parse(text) == Some(ExportDocument(nodes, edges))
    ensures ImportRecipe(text, parse, next)
      == Ok(Imported(ReloadedNodes(nodes), KeepEdges(ReloadedEdges(edges), NodeIds(nodes)), next))
  {
    LenientStrict(text, parse);
    ExportImportRoundTrip(nodes, edges, next);
  }

  /** Edges that join existing, distinct nodes all pass the load's filter. */
  lemma ReloadedEdgesJoin(nodes: seq<Node>, edges: seq<Edge>)
    requires EndpointsExist(nodes, edges)
    requires forall e :: e in edges ==> e.source != e.target
    ensures KeepEdges(ReloadedEdges(edges), NodeIds(nodes)) == ReloadedEdges(edges)
  {
    var reloaded := ReloadedEdges(edges);
    assert forall i :: 0 <= i < |reloaded| ==> edges[i] in edges;
    KeepEdgesAll(reloaded, NodeIds(nodes));
  }

  /** A graph with a start node saves, but does not load back. */
  lemma ExportedStartRejected(nodes: seq<Node>, edges: seq<Edge>, next: nat)
    requires exists i :: 0 <= i < |nodes| && nodes[i].kind == Start
    ensures ImportDocument(ExportDocument(nodes, edges), next) == Err(Invalid("Unknown node type: start"))
  {
    var doc := ExportDocument(nodes, edges);
    ExportDocumentShape(nodes, edges);
    DraftSaved(nodes, 0, next);
    CheckSavedStart(nodes);
    assert Present(Get(doc, "nodes")) && Present(Get(doc, "edges"));
    assert DraftNodes(ListField(Get(doc, "nodes").value), 0, next) == Ok((DraftsOf(nodes), next));
  }

  // ---- Properties: parsing ----

  /** Text that parses is taken as it is. */
  lemma LenientStrict(text: string, parse: string -> Option<Json>)
    requires parse(text).Some?
    ensures ParseLenient(text, parse) == Ok(parse(text).value)
  {
  }

  /** When the whole text does not parse, the span from its first `{` to its last
      `}` is parsed instead, whatever comes before or after it. */
  lemma LenientRecovers(text: string, s: nat, t: nat, parse: string -> Option<Json>)
    requires parse(text).None?
    requires s < t < |text| && text[s] == '{' && text[t] == '}'
    requires forall j :: 0 <= j < s ==> text[j] != '{'
    requires forall j :: t < j < |text| ==> text[j] != '}'
    ensures ParseLenient(text, parse)
      == if parse(text[s..t + 1]).Some? then Ok(parse(text[s..t + 1]).value) else Err(SyntaxError(text[s..t + 1]))
  {
    assert IndexFrom(text, '{', 0) == Some(s);
    assert LastIndexBefore(text, '}', |text|) == Some(t);
  }

  /** Without a `{` followed later by a `}`, the parse error is rethrown. */
  lemma LenientRethrows(text: string, parse: string -> Option<Json>)
    requires parse(text).None?
    requires forall i, j :: 0 <= i < j < |text| && text[i] == '{' ==> text[j] != '}'
    ensures ParseLenient(text, parse) == Err(SyntaxError(text))
  {
  }

  // ---- Properties: import ----

  /** The type check passes only when every node has a known type; it then keeps
      every draft in order, and otherwise reports the first unknown type. */
  lemma {:induction false} CheckKindsAllOrNothing(drafts: seq<Draft>)
    ensures CheckKinds(drafts).Ok? <==> forall i :: 0 <= i < |drafts| ==> KindOf(drafts[i].kind).Some?
    ensures CheckKinds(drafts).Ok? ==> forall i :: 0 <= i < |drafts| ==>
      CheckKinds(drafts).value[i] == ImportedNode(drafts[i].id, KindOf(drafts[i].kind).value, drafts[i].position, drafts[i].data)
    ensures CheckKinds(drafts).Err? ==>
      exists i :: && 0 <= i < |drafts| && KindOf(drafts[i].kind).None?
                  && (forall j :: 0 <= j < i ==> KindOf(drafts[j].kind).Some?)
                  && CheckKinds(drafts).error == Invalid(UnknownTypeMessage(drafts[i].kind))
  {
    if drafts != [] {
      var rest := drafts[1..];
      CheckKindsAllOrNothing(rest);
      assert forall i :: 1 <= i < |drafts| ==> drafts[i] == rest[i - 1];
      if KindOf(drafts[0].kind).Some? {
        if CheckKinds(rest).Ok? {
          assert forall i :: 1 <= i < |drafts| ==> CheckKinds(drafts).value[i] == CheckKinds(rest).value[i - 1];
        } else {
          var i :| 0 <= i < |rest| && KindOf(rest[i].kind).None?
            && (forall j :: 0 <= j < i ==> KindOf(rest[j].kind).Some?)
            && CheckKinds(rest).error == Invalid(UnknownTypeMessage(rest[i].kind));
          assert KindOf(drafts[i + 1].kind).None?;
        }
      }
    }
  }

  /** The message of an unknown type is never the missing-key message. */
  lemma MessagesDiffer(t: Option<Json>)
    ensures UnknownTypeMessage(t) != InvalidFileMessage
  {
    assert UnknownTypeMessage(t)[0] == 'U';
  }

  /** A document fails with "Invalid recipe file." exactly when it is not `null` and
      its `nodes` or its `edges` is missing or falsy. */
  lemma InvalidFileIff(raw: Json, next: nat)
    ensures ImportDocument(raw, next) == Err(Invalid(InvalidFileMessage))
      <==> !raw.Null? && (!Present(Get(raw, "nodes")) || !Present(Get(raw, "edges")))
  {
    if !raw.Null? && Present(Get(raw, "nodes")) && Present(Get(raw, "edges")) {
      var drafted := DraftNodes(ListField(Get(raw, "nodes").value), 0, next);
      if drafted.Ok? {
        CheckKindsAllOrNothing(drafted.value.0);
        if CheckKinds(drafted.value.0).Err? {
          var i :| 0 <= i < |drafted.value.0| && CheckKinds(drafted.value.0).error == Invalid(UnknownTypeMessage(drafted.value.0[i].kind));
          MessagesDiffer(drafted.value.0[i].kind);
        }
      }
    }
  }

  /** A document whose nodes are all objects but one of which has another type
      imports nothing: the whole import fails with "Unknown node type: …". */
  lemma UnknownTypeRejectsAll(raw: Json, next: nat, i: nat)
    requires !raw.Null? && Present(Get(raw, "nodes")) && Present(Get(raw, "edges"))
    requires var items := ListField(Get(raw, "nodes").value);
      i < |items| && (forall j :: 0 <= j < |items| ==> !items[j].Null?) && KindOf(Get(items[i], "type")).None?
    ensures ImportDocument(raw, next).Err?
    ensures ImportDocument(raw, next).error.Invalid?
    ensures StartsWith(ImportDocument(raw, next).error.message, "Unknown node type: ")
  {
    var items := ListField(Get(raw, "nodes").value);
    var drafts := DraftNodes(items, 0, next).value.0;
    DraftNodesDrafted(items, 0, next);
    assert Drafted(items[i], 0 + i, drafts[i]);
    CheckKindsAllOrNothing(drafts);
    var k :| 0 <= k < |drafts| && CheckKinds(drafts).error == Invalid(UnknownTypeMessage(drafts[k].kind));
    StartsWithConcat("Unknown node type: ", Rendered(drafts[k].kind));
  }

  /** One imported node per raw node, in order: its type read from the raw
      `type`, and its id, position and data those the `map` gives the raw node. */
  predicate NodesFaithful(items: seq<Json>, nodes: seq<ImportedNode>)
  {
    && |nodes| == |items|
    && forall i :: 0 <= i < |items| ==>
         && KindOf(Get(items[i], "type")) == Some(nodes[i].kind)
         && Drafted(items[i], i, Draft(nodes[i].id, Get(items[i], "type"), nodes[i].position, nodes[i].data))
  }

  /** A successful import holds one node per raw node, in order, each with the type
      it was given and the id, position and data the first `map` fills in. */
  lemma ImportedNodesFaithful(raw: Json, next: nat)
    ensures ImportDocument(raw, next).Ok? ==>
      NodesFaithful(ListField(Get(raw, "nodes").value), ImportDocument(raw, next).value.nodes)
  {
    ImportDocumentNodes(raw, next);
    if ImportDocument(raw, next).Ok? {
      DraftedNodesFaithful(ListField(Get(raw, "nodes").value), next);
    }
  }

  lemma DraftedNodesFaithful(items: seq<Json>, next: nat)
    requires DraftNodes(items, 0, next).Ok?
    requires CheckKinds(DraftNodes(items, 0, next).value.0).Ok?
    ensures NodesFaithful(items, CheckKinds(DraftNodes(items, 0, next).value.0).value)
  {
    DraftNodesAll(items, 0, next);
    CheckedNodesFaithful(items, DraftNodes(items, 0, next).value.0);
  }

  /** A successful import's nodes are the type-checked drafts of the raw nodes. */
  lemma ImportDocumentNodes(raw: Json, next: nat)
    ensures ImportDocument(raw, next).Ok? ==>
      && Present(Get(raw, "nodes"))
      && DraftNodes(ListField(Get(raw, "nodes").value), 0, next).Ok?
      && CheckKinds(DraftNodes(ListField(Get(raw, "nodes").value), 0, next).value.0).Ok?
      && ImportDocument(raw, next).value.nodes
         == CheckKinds(DraftNodes(ListField(Get(raw, "nodes").value), 0, next).value.0).value
  {
  }

  /** The type check keeps each draft's id, position and data, and reads its type. */
  lemma CheckedNodesFaithful(items: seq<Json>, drafts: seq<Draft>)
    requires AllDrafted(items, 0, drafts)
    requires CheckKinds(drafts).Ok?
    ensures NodesFaithful(items, CheckKinds(drafts).value)
  {
    AllDraftedAt(items, 0, drafts);
    var nodes := CheckKinds(drafts).value;
    CheckKindsAllOrNothing(drafts);
    forall i | 0 <= i < |items|
      ensures KindOf(Get(items[i], "type")) == Some(nodes[i].kind)
      ensures Drafted(items[i], i, Draft(nodes[i].id, Get(items[i], "type"), nodes[i].position, nodes[i].data))
    {
      assert Drafted(items[i], 0 + i, drafts[i]);
      assert drafts[i].kind == Get(items[i], "type");
      assert Draft(nodes[i].id, Get(items[i], "type"), nodes[i].position, nodes[i].data) == drafts[i];
    }
  }

  /** A successful import keeps exactly the raw edges, with their defaults filled in,
      that join two distinct imported nodes, in their order. */
  lemma ImportedEdgesFiltered(raw: Json, next: nat)
    ensures ImportDocument(raw, next).Ok? ==>
      var rawEdges := ListField(Get(raw, "edges").value);
      var r := ImportDocument(raw, next).value;
      && (forall e :: e in r.edges ==> Joins(ImportedIds(r.nodes), e))
      && exists d: seq<ImportedEdge> ::
           && |d| == |rawEdges|
           && (forall k :: 0 <= k < |d| ==> Defaulted(rawEdges[k], d[k]))
           && r.edges == KeepEdges(d, ImportedIds(r.nodes))
  {
    if ImportDocument(raw, next).Ok? {
      var rawEdges := ListField(Get(raw, "edges").value);
      var r := ImportDocument(raw, next).value;
      var drafted := DraftNodes(ListField(Get(raw, "nodes").value), 0, next);
      var d := DraftEdges(rawEdges, drafted.value.1).value.0;
      DraftEdgesDefaulted(rawEdges, drafted.value.1);
      assert r.edges == KeepEdges(d, ImportedIds(r.nodes));
    }
  }

  /** The edge filter works edge by edge, so it keeps the order of the edges. */
  lemma {:induction false} KeepEdgesAppend(a: seq<ImportedEdge>, b: seq<ImportedEdge>, ids: set<string>)
    ensures KeepEdges(a + b, ids) == KeepEdges(a, ids) + KeepEdges(b, ids)
  {
    if a != [] {
      assert (a + b)[1..] == a[1..] + b;
      KeepEdgesAppend(a[1..], b, ids);
    } else {
      assert a + b == b;
    }
  }
}

=== FILE: session_store.dfy ===
/**
 * The interactive cooking session kept by the recipe store: which node the
 * cook is at, the nodes already done, and a countdown timer for timed steps.
 * Each store action replaces the whole session record by a function of the
 * previous one; the functions below are those replacements and the class is
 * the store that applies them.
 */
module SessionStore {
  import opened Wrappers
  import opened Text
  import opened Recipe

  /** The statuses of `src/interactive/types.js`. */
  datatype Status = Idle | AwaitingPrep | RunningTimer | Completed

  /** A countdown; durations are in milliseconds. */
  datatype Timer = Timer(running: bool, remainingMs: real, targetMs: real)

  /** The graph a session was started on. */
  datatype SessionGraph = SessionGraph(nodes: seq<Node>, edges: seq<Edge>)

  /** The `interactive` record of the store. */
  datatype Interactive = Interactive(
    status: Status,
    startNodeId: Option<string>,
    currentNodeId: Option<string>,
    history: seq<string>,
    timer: Timer,
    sessionGraph: Option<SessionGraph>,
    graphSignature: Option<string>,
    warning: Option<string>)

  const StoppedTimer := Timer(false, 0.0, 0.0)

  /** `initialInteractiveState`. */
  const Initial := Interactive(Idle, None, None, [], StoppedTimer, None, None, None)

  /** The parts of a session that only starting, stopping or restarting change. */
  predicate SameSession(s: Interactive, r: Interactive)
  {
    r.startNodeId == s.startNodeId && r.sessionGraph == s.sessionGraph && r.graphSignature == s.graphSignature
  }

  /** A running timer belongs to the running-timer status, and its remainder lies
      between zero and its target. */
  predicate TimerConsistent(s: Interactive)
  {
    (s.timer.running ==> s.status == RunningTimer) && 0.0 <= s.timer.remainingMs <= s.timer.targetMs
  }

  // ---- The transitions ----

  /** `startSession`: a fresh session at its start node. */
  function Started(startNodeId: Option<string>, graph: Option<SessionGraph>, signature: Option<string>): (r: Interactive)
    ensures r.status == AwaitingPrep && r.currentNodeId == r.startNodeId == startNodeId
    ensures r.history == [] && r.timer == StoppedTimer && r.warning == None
    ensures r.sessionGraph == graph && r.graphSignature == signature
    ensures TimerConsistent(r)
  {
    Initial.(status := AwaitingPrep, startNodeId := startNodeId, currentNodeId := startNodeId,
             sessionGraph := graph, graphSignature := signature)
  }

  /** `restart`: back to the initial state when there is no start node, else a
      fresh session on the same start node, graph and signature. */
  function Restarted(s: Interactive): (r: Interactive)
    ensures !Truthy(s.startNodeId) ==> r == Initial
    ensures Truthy(s.startNodeId) ==> r == Started(s.startNodeId, s.sessionGraph, s.graphSignature)
  {
    if !Truthy(s.startNodeId) then Initial
    else
      Initial.(status := AwaitingPrep, startNodeId := s.startNodeId, currentNodeId := s.startNodeId,
               sessionGraph := s.sessionGraph, graphSignature := s.graphSignature)
  }

  /** `advance`: move to `nextNodeId`, recording the node left behind. */
  function Advanced(s: Interactive, nextNodeId: Option<string>, nextStatus: Status): (r: Interactive)
    ensures r.status == nextStatus && r.currentNodeId == nextNodeId && r.timer == StoppedTimer
    ensures s.history <= r.history && |r.history| <= |s.history| + 1
    ensures |r.history| == |s.history| + 1 <==> Truthy(s.currentNodeId)
    ensures Truthy(s.currentNodeId) ==> r.history[|s.history|] == s.currentNodeId.value
    ensures SameSession(s, r) && r.warning == s.warning
  {
    var history := if Truthy(s.currentNodeId) then s.history + [s.currentNodeId.value] else s.history;
    s.(status := nextStatus, currentNodeId := nextNodeId, history := history, timer := StoppedTimer)
  }

  /** `complete`: the session ends; the history is kept. */
  function Finished(s: Interactive): (r: Interactive)
    ensures r.status == Completed && r.currentNodeId == None && r.timer == StoppedTimer
    ensures r.history == s.history && SameSession(s, r) && r.warning == s.warning
  {
    s.(status := Completed, currentNodeId := None, timer := StoppedTimer)
  }

  /** `cancelTimer`: back to preparing, with the timer stopped. */
  function TimerCancelled(s: Interactive): (r: Interactive)
    ensures r.status == AwaitingPrep && r.timer == StoppedTimer
    ensures r.currentNodeId == s.currentNodeId && r.history == s.history
    ensures SameSession(s, r) && r.warning == s.warning
  {
    s.(status := AwaitingPrep, timer := StoppedTimer)
  }

  /** `startTimer`: count down from `durationMs`. */
  function TimerStarted(s: Interactive, durationMs: real): (r: Interactive)
    ensures r.status == RunningTimer && r.timer.running
    ensures r.timer.remainingMs == r.timer.targetMs == durationMs
    ensures r.currentNodeId == s.currentNodeId && r.history == s.history
    ensures SameSession(s, r) && r.warning == s.warning
  {
    s.(status := RunningTimer, timer := Timer(true, durationMs, durationMs))
  }

  /** `tick`: nothing happens to a stopped timer; a running one loses `deltaMs`,
      never going below zero, and stops when it reaches zero. */
  function Ticked(s: Interactive, deltaMs: real): (r: Interactive)
    ensures !s.timer.running ==> r == s
    ensures s.timer.running ==> r.timer.remainingMs >= 0.0 && (r.timer.running <==> r.timer.remainingMs > 0.0)
    ensures s.timer.running && r.timer.running ==> r.timer.remainingMs == s.timer.remainingMs - deltaMs
    ensures r.timer.targetMs == s.timer.targetMs && r == s.(timer := r.timer)
  {
    if !s.timer.running then s
    else
      var remaining := if s.timer.remainingMs - deltaMs > 0.0 then s.timer.remainingMs - deltaMs else 0.0;
      s.(timer := s.timer.(remainingMs := remaining, running := remaining > 0.0))
  }

  /** `setWarning`: only the warning changes. */
  function Warned(s: Interactive, message: Option<string>): (r: Interactive)
    ensures r.warning == message && r == s.(warning := r.warning)
  {
    s.(warning := message)
  }

  // ---- The store ----

  /** The store, holding the one `interactive` record its actions replace. */
  class RecipeStore {
    var interactive: Interactive

    constructor()
      ensures interactive == Initial
    {
      interactive := Initial;
    }

    method StartSession(startNodeId: Option<string>, graph: Option<SessionGraph>, signature: Option<string>)
      modifies this
      ensures interactive == Started(startNodeId, graph, signature)
    {
      interactive := Started(startNodeId, graph, signature);
    }

    /** `stopSession`: everything back to the initial state. */
    method StopSession()
      modifies this
      ensures interactive == Initial
    {
      interactive := Initial;
    }

    method Restart()
      modifies this
      ensures interactive == Restarted(old(interactive))
    {
      if !Truthy(interactive.startNodeId) {
        interactive := Initial;
        return;
      }
      interactive := Restarted(interactive);
    }

    /** `advance`; the status defaults to awaiting-prep. */
    method Advance(nextNodeId: Option<string>, nextStatus: Status := AwaitingPrep)
      modifies this
      ensures interactive == Advanced(old(interactive), nextNodeId, nextStatus)
    {
      interactive := Advanced(interactive, nextNodeId, nextStatus);
    }

    method Complete()
      modifies this
      ensures interactive == Finished(old(interactive))
    {
      interactive := Finished(interactive);
    }

    method CancelTimer()
      modifies this
      ensures interactive == TimerCancelled(old(interactive))
    {
      interactive := TimerCancelled(interactive);
    }

    method StartTimer(durationMs: real)
      modifies this
      ensures interactive == TimerStarted(old(interactive), durationMs)
    {
      interactive := TimerStarted(interactive, durationMs);
    }

    method Tick(deltaMs: real)
      modifies this
      ensures interactive == Ticked(old(interactive), deltaMs)
    {
      interactive := Ticked(interactive, deltaMs);
    }

    method SetWarning(message: Option<string>)
      modifies this
      ensures interactive == Warned(old(interactive), message)
    {
      interactive := Warned(interactive, message);
    }
  }

  // ---- Properties of sessions ----

  /** The actions a session goes through between a start and a restart. */
  datatype Action =
    | Advance(nextNodeId: Option<string>, nextStatus: Status)
    | Complete
    | CancelTimer
    | StartTimer(durationMs: real)
    | Tick(deltaMs: real)
    | SetWarning(message: Option<string>)

  function Apply(s: Interactive, a: Action): Interactive
  {
    match a
    case Advance(next, status) => Advanced(s, next, status)
    case Complete => Finished(s)
    case CancelTimer => TimerCancelled(s)
    case StartTimer(d) => TimerStarted(s, d)
    case Tick(d) => Ticked(s, d)
    case SetWarning(m) => Warned(s, m)
  }

  function Run(s: Interactive, actions: seq<Action>): Interactive
    decreases |actions|
  {
    if actions == [] then s else Run(Apply(s, actions[0]), actions[1..])
  }

  /** No durations or elapsed times below zero. */
  predicate NonNegative(a: Action)
  {
    match a
    case StartTimer(d) => d >= 0.0
    case Tick(d) => d >= 0.0
    case _ => true
  }

  /** Restarting forgets everything a session did: whatever actions ran, the
      restarted session is the one restarting would have given at the outset. */
  lemma {:induction false} RestartForgetsProgress(s: Interactive, actions: seq<Action>)
    ensures Restarted(Run(s, actions)) == Restarted(s)
    decreases |actions|
  {
    if actions != [] {
      var next := Apply(s, actions[0]);
      assert SameSession(s, next);
      RestartForgetsProgress(next, actions[1..]);
    }
  }

  /** Restarting a session started on a start node gives that start again. */
  lemma RestartAfterStart(startNodeId: Option<string>, graph: Option<SessionGraph>, signature: Option<string>, actions: seq<Action>)
    requires Truthy(startNodeId)
    ensures Restarted(Run(Started(startNodeId, graph, signature), actions)) == Started(startNodeId, graph, signature)
  {
    RestartForgetsProgress(Started(startNodeId, graph, signature), actions);
  }

  /** Every action keeps the timer consistent, given no negative durations. */
  lemma ApplyKeepsTimerConsistent(s: Interactive, a: Action)
    requires TimerConsistent(s) && NonNegative(a)
    ensures TimerConsistent(Apply(s, a))
  {
  }

  /** Over a whole session, the timer stays consistent and the history only grows. */
  lemma {:induction false} RunKeepsInvariants(s: Interactive, actions: seq<Action>)
    requires TimerConsistent(s)
    requires forall i :: 0 <= i < |actions| ==> NonNegative(actions[i])
    ensures TimerConsistent(Run(s, actions))
    ensures s.history <= Run(s, actions).history
    ensures |Run(s, actions).history| <= |s.history| + |actions|
    decreases |actions|
  {
    if actions != [] {
      var next := Apply(s, actions[0]);
      ApplyKeepsTimerConsistent(s, actions[0]);
      assert s.history <= next.history && |next.history| <= |s.history| + 1;
      RunKeepsInvariants(next, actions[1..]);
    }
  }

  /** Two ticks take off what one tick of their sum does. */
  lemma TicksAddUp(s: Interactive, a: real, b: real)
    requires a >= 0.0 && b >= 0.0
    ensures Ticked(Ticked(s, a), b) == Ticked(s, a + b)
  {
  }

  /** A tick of a running timer never adds time, given a non-negative elapsed time. */
  lemma TickNeverAddsTime(s: Interactive, deltaMs: real)
    requires deltaMs >= 0.0 && s.timer.remainingMs >= 0.0
    ensures 0.0 <= Ticked(s, deltaMs).timer.remainingMs <= s.timer.remainingMs
  {
  }
}

=== FILE: text.dfy ===
/**
 * The few pieces of JavaScript string behaviour the recipe code relies on:
 * `trim`, the `\s` character class, lower-casing, `Array.prototype.join`
 * and the way a template literal renders a missing value.
 */
module Text {
  import opened Wrappers

  /** The characters JavaScript treats as white space or line terminators
      (used by `String.prototype.trim` and by `\s` in a regular expression). */
  predicate IsJsWhitespace(c: char)
  {
    c == '\t' || c == '\n' || c == '\U{000B}' || c == '\U{000C}' || c == '\r' || c == ' '
    || c == '\U{00A0}' || c == '\U{1680}' || ('\U{2000}' <= c <= '\U{200A}')
    || c == '\U{2028}' || c == '\U{2029}' || c == '\U{202F}' || c == '\U{205F}'
    || c == '\U{3000}' || c == '\U{FEFF}'
  }

  function TrimStart(s: string): (r: string)
    ensures |r| <= |s| && r == s[|s| - |r|..]
    ensures r == [] || !IsJsWhitespace(r[0])
    ensures forall i :: 0 <= i < |s| - |r| ==> IsJsWhitespace(s[i])
  {
    if s != [] && IsJsWhitespace(s[0]) then TrimStart(s[1..]) else s
  }

  function TrimEnd(s: string): (r: string)
    ensures |r| <= |s| && r == s[..|r|]
    ensures r == [] || !IsJsWhitespace(r[|r| - 1])
    ensures forall i :: |r| <= i < |s| ==> IsJsWhitespace(s[i])
  {
    if s != [] && IsJsWhitespace(s[|s| - 1]) then TrimEnd(s[..|s| - 1]) else s
  }

  /** Text with no white space at either end. */
  predicate Trimmed(s: string)
  {
    s == [] || (!IsJsWhitespace(s[0]) && !IsJsWhitespace(s[|s| - 1]))
  }

  /** Text made of white space only. */
  predicate AllWhitespace(s: string)
  {
    forall i :: 0 <= i < |s| ==> IsJsWhitespace(s[i])
  }

  /** `String.prototype.trim`: exactly the white space at the two ends is removed. */
  function Trim(s: string): (r: string)
    ensures Trimmed(r)
    ensures exists i, j :: && 0 <= i <= j <= |s| && r == s[i..j]
                           && AllWhitespace(s[..i]) && AllWhitespace(s[j..])
  {
    BothEndsCutWhitespace(s);
    TrimEnd(TrimStart(s))
  }

  lemma AllWhitespaceFrom(s: string, j: nat)
    requires j <= |s|
    requires forall m :: j <= m < |s| ==> IsJsWhitespace(s[m])
    ensures AllWhitespace(s[j..])
  {
    forall k | 0 <= k < |s| - j ensures IsJsWhitespace(s[j..][k]) {
      assert s[j..][k] == s[j + k];
    }
  }

  lemma BothEndsCutWhitespace(s: string)
    ensures exists i, j :: && 0 <= i <= j <= |s| && TrimEnd(TrimStart(s)) == s[i..j]
                           && AllWhitespace(s[..i]) && AllWhitespace(s[j..])
  {
    var a := TrimStart(s);
    var b := TrimEnd(a);
    assert |a| <= |s| && a == s[|s| - |a|..];
    assert forall k :: 0 <= k < |s| - |a| ==> IsJsWhitespace(s[k]);
    assert |b| <= |a| && b == a[..|b|];
    assert forall k :: |b| <= k < |a| ==> IsJsWhitespace(a[k]);
    CutWhitespace(s, a, b);
  }

  /** A suffix `a` of `s` after white space only, and a prefix `b` of `a` before
      white space only, is a slice of `s` between white space. */
  lemma CutWhitespace(s: string, a: string, b: string)
    requires |a| <= |s| && a == s[|s| - |a|..]
    requires forall k :: 0 <= k < |s| - |a| ==> IsJsWhitespace(s[k])
    requires |b| <= |a| && b == a[..|b|]
    requires forall k :: |b| <= k < |a| ==> IsJsWhitespace(a[k])
    ensures exists i, j :: && 0 <= i <= j <= |s| && b == s[i..j]
                           && AllWhitespace(s[..i]) && AllWhitespace(s[j..])
  {
    var i := |s| - |a|;
    var j := i + |b|;
    assert b == s[i..j];
    assert AllWhitespace(s[..i]) by {
      forall k | 0 <= k < i ensures IsJsWhitespace(s[..i][k]) {
        assert s[..i][k] == s[k];
      }
    }
    assert AllWhitespace(s[j..]) by {
      forall m | j <= m < |s| ensures IsJsWhitespace(s[m]) {
        assert s[m] == a[m - i];
      }
      AllWhitespaceFrom(s, j);
    }
  }




  lemma {:induction false} TrimNoWhitespaceEnds(s: string)
    requires Trimmed(s)
    ensures Trim(s) == s
  {
  }

  /** Trimming twice is trimming once. */
  lemma TrimIdempotent(s: string)
    ensures Trim(Trim(s)) == Trim(s)
  {
    TrimNoWhitespaceEnds(Trim(s));
  }

  lemma {:induction false} TrimStartSkips(w: string, x: string)
    requires AllWhitespace(w)
    ensures TrimStart(w + x) == TrimStart(x)
    decreases |w|
  {
    if w != [] {
      assert (w + x)[0] == w[0] && (w + x)[1..] == w[1..] + x;
      assert TrimStart(w + x) == TrimStart(w[1..] + x);
      TrimStartSkips(w[1..], x);
    } else {
      assert w + x == x;
    }
  }

  lemma {:induction false} TrimStartKeeps(x: string, w: string)
    requires TrimStart(x) != []
    ensures TrimStart(x + w) == TrimStart(x) + w
    decreases |x|
  {
    assert (x + w)[0] == x[0];
    if IsJsWhitespace(x[0]) {
      assert (x + w)[1..] == x[1..] + w;
      TrimStartKeeps(x[1..], w);
    }
  }

  lemma {:induction false} TrimEndSkips(x: string, w: string)
    requires AllWhitespace(w)
    ensures TrimEnd(x + w) == TrimEnd(x)
    decreases |w|
  {
    if w != [] {
      assert (x + w)[|x + w| - 1] == w[|w| - 1];
      assert (x + w)[..|x + w| - 1] == x + w[..|w| - 1];
      assert TrimEnd(x + w) == TrimEnd(x + w[..|w| - 1]);
      TrimEndSkips(x, w[..|w| - 1]);
    } else {
      assert x + w == x;
    }
  }

  /** White space added around a text does not change its trimmed form. */
  lemma TrimStartOfWhitespace(x: string)
    requires AllWhitespace(x)
    ensures TrimStart(x) == []
  {
  }

  lemma TrimIsBothEnds(s: string)
    ensures Trim(s) == TrimEnd(TrimStart(s))
  {
  }

  lemma TrimIgnoresPadding(w1: string, s: string, w2: string)
    requires AllWhitespace(w1) && AllWhitespace(w2)
    ensures Trim(w1 + s + w2) == Trim(s)
  {
    TrimIsBothEnds(w1 + s + w2);
    TrimIsBothEnds(s);
    BothEndsIgnorePadding(w1, s, w2);
  }

  lemma BothEndsIgnorePadding(w1: string, s: string, w2: string)
    requires AllWhitespace(w1) && AllWhitespace(w2)
    ensures TrimEnd(TrimStart(w1 + s + w2)) == TrimEnd(TrimStart(s))
  {
    var x := s + w2;
    assert w1 + s + w2 == w1 + x;
    TrimStartSkips(w1, x);
    if TrimStart(s) != [] {
      TrimStartKeeps(s, w2);
      TrimEndSkips(TrimStart(s), w2);
    } else {
      assert AllWhitespace(x);
      TrimStartOfWhitespace(x);
    }
  }



  /** Lower-casing as far as it can yield an ASCII letter: the ASCII capitals
      and the Kelvin sign. Every other character is kept; its lower case is
      never made of ASCII letters alone, so no ASCII-only key can tell the
      difference. */
  function LowerChar(c: char): char
  {
    if 'A' <= c <= 'Z' then (c as int + 32) as char
    else if c == '\U{212A}' then 'k'
    else c
  }

  /** `String.prototype.toLowerCase`, character by character as `LowerChar` describes. */
  function ToLower(s: string): (r: string)
    ensures |r| == |s|
    ensures forall i :: 0 <= i < |s| ==> r[i] == LowerChar(s[i])
  {
    if s == [] then [] else [LowerChar(s[0])] + ToLower(s[1..])
  }

  lemma LowerCharKeepsWhitespace(c: char)
    ensures IsJsWhitespace(LowerChar(c)) <==> IsJsWhitespace(c)
  {
  }

  lemma ToLowerAppend(a: string, b: string)
    ensures ToLower(a + b) == ToLower(a) + ToLower(b)
  {
    assert forall i :: 0 <= i < |a + b| ==> ToLower(a + b)[i] == (ToLower(a) + ToLower(b))[i];
  }

  /** Lower-casing neither makes nor removes white space, so it commutes with trimming. */
  lemma {:induction false} ToLowerTrimStart(s: string)
    ensures ToLower(TrimStart(s)) == TrimStart(ToLower(s))
    decreases |s|
  {
    if s != [] {
      LowerCharKeepsWhitespace(s[0]);
      assert ToLower(s) == [LowerChar(s[0])] + ToLower(s[1..]);
      if IsJsWhitespace(s[0]) {
        ToLowerTrimStart(s[1..]);
      }
    }
  }

  lemma {:induction false} ToLowerTrimEnd(s: string)
    ensures ToLower(TrimEnd(s)) == TrimEnd(ToLower(s))
    decreases |s|
  {
    if s != [] {
      LowerCharKeepsWhitespace(s[|s| - 1]);
      assert ToLower(s)[|s| - 1] == LowerChar(s[|s| - 1]);
      assert ToLower(s)[..|s| - 1] == ToLower(s[..|s| - 1]);
      if IsJsWhitespace(s[|s| - 1]) {
        assert TrimEnd(s) == TrimEnd(s[..|s| - 1]);
        assert TrimEnd(ToLower(s)) == TrimEnd(ToLower(s)[..|s| - 1]);
        ToLowerTrimEnd(s[..|s| - 1]);
      } else {
        assert TrimEnd(s) == s && TrimEnd(ToLower(s)) == ToLower(s);
      }
    }
  }

  lemma ToLowerTrim(s: string)
    ensures ToLower(Trim(s)) == Trim(ToLower(s))
  {
    ToLowerTrimStart(s);
    ToLowerTrimEnd(TrimStart(s));
  }

  /** `s.replace(/c/g, "")`: every occurrence of `c` removed, every other character kept. */
  function RemoveAll(s: string, c: char): (r: string)
    ensures c !in r
    ensures multiset(r) == multiset(s)[c := 0]
    ensures c !in s ==> r == s
  {
    if s == [] then []
    else
      assert s == [s[0]] + s[1..];
      if s[0] == c then RemoveAll(s[1..], c)
      else [s[0]] + RemoveAll(s[1..], c)
  }

  /** Removal works piece by piece, so the kept characters stay in order. */
  lemma {:induction false} RemoveAllAppend(a: string, b: string, c: char)
    ensures RemoveAll(a + b, c) == RemoveAll(a, c) + RemoveAll(b, c)
    decreases |a|
  {
    if a != [] {
      assert (a + b)[0] == a[0] && (a + b)[1..] == a[1..] + b;
      RemoveAllAppend(a[1..], b, c);
      if a[0] != c {
        assert RemoveAll(a + b, c) == [a[0]] + RemoveAll(a[1..] + b, c);
      }
    } else {
      assert a + b == b;
    }
  }

  /** A period inside a trimmed text leaves it trimmed. */
  lemma TrimmedWithPeriod(a: string, b: string)
    requires Trimmed(a + b)
    ensures Trimmed(a + "." + b)
  {
    var t := a + "." + b;
    if a != [] {
      assert t[0] == (a + b)[0];
    }
    if b != [] {
      assert t[|t| - 1] == (a + b)[|a + b| - 1];
    }
  }

  /** Lower-casing, then removing periods, forgets a period inside the text. */
  lemma LowerRemoveForgetsPeriod(a: string, b: string)
    ensures RemoveAll(ToLower(a + "." + b), '.') == RemoveAll(ToLower(a + b), '.')
  {
    var la, lb := ToLower(a), ToLower(b);
    ToLowerAppend(a + ".", b);
    ToLowerAppend(a, ".");
    ToLowerAppend(a, b);
    assert ToLower(".") == ".";
    assert ToLower(a + "." + b) == la + "." + lb;
    RemoveAllAppend(la + ".", lb, '.');
    RemoveAllAppend(la, ".", '.');
    RemoveAllChar('.', '.');
    assert RemoveAll(la + ".", '.') == RemoveAll(la, '.');
    RemoveAllAppend(la, lb, '.');
  }

  /** On one character: the removed character vanishes, any other stays. */
  lemma RemoveAllChar(x: char, c: char)
    ensures RemoveAll([x], c) == if x == c then [] else [x]
  {
  }

  // ---- String lengths in UTF-16 code units ----

  /** How many UTF-16 code units a character takes in a JavaScript string: two
      (a surrogate pair) above U+FFFF, one otherwise. */
  function Width(c: char): (r: nat)
    ensures 1 <= r <= 2
  {
    if c as int > 0xFFFF then 2 else 1
  }

  /** `s.length` in JavaScript: the number of UTF-16 code units. */
  function CodeUnits(s: string): (r: nat)
    ensures |s| <= r <= 2 * |s|
  {
    if s == [] then 0 else CodeUnits(s[..|s| - 1]) + Width(s[|s| - 1])
  }

  /** A longer prefix takes at least one more code unit per extra character. */
  lemma {:induction false} CodeUnitsGrow(s: string, i: nat, j: nat)
    requires i <= j <= |s|
    ensures CodeUnits(s[..i]) + (j - i) <= CodeUnits(s[..j])
    decreases j - i
  {
    if i < j {
      CodeUnitsGrow(s, i, j - 1);
      assert s[..j][..j - 1] == s[..j - 1];
    }
  }

  /** Code units add up over concatenation. */
  lemma {:induction false} CodeUnitsAppend(a: string, b: string)
    ensures CodeUnits(a + b) == CodeUnits(a) + CodeUnits(b)
    decreases |b|
  {
    if b == [] {
      assert a + b == a;
    } else {
      var init := b[..|b| - 1];
      assert (a + b)[..|a + b| - 1] == a + init;
      assert (a + b)[|a + b| - 1] == b[|b| - 1];
      CodeUnitsAppend(a, init);
    }
  }

  /** Text whose characters all lie in the Basic Multilingual Plane has as many
      code units as characters. */
  lemma {:induction false} CodeUnitsOfBmp(s: string)
    requires forall i :: 0 <= i < |s| ==> s[i] as int <= 0xFFFF
    ensures CodeUnits(s) == |s|
  {
    if s != [] {
      CodeUnitsOfBmp(s[..|s| - 1]);
    }
  }

  function CharAtFrom(s: string, k: nat, i: nat): (r: Option<nat>)
    requires i <= |s|
    requires i == 0 || CodeUnits(s[..i - 1]) < k
    ensures r.Some? ==> i <= r.value <= |s| && k <= CodeUnits(s[..r.value])
    ensures r.Some? && r.value > 0 ==> CodeUnits(s[..r.value - 1]) < k
    ensures r.None? ==> CodeUnits(s) < k
    decreases |s| - i
  {
    if k <= CodeUnits(s[..i]) then Some(i)
    else if i == |s| then (assert s[..i] == s; None)
    else CharAtFrom(s, k, i + 1)
  }

  /** The character at which a position counted in code units falls: the first
      character boundary at or after code unit `k`, and `None` past the end. A
      search for a pattern that starts with an ASCII character resumes there,
      since no match can begin on the second half of a surrogate pair. */
  function CharAt(s: string, k: nat): (r: Option<nat>)
    ensures r.None? <==> CodeUnits(s) < k
    ensures r.Some? ==> r.value <= |s| && k <= CodeUnits(s[..r.value])
    ensures r.Some? && r.value > 0 ==> CodeUnits(s[..r.value - 1]) < k
  {
    var r := CharAtFrom(s, k, 0);
    if r.Some? then
      CodeUnitsGrow(s, r.value, |s|);
      assert s[..|s|] == s;
      r
    else r
  }

  /** Converting a character position to code units and back gives it again. */
  lemma CharAtOfCodeUnits(s: string, i: nat)
    requires i <= |s|
    ensures CharAt(s, CodeUnits(s[..i])) == Some(i)
  {
    var k := CodeUnits(s[..i]);
    CodeUnitsGrow(s, i, |s|);
    assert s[..|s|] == s;
    var j := CharAt(s, k).value;
    if j < i {
      CodeUnitsGrow(s, j, i);
    } else if j > i {
      CodeUnitsGrow(s, i, j - 1);
    }
  }

  /** `Array.prototype.join(sep)` over strings. */
  function Join(parts: seq<string>, sep: string): string
  {
    if parts == [] then ""
    else if |parts| == 1 then parts[0]
    else Join(parts[..|parts| - 1], sep) + sep + parts[|parts| - 1]
  }

  /** How a template literal renders a possibly missing string (`${x}`). */
  function Show(o: Option<string>): string
  {
    match o
    case Some(s) => s
    case None => "undefined"
  }

  /** JavaScript truthiness of a possibly missing string: present and non-empty. */
  predicate Truthy(o: Option<string>)
  {
    o.Some? && o.value != ""
  }

  /** `a || b` where `a` is a possibly missing string and `b` is a string. */
  function OrElse(a: Option<string>, b: string): (r: string)
    ensures Truthy(a) ==> r == a.value
    ensures !Truthy(a) ==> r == b
  {
    if Truthy(a) then a.value else b
  }

  /** Decimal digits of a natural number, used for generated ids. */
  function NatToString(n: nat): (r: string)
    ensures r != []
    ensures forall i :: 0 <= i < |r| ==> '0' <= r[i] <= '9'
  {
    if n < 10 then [('0' as int + n) as char]
    else NatToString(n / 10) + [('0' as int + n % 10) as char]
  }

  predicate IsDigit(c: char)
  {
    '0' <= c <= '9'
  }

  function DigitValue(c: char): nat
  {
    if IsDigit(c) then (c as int - '0' as int) else 0
  }

  /** The number a run of decimal digits denotes. */
  function DigitsValue(s: string): nat
  {
    if s == [] then 0 else DigitsValue(s[..|s| - 1]) * 10 + DigitValue(s[|s| - 1])
  }

  /** The digits a natural number is written with denote that number. */
  lemma {:induction false} DigitsOfNatToString(n: nat)
    ensures DigitsValue(NatToString(n)) == n
  {
    var s := NatToString(n);
    if n >= 10 {
      DigitsOfNatToString(n / 10);
      assert s[..|s| - 1] == NatToString(n / 10);
    }
  }

  /** `s` occurs in `t` starting at position `i`. */
  predicate OccursAt(t: string, s: string, i: int)
  {
    0 <= i <= |t| - |s| && t[i..i + |s|] == s
  }

  /** `t.includes(s)`. */
  predicate Contains(t: string, s: string)
  {
    exists i | 0 <= i <= |t| :: OccursAt(t, s, i)
  }

  lemma ContainsMiddle(a: string, s: string, b: string)
    ensures Contains(a + s + b, s)
  {
    var t := a + s + b;
    assert t[|a|..|a| + |s|] == s;
    assert OccursAt(t, s, |a|);
  }

  /** `m.startsWith(p)`. */
  predicate StartsWith(m: string, p: string)
  {
    |p| <= |m| && m[..|p|] == p
  }

  lemma StartsWithConcat(p: string, rest: string)
    ensures StartsWith(p + rest, p)
  {
    assert (p + rest)[..|p|] == p;
  }

  /** A text that differs from a prefix at some position does not start with it. */
  lemma StartsWithDiffers(m: string, p: string, k: nat)
    requires k < |p| && k < |m| && m[k] != p[k]
    ensures !StartsWith(m, p)
  {
    if |p| <= |m| {
      assert m[..|p|][k] == m[k];
    }
  }

  lemma StartsWithContains(m: string, p: string)
    requires StartsWith(m, p)
    ensures Contains(m, p)
  {
    assert OccursAt(m, p, 0);
  }
}

=== FILE: traverse.dfy ===
/**
 * Interactive traversal of a recipe graph: where a cooking session starts,
 * which node follows the current one, and whether a session started at a node
 * can ever reach a node that asks something of the cook (an ingredient to
 * prepare or a step to perform).
 */
module Traverse {
  import opened Wrappers
  import opened Text
  import opened Recipe

  // ---- The start node ----

  /** `i` is the position of the first start node. */
  predicate FirstStart(nodes: seq<Node>, i: int)
  {
    0 <= i < |nodes| && nodes[i].kind == Start && forall j :: 0 <= j < i ==> nodes[j].kind != Start
  }

  /** `findStartNode`: the first node of kind Start, or none. */
  function FindStartNode(nodes: seq<Node>): (r: Option<Node>)
    ensures r.None? <==> forall n :: n in nodes ==> n.kind != Start
    ensures r.Some? ==> exists i :: FirstStart(nodes, i) && nodes[i] == r.value
  {
    if nodes == [] then None
    else if nodes[0].kind == Start then
      assert FirstStart(nodes, 0);
      Some(nodes[0])
    else
      var r := FindStartNode(nodes[1..]);
      assert forall n :: n in nodes ==> n == nodes[0] || n in nodes[1..];
      if r.Some? then
        var i :| FirstStart(nodes[1..], i) && nodes[1..][i] == r.value;
        assert FirstStart(nodes, i + 1);
        r
      else r
  }

  // ---- The next node ----

  /** `i` is the position of the first edge leaving `id`. */
  predicate FirstFrom(edges: seq<Edge>, id: string, i: int)
  {
    0 <= i < |edges| && edges[i].source == id && forall j :: 0 <= j < i ==> edges[j].source != id
  }

  /** `getNextNodeId`: the target of the first edge, in edge order, that leaves the
      current node; none for a missing current id, a node without outgoing edges,
      or an empty target. */
  function GetNextNodeId(currentId: Option<string>, edges: seq<Edge>): (r: Option<string>)
    ensures !Truthy(currentId) ==> r == None
    ensures Truthy(currentId) && (forall e :: e in edges ==> e.source != currentId.value) ==> r == None
    ensures r.Some? ==> r.value != ""
  {
    if !Truthy(currentId) then None
    else
      var outgoing := Outgoing(edges, currentId.value);
      if |outgoing| == 0 then None
      else if outgoing[0].target != "" then Some(outgoing[0].target)
      else None
  }

  /** The first edge `filter` keeps is the first edge leaving `id`. */
  lemma {:induction false} OutgoingHead(edges: seq<Edge>, id: string, i: int)
    requires FirstFrom(edges, id, i)
    ensures |Outgoing(edges, id)| > 0 && Outgoing(edges, id)[0] == edges[i]
  {
    if i > 0 {
      assert FirstFrom(edges[1..], id, i - 1);
      OutgoingHead(edges[1..], id, i - 1);
    }
  }

  /** From a node with outgoing edges, the next node is the target of the first
      of them in edge order. */
  lemma NextIsFirstTarget(currentId: Option<string>, edges: seq<Edge>, i: int)
    requires Truthy(currentId) && FirstFrom(edges, currentId.value, i)
    ensures GetNextNodeId(currentId, edges) == if edges[i].target != "" then Some(edges[i].target) else None
  {
    OutgoingHead(edges, currentId.value, i);
  }

  // ---- Reachability of an interactive node ----

  /** Ingredients and steps are the nodes a session stops at. */
  predicate IsInteractive(k: NodeKind)
  {
    k == Ingredient || k == Step
  }

  /** The node `id` names (the first with that id) is an ingredient or a step. */
  predicate Stops(nodes: seq<Node>, id: string)
  {
    var n := FindNode(nodes, id);
    n.Some? && IsInteractive(n.value.kind)
  }

  /** The search moves from `a` to `b`: `a` names a node of the graph and an edge
      leaves `a` for `b`. */
  ghost predicate Link(nodes: seq<Node>, edges: seq<Edge>, a: string, b: string)
  {
    FindNode(nodes, a).Some? && exists e :: e in edges && e.source == a && e.target == b
  }

  /** `p` is a walk the search can take. */
  ghost predicate Walk(nodes: seq<Node>, edges: seq<Edge>, p: seq<string>)
  {
    |p| > 0 && forall k :: 0 <= k < |p| - 1 ==> Link(nodes, edges, p[k], p[k + 1])
  }

  /** Some walk leads from `a` to `b`. */
  ghost predicate Reached(nodes: seq<Node>, edges: seq<Edge>, a: string, b: string)
  {
    exists p :: Walk(nodes, edges, p) && p[0] == a && p[|p| - 1] == b
  }

  /** Some walk from `start` ends at an ingredient or a step. */
  ghost predicate ReachesInteractive(nodes: seq<Node>, edges: seq<Edge>, start: string)
  {
    exists p :: Walk(nodes, edges, p) && p[0] == start && Stops(nodes, p[|p| - 1])
  }

  /** The targets of `edges`, in order. */
  function Targets(edges: seq<Edge>): (r: seq<string>)
    ensures |r| == |edges|
    ensures forall e :: e in edges ==> e.target in r
    ensures forall t :: t in r ==> exists e :: e in edges && e.target == t
  {
    if edges == [] then [] else [edges[0].target] + Targets(edges[1..])
  }

  lemma ReachedSelf(nodes: seq<Node>, edges: seq<Edge>, a: string)
    ensures Reached(nodes, edges, a, a)
  {
    assert Walk(nodes, edges, [a]);
  }

  lemma ReachedExtends(nodes: seq<Node>, edges: seq<Edge>, a: string, b: string, c: string)
    requires Reached(nodes, edges, a, b) && Link(nodes, edges, b, c)
    ensures Reached(nodes, edges, a, c)
  {
    var p :| Walk(nodes, edges, p) && p[0] == a && p[|p| - 1] == b;
    var q := p + [c];
    assert forall k :: 0 <= k < |p| ==> q[k] == p[k];
    assert Walk(nodes, edges, q);
  }

  /** A walk that starts inside a set closed under the search's moves stays inside. */
  lemma {:induction false} WalkStaysInside(nodes: seq<Node>, edges: seq<Edge>, closed: set<string>, p: seq<string>, k: nat)
    requires Walk(nodes, edges, p) && p[0] in closed && k < |p|
    requires forall v, w :: v in closed && Link(nodes, edges, v, w) ==> w in closed
    ensures p[k] in closed
  {
    if k > 0 {
      WalkStaysInside(nodes, edges, closed, p, k - 1);
      assert Link(nodes, edges, p[k - 1], p[k]);
    }
  }

  /** `hasReachableInteractivePath`: a breadth-first search from the start id that
      expands each id at most once and answers whether an ingredient or a step is
      reachable. */
  method HasReachableInteractivePath(startNodeId: Option<string>, nodes: seq<Node>, edges: seq<Edge>)
    returns (found: bool)
    ensures found <==> Truthy(startNodeId) && ReachesInteractive(nodes, edges, startNodeId.value)
  {
    if !Truthy(startNodeId) {
      return false;
    }
    var start := startNodeId.value;
    ghost var universe := {start} + set e | e in edges :: e.target;
    var visited: set<string> := {};
    var queue := [start];
    ReachedSelf(nodes, edges, start);
    while |queue| > 0
      invariant visited <= universe
      invariant forall q :: q in queue ==> q in universe
      invariant forall q :: q in queue ==> Reached(nodes, edges, start, q)
      invariant start in visited || start in queue
      invariant forall v :: v in visited ==> !Stops(nodes, v)
      invariant forall v, w :: v in visited && Link(nodes, edges, v, w) ==> w in visited || w in queue
      decreases universe - visited, |queue|
    {
      var current := queue[0];
      assert Reached(nodes, edges, start, current);
      queue := queue[1..];
      if current in visited {
        continue;
      }
      visited := visited + {current};
      var node := FindNode(nodes, current);
      if node.None? {
        continue;
      }
      if IsInteractive(node.value.kind) {
        ghost var p :| Walk(nodes, edges, p) && p[0] == start && p[|p| - 1] == current;
        assert Stops(nodes, p[|p| - 1]);
        return true;
      }
      var outgoing := Outgoing(edges, current);
      var pushed := Targets(outgoing);
      forall t | t in pushed
        ensures t in universe && Reached(nodes, edges, start, t)
      {
        var e :| e in outgoing && e.target == t;
        assert Link(nodes, edges, current, t);
        ReachedExtends(nodes, edges, start, current, t);
      }
      queue := queue + pushed;
    }
    forall p | Walk(nodes, edges, p) && p[0] == start
      ensures !Stops(nodes, p[|p| - 1])
    {
      WalkStaysInside(nodes, edges, visited, p, |p| - 1);
    }
    found := false;
  }
}

=== FILE: units.dfy ===
/**
 * The unit table of utils/unitConversion.js: ten units of mass and volume,
 * each with its factor to the base unit (gram, millilitre) and its spellings;
 * the alias index built from it; unit normalisation; conversion between units
 * of one type; and the amount label.
 *
 * The table is kept as two views of the same rows: `Definition` gives the
 * type and factor stored under a key, `Spellings` the aliases of each key in
 * declaration order. `KeysAgree` proves that both list the same ten keys.
 */
module Units {
  import opened Wrappers
  import opened Text

  datatype UnitType = Mass | Volume

  /** A conversion factor; every factor in the table is positive. */
  type Factor = r: real | r > 0.0 witness 1.0

  /** The type and factor of one row of the table. */
  datatype UnitDef = UnitDef(kind: UnitType, toBase: Factor)

  /** `UNIT_DEFINITIONS[key]`, read as an own property of the table. */
  function Definition(key: string): Option<UnitDef>
  {
    if key == "g" then Some(UnitDef(Mass, 1.0))
    else if key == "kg" then Some(UnitDef(Mass, 1000.0))
    else if key == "mg" then Some(UnitDef(Mass, 0.001))
    else if key == "lb" then Some(UnitDef(Mass, 453.59237))
    else if key == "oz" then Some(UnitDef(Mass, 28.349523125))
    else if key == "ml" then Some(UnitDef(Volume, 1.0))
    else if key == "l" then Some(UnitDef(Volume, 1000.0))
    else if key == "tsp" then Some(UnitDef(Volume, 4.92892))
    else if key == "tbsp" then Some(UnitDef(Volume, 14.7868))
    else if key == "cup" then Some(UnitDef(Volume, 240.0))
    else None
  }

  /** A key of the table with its `aliases`. */
  type Row = (string, seq<string>)

  /** The `aliases` of every key, in declaration order. */
  const Spellings: seq<Row> := [
    ("g", ["g", "gram", "grams", "gramme", "grammes"]),
    ("kg", ["kg", "kilogram", "kilograms"]),
    ("mg", ["mg", "milligram", "milligrams"]),
    ("lb", ["lb", "lbs", "pound", "pounds"]),
    ("oz", ["oz", "ounce", "ounces"]),
    ("ml", ["ml", "milliliter", "milliliters", "millilitre", "millilitres"]),
    ("l", ["l", "liter", "liters", "litre", "litres"]),
    ("tsp", ["tsp", "teaspoon", "teaspoons"]),
    ("tbsp", ["tbsp", "tablespoon", "tablespoons"]),
    ("cup", ["cup", "cups"])
  ]

  // ---- The alias index (`UNIT_ALIAS_LOOKUP`) ----

  /** Record each alias, lower-cased, as a spelling of `unit`; later writes win. */
  function AddAliases(acc: map<string, string>, unit: string, aliases: seq<string>): map<string, string>
  {
    if aliases == [] then acc
    else AddAliases(acc, unit, aliases[..|aliases| - 1])[ToLower(aliases[|aliases| - 1]) := unit]
  }

  /** The index the `reduce` builds, row by row. */
  function AliasIndexOf(rows: seq<Row>): map<string, string>
  {
    if rows == [] then map[]
    else
      var last := rows[|rows| - 1];
      AddAliases(AliasIndexOf(rows[..|rows| - 1]), last.0, last.1)
  }

  /** `word` is the lower-cased form of one of `aliases`. */
  predicate Spells(aliases: seq<string>, word: string)
  {
    exists a :: a in aliases && ToLower(a) == word
  }

  /** The unit the index assigns to `word`: the last row that spells it. */
  function OwnerIn(rows: seq<Row>, word: string): Option<string>
  {
    if rows == [] then None
    else if Spells(rows[|rows| - 1].1, word) then Some(rows[|rows| - 1].0)
    else OwnerIn(rows[..|rows| - 1], word)
  }

  /** `UNIT_ALIAS_LOOKUP[word]`, read as an own property of the index. */
  function AliasLookup(word: string): Option<string>
  {
    OwnerIn(Spellings, word)
  }

  lemma {:induction false} AddAliasesAgrees(acc: map<string, string>, unit: string, aliases: seq<string>, word: string)
    ensures word in AddAliases(acc, unit, aliases) <==> word in acc || Spells(aliases, word)
    ensures word in AddAliases(acc, unit, aliases) ==>
      AddAliases(acc, unit, aliases)[word] == if Spells(aliases, word) then unit else acc[word]
  {
    if aliases != [] {
      var init := aliases[..|aliases| - 1];
      var last := aliases[|aliases| - 1];
      AddAliasesAgrees(acc, unit, init, word);
      assert aliases == init + [last];
      if Spells(aliases, word) && ToLower(last) != word {
        var a :| a in aliases && ToLower(a) == word;
        assert a in init;
      }
    }
  }

  /** The index holds a word exactly when some row spells it, and maps it to the last such row. */
  lemma {:induction false} IndexAgrees(rows: seq<Row>, word: string)
    ensures word in AliasIndexOf(rows) <==> OwnerIn(rows, word).Some?
    ensures word in AliasIndexOf(rows) ==> OwnerIn(rows, word) == Some(AliasIndexOf(rows)[word])
  {
    if rows != [] {
      var last := rows[|rows| - 1];
      IndexAgrees(rows[..|rows| - 1], word);
      AddAliasesAgrees(AliasIndexOf(rows[..|rows| - 1]), last.0, last.1, word);
    }
  }

  /** The `reduce` over the table's entries that fills the alias index: it holds
      exactly the lower-cased spellings, each mapped to its unit. */
  method BuildAliasLookup() returns (acc: map<string, string>)
    ensures forall w :: w in acc <==> AliasLookup(w).Some?
    ensures forall w :: w in acc ==> AliasLookup(w) == Some(acc[w])
  {
    acc := IndexRows(Spellings);
    forall w
      ensures w in acc <==> AliasLookup(w).Some?
      ensures w in acc ==> AliasLookup(w) == Some(acc[w])
    {
      IndexAgrees(Spellings, w);
    }
  }

  /** The outer loop of the `reduce`: one row after the other. */
  method IndexRows(rows: seq<Row>) returns (acc: map<string, string>)
    ensures acc == AliasIndexOf(rows)
  {
    acc := map[];
    var i := 0;
    while i < |rows|
      invariant 0 <= i <= |rows|
      invariant acc == AliasIndexOf(rows[..i])
    {
      acc := IndexAliases(acc, rows[i].0, rows[i].1);
      assert rows[..i + 1][..i] == rows[..i];
      i := i + 1;
    }
    assert rows[..|rows|] == rows;
  }

  /** The inner loop of the `reduce`: every alias of one row, in order. */
  method IndexAliases(acc0: map<string, string>, unit: string, aliases: seq<string>) returns (acc: map<string, string>)
    ensures acc == AddAliases(acc0, unit, aliases)
  {
    acc := acc0;
    var j := 0;
    while j < |aliases|
      invariant 0 <= j <= |aliases|
      invariant acc == AddAliases(acc0, unit, aliases[..j])
    {
      acc := acc[ToLower(aliases[j]) := unit];
      assert aliases[..j + 1][..j] == aliases[..j];
      j := j + 1;
    }
    assert aliases[..|aliases|] == aliases;
  }

  /** The index only ever names a row of the table. */
  lemma {:induction false} OwnerIsKey(rows: seq<Row>, word: string)
    ensures OwnerIn(rows, word).Some? ==> exists i :: 0 <= i < |rows| && rows[i].0 == OwnerIn(rows, word).value
  {
    if rows != [] && !Spells(rows[|rows| - 1].1, word) {
      OwnerIsKey(rows[..|rows| - 1], word);
      if OwnerIn(rows, word).Some? {
        var i :| 0 <= i < |rows| - 1 && rows[..|rows| - 1][i].0 == OwnerIn(rows, word).value;
        assert rows[i] == rows[..|rows| - 1][i];
      }
    }
  }

  // ---- Facts about the table ----

  /** A word of lower-case ASCII letters. */
  predicate LowerWord(s: string)
  {
    s != [] && forall c :: c in s ==> 'a' <= c <= 'z'
  }

  /** Each key is among its own spellings, every spelling is a lower-case word
      and no spelling belongs to two rows. */
  predicate WellFormed(rows: seq<Row>)
  {
    && (forall i :: 0 <= i < |rows| ==> rows[i].0 in rows[i].1)
    && (forall i, a :: 0 <= i < |rows| && a in rows[i].1 ==> LowerWord(a))
    && (forall i, j, a :: 0 <= i < j < |rows| && a in rows[i].1 ==> a !in rows[j].1)
  }

  /** Every spelling in the table is a lower-case word. */
  lemma SpellingsLower()
    ensures forall i, a :: 0 <= i < |Spellings| && a in Spellings[i].1 ==> LowerWord(a)
  {
  }

  /** No spelling appears in two rows. */
  lemma SpellingsDisjoint()
    ensures forall i, j, a :: 0 <= i < j < |Spellings| && a in Spellings[i].1 ==> a !in Spellings[j].1
  {
    forall i | 0 <= i < |Spellings|
      ensures forall j, a :: i < j < |Spellings| && a in Spellings[i].1 ==> a !in Spellings[j].1
    {
      RowApart(i);
    }
  }

  /** The spellings of row `i` appear in no later row. */
  lemma RowApart(i: nat)
    requires i < |Spellings|
    ensures forall j, a :: i < j < |Spellings| && a in Spellings[i].1 ==> a !in Spellings[j].1
  {
    forall j | i < j < |Spellings|
      ensures forall a :: a in Spellings[i].1 ==> a !in Spellings[j].1
    {
      RowsApart(i, j);
    }
  }

  /** Two rows share no spelling; the proof goes row by row. */
  lemma RowsApart(i: nat, j: nat)
    requires i < j < |Spellings|
    ensures forall a :: a in Spellings[i].1 ==> a !in Spellings[j].1
  {
    if i == 0 {
    } else if i == 1 {
    } else if i == 2 {
    } else if i == 3 {
    } else if i == 4 {
    } else if i == 5 {
    } else if i == 6 {
    } else if i == 7 {
    }
  }

  /** The spellings are well formed and every key of `Spellings` has a definition. */
  lemma TableWellFormed()
    ensures WellFormed(Spellings)
    ensures forall i :: 0 <= i < |Spellings| ==> Definition(Spellings[i].0).Some?
  {
    SpellingsLower();
    SpellingsDisjoint();
  }

  /** Both views of the table name the same keys. */
  lemma KeysAgree(key: string)
    ensures Definition(key).Some? <==> exists i :: 0 <= i < |Spellings| && Spellings[i].0 == key
  {
    TableWellFormed();
    if Definition(key).Some? {
      var i := if key == "g" then 0 else if key == "kg" then 1 else if key == "mg" then 2
        else if key == "lb" then 3 else if key == "oz" then 4 else if key == "ml" then 5
        else if key == "l" then 6 else if key == "tsp" then 7 else if key == "tbsp" then 8 else 9;
      assert Spellings[i].0 == key;
    }
  }

  // ---- normalizeUnit and getUnitInfo ----

  /** `trim().toLowerCase().replace(/\./g, "")`. */
  function Clean(s: string): string
  {
    RemoveAll(ToLower(Trim(s)), '.')
  }

  /** `normalizeUnit(raw)`; `None` stands for a missing or non-string argument. */
  function NormalizeUnit(raw: Option<string>): Option<string>
  {
    if raw.None? || raw.value == "" then None
    else AliasLookup(Clean(raw.value))
  }

  /** `getUnitInfo(unit)`: the row of the normalised unit, or of the raw text. */
  function GetUnitInfo(unit: Option<string>): Option<UnitDef>
  {
    var n := NormalizeUnit(unit);
    if n.Some? then Definition(n.value)
    else if unit.Some? then Definition(unit.value)
    else None
  }

  lemma LowerWordIsLower(w: string)
    requires LowerWord(w)
    ensures ToLower(w) == w
  {
    assert forall i :: 0 <= i < |w| ==> w[i] in w;
  }

  lemma LowerWordIsClean(w: string)
    requires LowerWord(w)
    ensures Clean(w) == w
  {
    assert w[0] in w && w[|w| - 1] in w;
    TrimNoWhitespaceEnds(w);
    LowerWordIsLower(w);
  }

  lemma OtherRowDoesNotSpell(rows: seq<Row>, i: nat, j: nat, a: string)
    requires WellFormed(rows) && i < |rows| && j < |rows| && i != j && a in rows[i].1
    ensures !Spells(rows[j].1, a)
  {
    forall b | b in rows[j].1
      ensures ToLower(b) != a
    {
      LowerWordIsLower(b);
    }
  }

  lemma WellFormedInit(rows: seq<Row>)
    requires WellFormed(rows) && rows != []
    ensures WellFormed(rows[..|rows| - 1])
  {
    assert forall k :: 0 <= k < |rows| - 1 ==> rows[..|rows| - 1][k] == rows[k];
  }

  /** In a well-formed table the row spelling an alias is its own row. */
  lemma {:induction false} ListedAliasOwner(rows: seq<Row>, i: nat, a: string)
    requires WellFormed(rows)
    requires i < |rows| && a in rows[i].1
    ensures OwnerIn(rows, a) == Some(rows[i].0)
    decreases |rows|
  {
    var last := |rows| - 1;
    if i == last {
      assert Spells(rows[last].1, a) by {
        LowerWordIsLower(a);
      }
    } else {
      assert !Spells(rows[last].1, a) by {
        OtherRowDoesNotSpell(rows, i, last, a);
      }
      WellFormedInit(rows);
      assert rows[..last][i] == rows[i];
      ListedAliasOwner(rows[..last], i, a);
    }
  }

  /** Every spelling of every unit normalises to that unit's key. */
  lemma AliasNormalizes(i: nat, a: string)
    requires i < |Spellings| && a in Spellings[i].1
    ensures NormalizeUnit(Some(a)) == Some(Spellings[i].0)
  {
    TableWellFormed();
    LowerWordIsClean(a);
    ListedAliasOwner(Spellings, i, a);
  }

  /** Normalisation yields a key of the table, and normalising a key gives it back. */
  lemma NormalizeUnitIsKey(raw: Option<string>)
    ensures NormalizeUnit(raw).Some? ==> Definition(NormalizeUnit(raw).value).Some?
    ensures NormalizeUnit(raw).Some? ==> NormalizeUnit(NormalizeUnit(raw)) == NormalizeUnit(raw)
  {
    if NormalizeUnit(raw).Some? {
      var k := NormalizeUnit(raw).value;
      OwnerIsKey(Spellings, Clean(raw.value));
      var i :| 0 <= i < |Spellings| && Spellings[i].0 == k;
      TableWellFormed();
      AliasNormalizes(i, k);
    }
  }

  /** Normalisation fails on missing and empty text. */
  lemma NormalizeUnitEmpty()
    ensures NormalizeUnit(None) == None && NormalizeUnit(Some("")) == None
  {
  }

  /** Only non-empty lower-case words are spellings. */
  lemma OnlyWordsAreSpelled(w: string)
    ensures AliasLookup(w).Some? ==> LowerWord(w)
  {
    TableWellFormed();
    OwnerIsSpelling(Spellings, w);
  }

  /** The empty-text test of `normalizeUnit` agrees with looking up the cleaned
      empty text, so normalisation is a lookup of the cleaned text. */
  lemma NormalizeIsLookup(s: string)
    ensures NormalizeUnit(Some(s)) == AliasLookup(Clean(s))
  {
    if s == "" {
      TrimNoWhitespaceEnds(s);
      OnlyWordsAreSpelled(s);
    }
  }

  lemma CleanIgnoresPadding(w1: string, s: string, w2: string)
    requires AllWhitespace(w1) && AllWhitespace(w2)
    ensures Clean(w1 + s + w2) == Clean(s)
  {
    TrimIgnoresPadding(w1, s, w2);
  }

  /** `normalizeUnit` ignores white space around the unit. */
  lemma NormalizeIgnoresPadding(w1: string, s: string, w2: string)
    requires AllWhitespace(w1) && AllWhitespace(w2)
    ensures NormalizeUnit(Some(w1 + s + w2)) == NormalizeUnit(Some(s))
  {
    CleanIgnoresPadding(w1, s, w2);
    NormalizeIsLookup(w1 + s + w2);
    NormalizeIsLookup(s);
  }

  lemma CleanIgnoresPeriod(a: string, b: string)
    requires Trimmed(a + b)
    ensures Clean(a + "." + b) == Clean(a + b)
  {
    TrimmedWithPeriod(a, b);
    TrimNoWhitespaceEnds(a + b);
    TrimNoWhitespaceEnds(a + "." + b);
    LowerRemoveForgetsPeriod(a, b);
  }

  /** `normalizeUnit` ignores a period anywhere inside a unit that has no
      white space around it. */
  lemma NormalizeIgnoresPeriod(a: string, b: string)
    requires Trimmed(a + b)
    ensures NormalizeUnit(Some(a + "." + b)) == NormalizeUnit(Some(a + b))
  {
    CleanIgnoresPeriod(a, b);
    NormalizeIsLookup(a + "." + b);
    NormalizeIsLookup(a + b);
  }

  lemma CleanPeriodSpace(w: string)
    requires w != [] && Trimmed(w)
    ensures Clean(". " + w) == " " + RemoveAll(ToLower(w), '.')
  {
    var t := ". " + w;
    assert t[0] == '.' && t[|t| - 1] == w[|w| - 1];
    TrimNoWhitespaceEnds(t);
    ToLowerAppend(". ", w);
    assert ToLower(". ") == ". ";
    RemoveAllAppend(". ", ToLower(w), '.');
    assert RemoveAll(". ", '.') == " ";
  }

  /** Periods are removed only after trimming, so a period followed by a space
      leaves the space in front of the unit and nothing is recognised: ". g"
      gives null where " g" and "g" give "g". */
  lemma PeriodBeforeSpace(w: string)
    requires w != [] && Trimmed(w)
    ensures NormalizeUnit(Some(". " + w)) == None
  {
    var c := Clean(". " + w);
    assert !LowerWord(c) by {
      CleanPeriodSpace(w);
      assert c[0] == ' ' && c[0] in c;
    }
    OnlyWordsAreSpelled(c);
    NormalizeIsLookup(". " + w);
  }

  lemma CleanIgnoresCase(s: string, t: string)
    requires ToLower(s) == ToLower(t)
    ensures Clean(s) == Clean(t)
  {
    ToLowerTrim(s);
    ToLowerTrim(t);
  }

  /** `normalizeUnit` ignores case: texts that lower-case alike normalise alike. */
  lemma NormalizeIgnoresCase(s: string, t: string)
    requires ToLower(s) == ToLower(t)
    ensures NormalizeUnit(Some(s)) == NormalizeUnit(Some(t))
  {
    CleanIgnoresCase(s, t);
    NormalizeIsLookup(s);
    NormalizeIsLookup(t);
  }

  /** `getUnitInfo` finds a row exactly when the text normalises, and then it is that unit's row. */
  lemma GetUnitInfoIsNormalized(unit: Option<string>)
    ensures GetUnitInfo(unit).Some? <==> NormalizeUnit(unit).Some?
    ensures NormalizeUnit(unit).Some? ==> GetUnitInfo(unit) == Definition(NormalizeUnit(unit).value)
  {
    NormalizeUnitIsKey(unit);
    if NormalizeUnit(unit).None? && unit.Some? && Definition(unit.value).Some? {
      var k := unit.value;
      KeysAgree(k);
      var i :| 0 <= i < |Spellings| && Spellings[i].0 == k;
      TableWellFormed();
      AliasNormalizes(i, k);
    }
  }

  // ---- Conversion ----

  /** `convertToBase(quantity, unit)`: the amount in the unit type's base unit. */
  function ConvertToBase(quantity: real, unit: string): Option<real>
  {
    var info := Definition(unit);
    if info.None? then None else Some(quantity * info.value.toBase)
  }

  /** `getUnitType(unit)`. */
  function GetUnitType(unit: string): Option<UnitType>
  {
    var info := Definition(unit);
    if info.Some? then Some(info.value.kind) else None
  }

  /** `compareUnitTypes(a, b)`. */
  function CompareUnitTypes(a: string, b: string): bool
  {
    var ta := GetUnitType(a);
    var tb := GetUnitType(b);
    if ta.None? || tb.None? then false else ta.value == tb.value
  }

  /** `convertBetween(quantity, from, to)`. */
  function ConvertBetween(quantity: real, from: string, to: string): Option<real>
  {
    var fromInfo := Definition(from);
    var toInfo := Definition(to);
    if fromInfo.None? || toInfo.None? || fromInfo.value.kind != toInfo.value.kind then None
    else
      var base := ConvertToBase(quantity, from);
      if base.None? then None
      else Some(base.value / toInfo.value.toBase)
  }

  /** `convertToBase` fails exactly on a unit outside the table, and it scales by a positive factor. */
  lemma ConvertToBaseDefined(quantity: real, unit: string)
    ensures ConvertToBase(quantity, unit).None? <==> Definition(unit).None?
    ensures ConvertToBase(quantity, unit).Some? && quantity > 0.0 ==> ConvertToBase(quantity, unit).value > 0.0
  {
  }

  /** `compareUnitTypes` holds exactly when both units are in the table with the same type,
      and it is symmetric. */
  lemma CompareUnitTypesIff(a: string, b: string)
    ensures CompareUnitTypes(a, b) <==>
      Definition(a).Some? && Definition(b).Some? && Definition(a).value.kind == Definition(b).value.kind
    ensures CompareUnitTypes(a, b) == CompareUnitTypes(b, a)
  {
  }

  lemma ScaleCancels(x: real, f: real)
    requires f > 0.0
    ensures (x * f) / f == x
    ensures (x / f) * f == x
  {
  }

  /** The amount in `to` of `quantity` in `from`. */
  function Rescale(quantity: real, from: UnitDef, to: UnitDef): real
  {
    (quantity * from.toBase) / to.toBase
  }

  lemma RescaleRoundTrip(quantity: real, from: UnitDef, to: UnitDef)
    ensures Rescale(Rescale(quantity, from, to), to, from) == quantity
  {
    ScaleCancels(quantity * from.toBase, to.toBase);
    ScaleCancels(quantity, from.toBase);
  }

  lemma RescaleCompose(quantity: real, a: UnitDef, b: UnitDef, c: UnitDef)
    ensures Rescale(Rescale(quantity, a, b), b, c) == Rescale(quantity, a, c)
  {
    ScaleCancels(quantity * a.toBase, b.toBase);
  }

  lemma RescaleSelf(quantity: real, u: UnitDef)
    ensures Rescale(quantity, u, u) == quantity
  {
    ScaleCancels(quantity, u.toBase);
  }

  lemma RescaleKeepsBase(quantity: real, from: UnitDef, to: UnitDef)
    ensures Rescale(quantity, from, to) * to.toBase == quantity * from.toBase
  {
    ScaleCancels(quantity * from.toBase, to.toBase);
  }

  /** A successful conversion multiplies by the source factor and divides by the target factor. */
  lemma ConvertBetweenScales(quantity: real, from: string, to: string)
    requires CompareUnitTypes(from, to)
    ensures ConvertBetween(quantity, from, to) == Some(Rescale(quantity, Definition(from).value, Definition(to).value))
  {
  }

  /** A conversion succeeds exactly when the two units are comparable, and then
      it preserves the amount of substance: both sides have the same base quantity. */
  lemma ConvertBetweenMeaning(quantity: real, from: string, to: string)
    ensures ConvertBetween(quantity, from, to).Some? <==> CompareUnitTypes(from, to)
    ensures ConvertBetween(quantity, from, to).Some? ==>
      ConvertToBase(ConvertBetween(quantity, from, to).value, to) == ConvertToBase(quantity, from)
  {
    if CompareUnitTypes(from, to) {
      ConvertBetweenScales(quantity, from, to);
      RescaleKeepsBase(quantity, Definition(from).value, Definition(to).value);
    }
  }

  /** Converting a unit to itself changes nothing. */
  lemma ConvertToSelf(quantity: real, unit: string)
    requires Definition(unit).Some?
    ensures ConvertBetween(quantity, unit, unit) == Some(quantity)
  {
    ConvertBetweenScales(quantity, unit, unit);
    RescaleSelf(quantity, Definition(unit).value);
  }

  /** Converting there and back gives the amount back. */
  lemma ConvertRoundTrip(quantity: real, from: string, to: string)
    requires CompareUnitTypes(from, to)
    ensures ConvertBetween(quantity, from, to).Some?
    ensures ConvertBetween(ConvertBetween(quantity, from, to).value, to, from) == Some(quantity)
  {
    var f := Definition(from).value;
    var t := Definition(to).value;
    ConvertBetweenScales(quantity, from, to);
    ConvertBetweenScales(Rescale(quantity, f, t), to, from);
    RescaleRoundTrip(quantity, f, t);
  }

  /** Converting through an intermediate unit is converting directly. */
  lemma ConvertCompose(quantity: real, a: string, b: string, c: string)
    requires CompareUnitTypes(a, b) && CompareUnitTypes(b, c)
    ensures ConvertBetween(quantity, a, c).Some?
    ensures ConvertBetween(ConvertBetween(quantity, a, b).value, b, c) == ConvertBetween(quantity, a, c)
  {
    var da := Definition(a).value;
    var db := Definition(b).value;
    var dc := Definition(c).value;
    ConvertBetweenScales(quantity, a, b);
    ConvertBetweenScales(Rescale(quantity, da, db), b, c);
    ConvertBetweenScales(quantity, a, c);
    RescaleCompose(quantity, da, db, dc);
  }

  /** Two cups are 480 millilitres; a pound is 453.59237 grams; cups and grams do not mix. */
  lemma ConversionExamples()
    ensures ConvertBetween(2.0, "cup", "ml") == Some(480.0)
    ensures ConvertBetween(1.0, "lb", "g") == Some(453.59237)
    ensures ConvertBetween(1.0, "cup", "g") == None
  {
  }

  // ---- buildAmountLabel ----

  /** `buildAmountLabel(quantity, unit)`; the quantity is carried as the text it renders to. */
  function BuildAmountLabel(quantity: Option<string>, unit: Option<string>): Option<string>
  {
    if quantity.None? || !Truthy(unit) then None
    else
      var normalized := NormalizeUnit(unit);
      Some(quantity.value + (if normalized.Some? then normalized.value else unit.value))
  }

  /** The label is missing exactly when the quantity or the unit is. Otherwise it
      is the quantity followed by the unit's key when the unit is in the table,
      and by the unit as given when it is not. */
  lemma AmountLabelShape(quantity: Option<string>, unit: Option<string>)
    ensures BuildAmountLabel(quantity, unit).None? <==> quantity.None? || unit.None? || unit.value == ""
    ensures BuildAmountLabel(quantity, unit).Some? ==>
      StartsWith(BuildAmountLabel(quantity, unit).value, quantity.value)
    ensures BuildAmountLabel(quantity, unit).Some? && NormalizeUnit(unit).Some? ==>
      && BuildAmountLabel(quantity, unit).value == quantity.value + NormalizeUnit(unit).value
      && GetUnitInfo(unit) == Definition(NormalizeUnit(unit).value)
      && GetUnitInfo(unit).Some?
    ensures BuildAmountLabel(quantity, unit).Some? && NormalizeUnit(unit).None? ==>
      && BuildAmountLabel(quantity, unit).value == quantity.value + unit.value
      && GetUnitInfo(unit).None?
  {
    GetUnitInfoIsNormalized(unit);
    if BuildAmountLabel(quantity, unit).Some? {
      var rest := if NormalizeUnit(unit).Some? then NormalizeUnit(unit).value else unit.value;
      StartsWithConcat(quantity.value, rest);
    }
  }

  // ---- Lookups as written: plain-object reads reach Object.prototype ----

  /** The members every plain object inherits from `Object.prototype`. */
  const InheritedNames: set<string> := {
    "constructor", "__proto__", "hasOwnProperty", "isPrototypeOf", "propertyIsEnumerable",
    "toLocaleString", "toString", "valueOf",
    "__defineGetter__", "__defineSetter__", "__lookupGetter__", "__lookupSetter__"
  }

  /** What reading a property of a plain object yields. */
  datatype Property<T> = Own(value: T) | Inherited(name: string) | Absent

  /** A JavaScript number: a finite value or NaN. */
  datatype JsNumber = Finite(value: real) | NaN

  /** `UNIT_DEFINITIONS[key]` as the code reads it. */
  function DefinitionAsWritten(key: string): Property<UnitDef>
  {
    var own := Definition(key);
    if own.Some? then Own(own.value)
    else if key in InheritedNames then Inherited(key)
    else Absent
  }

  /** `convertToBase` as written: an inherited member is truthy and has no `toBase`,
      so the product is NaN. */
  function ConvertToBaseAsWritten(quantity: real, unit: string): Option<JsNumber>
  {
    match DefinitionAsWritten(unit)
    case Own(d) => Some(Finite(quantity * d.toBase))
    case Inherited(_) => Some(NaN)
    case Absent => None
  }

  /** `convertBetween` as written: two inherited members both have an undefined
      `type`, pass the type check, and the division yields NaN. */
  function ConvertBetweenAsWritten(quantity: real, from: string, to: string): Option<JsNumber>
  {
    var f := DefinitionAsWritten(from);
    var t := DefinitionAsWritten(to);
    if f.Absent? || t.Absent? then None
    else if f.Own? != t.Own? then None
    else if f.Own? && f.value.kind != t.value.kind then None
    else
      var base := ConvertToBaseAsWritten(quantity, from);
      if base.Some? && base.value.Finite? && t.Own? then Some(Finite(base.value.value / t.value.toBase))
      else Some(NaN)
  }

  /** On every name outside `Object.prototype` the code as written agrees with the model. */
  lemma ConvertBetweenAsWrittenAgrees(quantity: real, from: string, to: string)
    requires from !in InheritedNames && to !in InheritedNames
    ensures ConvertBetweenAsWritten(quantity, from, to).None? <==> ConvertBetween(quantity, from, to).None?
    ensures ConvertBetween(quantity, from, to).Some? ==>
      ConvertBetweenAsWritten(quantity, from, to) == Some(Finite(ConvertBetween(quantity, from, to).value))
  {
    OwnOrAbsent(from);
    OwnOrAbsent(to);
    BaseAsWritten(quantity, from);
  }

  /** Outside `Object.prototype` the product as written is the model's. */
  lemma BaseAsWritten(quantity: real, key: string)
    requires key !in InheritedNames
    ensures ConvertToBaseAsWritten(quantity, key)
      == if ConvertToBase(quantity, key).Some? then Some(Finite(ConvertToBase(quantity, key).value)) else None
  {
    OwnOrAbsent(key);
  }

  /** Outside `Object.prototype` a read finds the table's own row or nothing. */
  lemma OwnOrAbsent(key: string)
    requires key !in InheritedNames
    ensures DefinitionAsWritten(key) == if Definition(key).Some? then Own(Definition(key).value) else Absent
  {
  }

  /** `convertBetween(1, "constructor", "constructor")` gives NaN where no unit means null. */
  lemma InheritedNameConvertsToNaN()
    ensures ConvertBetweenAsWritten(1.0, "constructor", "constructor") == Some(NaN)
    ensures ConvertToBaseAsWritten(1.0, "constructor") == Some(NaN)
    ensures ConvertBetween(1.0, "constructor", "constructor") == None
  {
  }

  /** `UNIT_ALIAS_LOOKUP[cleaned] || null` as the code reads it. */
  function NormalizeUnitAsWritten(raw: Option<string>): Property<string>
  {
    if raw.None? || raw.value == "" then Absent
    else
      var cleaned := Clean(raw.value);
      var own := AliasLookup(cleaned);
      if own.Some? then Own(own.value)
      else if cleaned in InheritedNames then Inherited(cleaned)
      else Absent
  }

  /** In a well-formed table a word is indexed only when it is itself a spelling. */
  lemma {:induction false} OwnerIsSpelling(rows: seq<Row>, word: string)
    requires WellFormed(rows)
    ensures OwnerIn(rows, word).Some? ==> exists i :: 0 <= i < |rows| && word in rows[i].1
  {
    if rows != [] {
      var last := |rows| - 1;
      if Spells(rows[last].1, word) {
        var a :| a in rows[last].1 && ToLower(a) == word;
        LowerWordIsLower(a);
      } else {
        WellFormedInit(rows);
        OwnerIsSpelling(rows[..last], word);
        if OwnerIn(rows, word).Some? {
          var i :| 0 <= i < last && word in rows[..last][i].1;
          assert rows[..last][i] == rows[i];
        }
      }
    }
  }

  lemma ConstructorIsNoSpelling()
    ensures forall i :: 0 <= i < |Spellings| ==> "constructor" !in Spellings[i].1
  {
  }

  /** `normalizeUnit("constructor")` returns the inherited `Object` function, which is
      no unit key, where the model returns nothing. */
  lemma ConstructorNormalizesAsWritten()
    ensures NormalizeUnitAsWritten(Some("constructor")) == Inherited("constructor")
    ensures NormalizeUnit(Some("constructor")) == None
  {
    assert LowerWord("constructor");
    LowerWordIsClean("constructor");
    TableWellFormed();
    OwnerIsSpelling(Spellings, "constructor");
    ConstructorIsNoSpelling();
  }
}

=== FILE: wrappers.dfy ===
/** Option and Result values used for the source's `null` returns and thrown errors. */
module Wrappers {

  datatype Option<+T> = None | Some(value: T)

  datatype Result<+T, +E> = Ok(value: T) | Err(error: E)
}
